=== FILE: README.md ===
# temdisponivellib: collision and bookkeeping core in Dafny

This project models the logic layer of `temdisponivellib`, a small pygame-based game engine written in Python 2. It covers five parts:

- the overlap tests of box and circle colliders, in both source revisions;
- the grid-cell partition that places colliders in cells of side 75;
- the physics sweep that classifies each tested pair as a collision enter, stay or exit;
- the registry that files component classes under the collision callbacks they define;
- the queued, deferred bookkeeping of a game object's components and of a scene's game objects.

Every operation is a pure function over immutable datatypes. Process-wide class attributes (`_colliders_by_area`, `_active_collisions`, `_started_game_object_by_*`, the registry, the id counter) become explicit parameters and results.

| file | module | models |
|---|---|---|
| `wrappers.dfy` | `Wrappers` | `Option` and `Result` |
| `seqs.dfy` | `Seqs` | Python list idioms: `if x not in l: l.append(x)`, `l.remove(x)`, list difference |
| `shapes.dfy` | `Shapes` | rectangles, circles, colliders, `check_collision` of the current revision |
| `partition.dfy` | `Partition` | cells of a region, `_insert_in_area`, `_remove_from_area`, `_update_areas`, setters, `update`/`start`/`finish`, subclass constructors |
| `legacy.dfy` | `Legacy` | `validate_collision` and `_insert_in_area` of the earlier revision |
| `physics.dfy` | `Physics` | the rate gate, enter/stay/exit classification, the cell sweep |
| `registry.dfy` | `Registry` | `Component.__init__` registration, `get_class_by_callback`, `is_unique` |
| `gameobjects.dfy` | `GameObjects` | component queues and map, `get_component(s)`, ids, started-object registries |
| `scenes.dfy` | `Scenes` | game-object queues, the flush, drawables and drawers, persistent carry-over |

## Reading of the source

The model makes these choices where the source is ambiguous, or where it cannot run as written:

- **Integer division.** Coordinates are integers. `width / 2` is Python 2 floor division on ints, and `x % 75` uses a positive divisor. Dafny's Euclidean `/` and `%` agree with both. `math.fabs` and `math.pow(_, 2)` are absolute value and squaring.
- **Region of a collider.** `_get_areas_of_region` is passed the collider itself. Its small-region branch reads `rect.transform.left` (temdisponivellib/builtin_components/collider.py:159), which the model takes as the region's left edge `x`.
  - For a circle, `width` and `height` are methods returning the radius (lines 292-296). Python 2 orders every number below a bound method, so a circle fails the small-region test and takes both large-region loops whatever its radius (Findings). The corrected region, `Partition.CircleAreas`, uses the radius as width and height.
  - The large-region branch (lines 161-169) is modelled exactly as written. `Partition.WideRegionNearOriginHasNoCells` shows that it is not a tiling.
- **`update` of the subclasses.** `BoxCollider.update` and `CircleCollider.update` call `super(Collider, self).update()`, which skips `Collider.update`. As written, a collider's cells are therefore never recomputed after `start` (Findings, `Partition.SubclassUpdateAsWritten`). `Partition.Update` models `Collider.update` itself, and `Partition.SubclassUpdate` is the subclasses' `update` with it reached.
  - `Collider.update` tests `if not self._changed: pass`, which does not return. So the cells are recomputed whether or not the collider is dirty, and the model does the same.
- **Order of set differences.** `list(set(a) - set(b))` has no defined order. `Seqs.Minus` keeps list order. The resulting grid does not depend on it.
- **`_last_values`.** It is recorded by the setters and read nowhere. The model records it.
- **Neighbour pairs.** The pair loop tests only neighbours `(i, i + 1)` in a cell's list (temdisponivellib/physics.py:55-59), not every pair of colliders in the cell. The model follows the code.
- **What a sweep should report.** `Physics.Expected` and `Physics.InContact` define the callbacks from the tests alone. A test that finds overlap raises stay if its pair was already in contact and enter otherwise. A test that finds none raises exit if the pair was in contact and nothing otherwise. A pair is in contact if its last test found overlap; an untested pair keeps what the table said. The sweep is proved to raise exactly these callbacks.
- **Unassigned callback.** `callback` is a local of the whole sweep and is never reset. When neither branch of the pair loop assigns it, it keeps the previous pass's value; if no pass has assigned it yet, reading it raises `UnboundLocalError` and the sweep stops (Findings, `Physics.RunCarrying`). Inverting the dispatch test alone would then dispatch the stale value for a pair that raised nothing (`Physics.StaleCallbackRedispatched`). The corrected sweep, `Physics.Run`, starts each pass with no callback and dispatches nothing for such a pair.
- **Identity.** Python object identity is modelled by ids:
  - colliders are `Partition.ColliderId`, and pairs are keyed by game-object ids;
  - `_started_game_object_by_id` is kept as its key set, because each id maps to its own object;
  - the scene's drawer list and drawable map hold object ids.
- **Scene view of a game object.** The scene reads a game object only through `get_component(IDrawable)`, `get_component(IDrawer)`, `id` and `persistent`. `Scenes.SceneObject` is that view, taken after the object's `start`. The exceptions of `start` and `finish` are swallowed inside the flush, so the flush cannot fail.
- **Dict iteration order.** `Scene.finish` iterates `_game_objects.values()` in dictionary order. That order is the `order` parameter of `Scenes.Finish`.
- **Earlier revision.** The earlier revision (temdisponivellib_pygame/) cannot be defined as written; "## Left out" lists why. `Legacy` models what its functions evidently mean.
  - Its `_insert_in_area` calls `list.insert(self)` with one argument, which raises `TypeError` (Findings, `Legacy.InsertInAreaAsWritten`).
  - `Legacy.InsertInArea` reads that call as the append it evidently stands for.
- **Capability order.** A component's capability is chosen by the `isinstance` tests, in their order: `IDrawable` first, then `IDrawer`. The scene hooks test both independently, so a component can be both there (`Scenes.ComponentView`).

## Model

| member | source | states |
|---|---|---|
| Shapes.NewBoxCollider | temdisponivellib/builtin_components/collider.py:212-218 | a box collider reports the `BOX` tag and covers the given position and size (given `Collider.__init__` has run; as written the constructor raises first, `Partition.NewBoxAttributesAsWritten`) |
| Shapes.NewCircleColliderAsWritten | temdisponivellib/builtin_components/collider.py:241-245 | as written, a constructed circle reports no type tag (given `Collider.__init__` has run; otherwise the constructor raises first, `Partition.NewCircleAttributesAsWritten`) |
| Shapes.NewCircleCollider | temdisponivellib/builtin_components/collider.py:241-245 | corrected constructor: the circle reports the `CIRCLE` tag |
| Shapes.CheckCollision | temdisponivellib/builtin_components/collider.py:225-263 | corrected dispatch: the base collider and an untagged other never collide; two boxes use the interval-overlap test; a circle tests a circle by distance and a box about its centre; a box facing a tagged circle takes the circle's answer |
| Shapes.BoxOverlapAsWrittenMeaning | temdisponivellib/builtin_components/collider.py:225-228 | the box test as written holds iff twice the corner offset is below the summed size, in both directions on both axes |
| Shapes.BoxOverlapAsWrittenSymmetric | temdisponivellib/builtin_components/collider.py:225-228 | the box test as written does not depend on argument order |
| Shapes.BoxOverlapAsWrittenAgreesOnEqualSizes | temdisponivellib/builtin_components/collider.py:225-228 | on boxes of equal size the test as written equals the interval-overlap test |
| Shapes.BoxOverlapAsWrittenAcceptsDisjointBoxes | temdisponivellib/builtin_components/collider.py:225-228 | two boxes that share no pixel are reported colliding by the test as written |
| Shapes.BoxOverlapIffSharedPixel | temdisponivellib/builtin_components/collider.py:204-210 | for top-left-anchored boxes, the corrected test holds iff some pixel lies in both |
| Shapes.BoxExamples | temdisponivellib/builtin_components/collider.py:225-228 | (0,0,10,10) meets (5,5,10,10) and misses (20,20,10,10) |
| Shapes.CircleOverlapSymmetric | temdisponivellib/builtin_components/collider.py:284-290 | circle–circle overlap does not depend on argument order |
| Shapes.CircleOverlapsItself | temdisponivellib/builtin_components/collider.py:284-290 | every circle overlaps itself |
| Shapes.CircleOverlapExamples | temdisponivellib/builtin_components/collider.py:284-290 | radius 5 at the origin meets radius 5 at (7,7) and misses it at (8,8) |
| Shapes.CircleBoxEarlyReject | temdisponivellib/builtin_components/collider.py:269-272 | beyond half-extent plus radius on either axis the answer is false, whatever the corner test would say |
| Shapes.CircleBoxEarlyAccept | temdisponivellib/builtin_components/collider.py:274-277 | past the rejects, a centre within the half-extent on either axis is a hit |
| Shapes.CircleBoxIsClosestPoint | temdisponivellib/builtin_components/collider.py:265-282 | with radius ≥ 0 the case analysis equals the clamped closest-point test |
| Shapes.ClosestPointIffSharedPoint | temdisponivellib/builtin_components/collider.py:265-282 | the closest-point test holds iff some integer point of the box lies within the radius |
| Shapes.CircleBoxIffSharedPoint | temdisponivellib/builtin_components/collider.py:265-282 | circle–box overlap holds iff the circle and the box share a point |
| Shapes.BoxDefersToCircle | temdisponivellib/builtin_components/collider.py:229-230 | a box facing a circle returns exactly the circle's answer about the box |
| Shapes.CheckCollisionSymmetric | temdisponivellib/builtin_components/collider.py:225-263 | between tagged colliders, the answer does not depend on which one asks |
| Shapes.BaseColliderNeverCollides | temdisponivellib/builtin_components/collider.py:35-41 | the base collider neither hits nor is hit |
| Shapes.UntaggedCircleIsOneSided | temdisponivellib/builtin_components/collider.py:241-245 | with the tag unset and the box's centre corrected, a circle hits a box that does not hit it back; as written, the circle's question raises and the box still answers no |
| Shapes.UntaggedCircleNeverHit | temdisponivellib/builtin_components/collider.py:241-245 | with the tag unset, no collider ever hits a circle, whether the dispatch is corrected or as written |
| Shapes.TaggedCircleHitsItsTwin | temdisponivellib/builtin_components/collider.py:284-290 | with the tag set, a circle collides with an identical circle |
| Shapes.CheckCollisionAsWritten | temdisponivellib/builtin_components/collider.py:225-267 | as written, a circle facing a box or a box facing a tagged circle raises `AttributeError` on `centerx`; two boxes use the corner test; every other pair answers as the corrected dispatch |
| Shapes.CircleBoxRaisesAsWritten | temdisponivellib/builtin_components/collider.py:259-267 | a tagged radius-5 circle and a box it overlaps raise as written, whichever of the two asks |
| Shapes.BoxDispatchDisagreesAsWritten | temdisponivellib/builtin_components/collider.py:225-228 | boxes (0,0,10,10) and (14,0,30,10) collide as written and do not after correction |
| Partition.CollidersIn | temdisponivellib/builtin_components/collider.py:181-189 | a cell never populated reads as the empty list; a listed cell repeats no collider |
| Partition.WideCells | temdisponivellib/builtin_components/collider.py:162-164 | the row enumeration yields `max(left / L, 0)` cells when wider than a cell, none otherwise: exactly the cells of the region's row from its own cell rightwards, none twice |
| Partition.TallCells | temdisponivellib/builtin_components/collider.py:165-168 | the column enumeration yields `max(top / L, 0)` cells when taller than a cell, none otherwise: exactly the cells of the region's column from its own cell downwards, none twice |
| Partition.AreasOfRegion | temdisponivellib/builtin_components/collider.py:156-169 | a region smaller than a cell gets its own cell; otherwise exactly the cells of its row (if wider than a cell) and of its column (if taller), and only its own cell can appear twice |
| Partition.SmallRegionHasOneCell | temdisponivellib/builtin_components/collider.py:158-159 | a region smaller than a cell maps to exactly `(left % L, top % L)`, both in `[0, L)` |
| Partition.WideRegionNearOriginHasNoCells | temdisponivellib/builtin_components/collider.py:161-169 | a wide region with its left edge in the first cell column, no taller than a cell, gets no cell |
| Partition.CellSizedRegionHasNoCells | temdisponivellib/builtin_components/collider.py:158-169 | a region exactly one cell wide and no taller falls through both branches |
| Partition.CircleAreasAsWritten | temdisponivellib/builtin_components/collider.py:157-169 | as written, a circle gets both large-region enumerations whatever its radius: `max(x / L, 0) + max(y / L, 0)` cells, each in the circle's cell row or column |
| Partition.CircleAreas | temdisponivellib/builtin_components/collider.py:292-296 | with the radius as its size, a circle smaller than a cell lies in exactly its own cell; one larger than a cell gets the cells as written |
| Partition.CircleNearOriginHasNoCellsAsWritten | temdisponivellib/builtin_components/collider.py:157-169 | a circle centred in the first cell lies in no cell as written, and in exactly that cell when corrected |
| Partition.InsertInAreaAsWritten | temdisponivellib/builtin_components/collider.py:118-124 | as written, insertion raises iff there is a cell to insert into |
| Partition.StartRaisesAsWritten | temdisponivellib/builtin_components/collider.py:118-124 | as written, registering any collider smaller than a cell raises |
| Partition.InsertInArea | temdisponivellib/builtin_components/collider.py:118-127 | each given cell is created if needed and gets the collider appended unless it already lists it; other cells unchanged; every other collider is listed in the same cells as before; lists free of repeats stay so |
| Partition.RemoveFromArea | temdisponivellib/builtin_components/collider.py:129-137 | no cell is created or dropped; cells not given are unchanged; every other collider is listed in the same cells as before; when no list repeats a collider, each given cell loses its occurrence of the collider and none gains a repeat |
| Partition.InsertThenRemoveRestoresCells | temdisponivellib/builtin_components/collider.py:118-137 | inserting into cells and removing from the same cells restores every list |
| Partition.UpdateAreas | temdisponivellib/builtin_components/collider.py:109-116 | the cached cells become the fresh region; only old∖new lose the collider, only new∖old gain it, all other cells untouched; every other collider keeps its cells |
| Partition.UpdateAreasKeepsTracking | temdisponivellib/builtin_components/collider.py:109-116 | if the grid lists the collider exactly in its cached cells, it still does for the new cells |
| Partition.UpdateAreasTouchesOnlyTheDifference | temdisponivellib/builtin_components/collider.py:112-115 | a cell in both or neither of old and new keeps its list |
| Partition.NewColliderState | temdisponivellib/builtin_components/collider.py:18-27 | a new collider has the given identity and bounds, caches no cell, is clean, has recorded nothing, and holds exactly the attributes `Collider.__init__` sets |
| Partition.Set | temdisponivellib/builtin_components/collider.py:51-85 | a setter stores the value, records the previous one, marks dirty, and changes nothing else |
| Partition.SetAttribute | temdisponivellib/builtin_components/collider.py:51-55 | a setter raises iff the attribute it first reads was never set |
| Partition.SetBounds | temdisponivellib/builtin_components/collider.py:215-218 | the four setters succeed iff all four coordinates exist, and then store the given values |
| Partition.NewBoxAttributesAsWritten | temdisponivellib/builtin_components/collider.py:212-218 | as written, constructing a box always raises |
| Partition.BoxConstructorRaisesAsWritten | temdisponivellib/builtin_components/collider.py:212-218 | the first setter raises reading `_x` |
| Partition.NewBoxAttributes | temdisponivellib/builtin_components/collider.py:212-218 | with `Collider.__init__` run first, construction stores exactly the given bounds |
| Partition.SetPosition | temdisponivellib/builtin_components/collider.py:244-245 | the `x` and `y` setters succeed iff both coordinates exist, and then store the given centre |
| Partition.NewCircleAttributesAsWritten | temdisponivellib/builtin_components/collider.py:241-245 | as written, constructing a circle always raises |
| Partition.CircleConstructorRaisesAsWritten | temdisponivellib/builtin_components/collider.py:241-245 | the first setter raises reading `_x` |
| Partition.NewCircleAttributes | temdisponivellib/builtin_components/collider.py:241-245 | with `Collider.__init__` run first, construction stores the centre and radius and leaves the size zero |
| Partition.SetIsSetAttribute | temdisponivellib/builtin_components/collider.py:51-85 | a setter on the collider state is the attribute setter on its coordinates, and never raises |
| Partition.Update | temdisponivellib/builtin_components/collider.py:103-116 | the cells are recomputed whatever the dirty flag says, the flag is cleared, and tracking is kept; only cells the collider entered appear, cells it neither left nor entered keep their lists, and every other collider keeps its cells |
| Partition.SubclassUpdateAsWritten | temdisponivellib/builtin_components/collider.py:220-223 | as written, the subclasses' `update` moves the collider and leaves it dirty, but the grid and the cached cells stay exactly as they were |
| Partition.SubclassUpdate | temdisponivellib/builtin_components/collider.py:220-223 | corrected: after the move the cached cells are the new region's, the flag is clear, tracking is kept and every other collider keeps its cells |
| Partition.MovedColliderStaysInOldCellAsWritten | temdisponivellib/builtin_components/collider.py:247-249 | a small box moved from (0, 0) to (80, 0) stays listed in cell (0, 0) and missing from (5, 0) as written, and is listed only in (5, 0) corrected |
| Partition.UpToDateUpdateLeavesGrid | temdisponivellib/builtin_components/collider.py:103-116 | updating a collider whose cached cells are current leaves the grid unchanged |
| Partition.Start | temdisponivellib/builtin_components/collider.py:29-30 | start caches the region's cells, leaves the flag alone and keeps tracking; only cells the collider entered appear, cells it neither left nor entered keep their lists, and every other collider keeps its cells |
| Partition.Finish | temdisponivellib/builtin_components/collider.py:32-33 | after finish a tracked collider is listed in no cell; no cell appears or goes, cells it did not cache keep their lists, and every other collider keeps its cells |
| Partition.RemoveFromAreaUntracks | temdisponivellib/builtin_components/collider.py:129-137 | removing a collider from all its listed cells leaves it listed nowhere |
| Partition.StartThenFinishRestoresCells | temdisponivellib/builtin_components/collider.py:29-33 | starting a fresh collider and finishing it restores every cell's list |
| Legacy.ValidateCollision | temdisponivellib_pygame/builtin_components/collider.py:145-183 | the base collider answers false; a box facing a circle returns the circle's answer (circle–box with the box's centre, as in the current revision's corrected dispatch) |
| Legacy.BaseValidateIsFalse | temdisponivellib_pygame/builtin_components/collider.py:32-38 | the base `validate_collision` is false for every argument |
| Legacy.BoxTestIsCurrentAsWritten | temdisponivellib_pygame/builtin_components/collider.py:145-148 | the box test is the same doubled-distance strict test on both axes |
| Legacy.CircleCircleTestIsCurrent | temdisponivellib_pygame/builtin_components/collider.py:204-210 | circle–circle collides iff the squared distance is at most the squared radius sum |
| Legacy.CircleBoxTestIsCurrent | temdisponivellib_pygame/builtin_components/collider.py:185-202 | the circle–box rejects, accepts and corner test agree with the current revision |
| Legacy.CircleBoxCorner | temdisponivellib_pygame/builtin_components/collider.py:199-202 | past the rejects and accepts, a hit iff the corner offset's squared length is at most r² |
| Legacy.RevisionsAgree | temdisponivellib_pygame/builtin_components/collider.py:145-183 | the revisions agree on every pair except two boxes, where this one keeps the test as written |
| Legacy.InsertInAreaAsWritten | temdisponivellib_pygame/builtin_components/collider.py:92-99 | as written, insertion raises iff some given cell does not list the collider yet, and otherwise changes nothing |
| Legacy.InsertRaisesAsWritten | temdisponivellib_pygame/builtin_components/collider.py:96-99 | registering a collider that no cell lists raises as soon as there is a cell |
| Legacy.InsertAsWrittenAgrees | temdisponivellib_pygame/builtin_components/collider.py:96-99 | where the insertion as written does not raise, the corrected insertion gives the same grid |
| Legacy.InsertInArea | temdisponivellib_pygame/builtin_components/collider.py:92-99 | corrected: every computed cell is created if needed and gets the collider appended unless it already lists it; no other cell appears or changes; lists stay free of repeats |
| Legacy.InsertInAreaIdempotent | temdisponivellib_pygame/builtin_components/collider.py:96-99 | inserting a second time adds nothing: each cell lists the collider at most once |
| Physics.ShouldCheckIffMultiple | temdisponivellib/physics.py:33-35 | a frame is checked iff it is a whole multiple of the rate, for rates and frames of either sign |
| Physics.NextCheckOneRateLater | temdisponivellib/physics.py:33-35 | a checked frame is followed by another exactly one rate later |
| Physics.NoCheckWithinRate | temdisponivellib/physics.py:33-35 | no frame strictly between two consecutive checks is checked |
| Physics.Update | temdisponivellib/physics.py:33-35 | a zero rate raises on every frame; off-rate frames dispatch nothing and keep the table; checked frames run the sweep and dispatch exactly the reference callbacks |
| Physics.Classify | temdisponivellib/physics.py:60-76 | overlap with either key present: stay, table kept; with neither: enter, exactly `(a, b)` added; no overlap: exit deleting `(a, b)`, else `(b, a)`; else nothing |
| Physics.ClassifyKeepsNoMirrored | temdisponivellib/physics.py:63-69 | the table never holds a key together with its mirror |
| Physics.ClassifyTracksOverlap | temdisponivellib/physics.py:62-76 | after a test the pair is active iff the test found overlap |
| Physics.ClassifyLeavesOtherPairs | temdisponivellib/physics.py:60-76 | a test never changes another pair's entry |
| Physics.EnterStayExit | temdisponivellib/physics.py:62-76 | overlap, overlap, no overlap give enter, stay, exit, and the table ends as it began |
| Physics.DispatchedAsWritten | temdisponivellib/physics.py:77-78 | as written, no classification is ever dispatched |
| Physics.Dispatched | temdisponivellib/physics.py:77-78 | corrected: a classification is dispatched iff there is one, with its two colliders |
| Physics.EnterIsSilentAsWritten | temdisponivellib/physics.py:67-78 | a fresh overlapping pair classifies as enter, which as written is never dispatched |
| Physics.NeighbourPairsAsWritten | temdisponivellib/physics.py:55-59 | the loop tests one pair per collider in the cell |
| Physics.AsWrittenReadsPastTheEnd | temdisponivellib/physics.py:55-59 | for any non-empty cell, the last pair indexes one past the end |
| Physics.NeighbourPairs | temdisponivellib/physics.py:55-59 | corrected: every `(i, i + 1)` with both indices in range, one fewer than the colliders |
| Physics.NeighbourPairsDropTheLast | temdisponivellib/physics.py:55-59 | the corrected pairs are the ones as written without the out-of-range last |
| Physics.Run | temdisponivellib/physics.py:55-78 | corrected: with `callback` reset on each pass and the test read as `is not None`, the pair loop keeps the no-mirror invariant and raises at most one callback per test, each about a tested pair |
| Physics.RunCarrying | temdisponivellib/physics.py:62-78 | as written the sweep raises iff its first pass classifies nothing; otherwise its table is the corrected sweep's and nothing is dispatched, while with only the test inverted every pass dispatches the callback variable for its own pair |
| Physics.StaleCallbackRedispatched | temdisponivellib/physics.py:62-78 | pairs found overlapping and then apart, from an empty table: with only the test inverted both get an enter; corrected only the first; as written neither |
| Physics.UnboundCallbackRaises | temdisponivellib/physics.py:70-77 | a sweep whose first pass finds an inactive pair apart raises `UnboundLocalError`, whatever follows |
| Physics.CarryingAgreesWhenEveryPassClassifies | temdisponivellib/physics.py:62-78 | when every pass assigns `callback`, the sweep with only the test inverted dispatches exactly what the corrected sweep does |
| Physics.RunTracksContact | temdisponivellib/physics.py:60-76 | after the tests a pair is active iff its last test found overlap, or, if untested, iff it was active before |
| Physics.RunRaisesExpected | temdisponivellib/physics.py:60-78 | the callbacks dispatched are exactly the reference ones, in test order |
| Physics.RunLeavesUntestedPairs | temdisponivellib/physics.py:60-76 | a key no test concerns keeps its presence and its entry |
| Physics.RunAppend | temdisponivellib/physics.py:52-53 | sweeping two batches of tests one after the other is sweeping them as one |
| Physics.CheckPairs | temdisponivellib/physics.py:53-78 | a cell's tests dispatch exactly the reference callbacks (`Physics.Expected`): enter when newly overlapping, stay when already in contact, exit when leaving contact; afterwards a pair is active iff it is in contact; untested keys keep their presence; the no-mirror invariant is kept; each callback is about colliders of the cell |
| Physics.CheckCell | temdisponivellib/physics.py:53-59 | the neighbour tests of a cell dispatch exactly the reference callbacks, fewer than n for n colliders, and leave each pair active iff in contact |
| Physics.CheckCells | temdisponivellib/physics.py:47-78 | the cell-by-cell sweep is one run over all cells' tests: exactly the reference callbacks, contact tracked across cells, every dispatched pair in one cell, no-mirror invariant kept |
| Registry.ClassesWith | temdisponivellib/component.py:18-22 | the classes defining a callback, in construction order |
| Registry.ClassesFor | temdisponivellib/component.py:75-78 | an unregistered name yields the empty list, a registered one its list |
| Registry.FileUnder | temdisponivellib/component.py:18-22 | a class is filed under exactly the callback names it defines, appended to each such list |
| Registry.Register | temdisponivellib/component.py:13-22 | a seen class changes nothing; a new one is appended to the validated list and filed under its callbacks |
| Registry.RegisterKeepsConsistent | temdisponivellib/component.py:16-22 | each callback's list stays the validated classes defining it, in first-construction order, with no repeats |
| Registry.RegisterIdempotent | temdisponivellib/component.py:16-17 | a second construction of a class changes nothing |
| Registry.ListedIffDefines | temdisponivellib/component.py:18-22 | a class is listed under a callback iff it was constructed and defines it; no list repeats a class |
| Registry.RegisterAll | temdisponivellib/component.py:13-22 | a run of constructions keeps the registry consistent and validates exactly the classes seen |
| Registry.IsUnique | temdisponivellib/component.py:60-67 | a component is unique unless its class overrides `is_unique` |
| GameObjects.StorageKey | temdisponivellib/gameobject.py:146-151 | a unique drawable is stored under `IDrawable`, a drawer under `IDrawer`, and any other component under its class |
| GameObjects.AddNow | temdisponivellib/gameobject.py:142-155 | a unique component raises iff its class key is present, else is stored under its storage key; a shared one raises iff its class key holds a single value, else is listed once; nothing listed is lost; lists stay free of repeats |
| GameObjects.RemoveNow | temdisponivellib/gameobject.py:172-185 | an absent class is a no-op; a list loses the component; a drawable's or drawer's slot becomes `None`; another key is deleted |
| GameObjects.RemoveNowShrinks | temdisponivellib/gameobject.py:172-185 | a removal adds no class key, list element or list; the component leaves its class list; a plain one holding its class key alone deletes it |
| GameObjects.SharedAddListsOnce | temdisponivellib/gameobject.py:152-155 | adding a shared component twice equals adding it once |
| GameObjects.SharedAddThenRemove | temdisponivellib/gameobject.py:152-178 | adding then removing a shared component restores the map |
| GameObjects.UniqueAddThenRemove | temdisponivellib/gameobject.py:143-185 | adding then removing a unique plain component restores the map |
| GameObjects.UniquePlainTwiceRaises | temdisponivellib/gameobject.py:143-145 | a second unique plain component of the same class raises |
| GameObjects.UniqueDrawableAsWritten | temdisponivellib/gameobject.py:143-185 | a second unique drawable of a class replaces the first without raising, and removing one is a no-op |
| GameObjects.AddNowGrows | temdisponivellib/gameobject.py:142-155 | a successful addition keeps every single value (exactly, under a class key), adds to a list at most the component, and adds no class key but its own |
| GameObjects.GetComponent | temdisponivellib/gameobject.py:202-212 | an absent key or a `None` slot gives `None`; a single value gives itself; a non-empty list gives its first element; an empty list raises |
| GameObjects.GetComponents | temdisponivellib/gameobject.py:214-224 | an absent key gives `None`; a list gives its elements in order; a single value gives `[value]`; a `None` slot gives `[None]` |
| GameObjects.GetComponentIsHeadOfGetComponents | temdisponivellib/gameobject.py:202-224 | `get_component` is the head of `get_components`, raising exactly on an empty list |
| GameObjects.AddComponent | temdisponivellib/gameobject.py:124-131 | only the addition queue changes |
| GameObjects.RemoveComponent | temdisponivellib/gameobject.py:133-140 | only the removal queue changes |
| GameObjects.RemoveAll | temdisponivellib/gameobject.py:115-116 | removals add no class key, list element or list; every removed component leaves its class list; a removed plain component whose class key held one value deletes the key; lists stay free of repeats |
| GameObjects.AddAll | temdisponivellib/gameobject.py:118-119 | additions lose no listed component and list only the map's or the added ones; new class keys are the added classes; without an exception every shared one is listed, every single value survives, a unique plain one holds its class key, and a unique drawable or drawer leaves its interface slot holding one value |
| GameObjects.UpdateComponentList | temdisponivellib/gameobject.py:114-122 | without an exception both queues end empty, each queued shared component is listed and each queued unique one stored; a removed component not queued again is unlisted, and a removed plain class key not added again stays deleted; an exception leaves the queues |
| GameObjects.RemovalsBeforeAdditions | temdisponivellib/gameobject.py:114-122 | a shared component queued for both removal and addition is listed after the flush |
| GameObjects.EmptyQueuesFlushNothing | temdisponivellib/gameobject.py:114-122 | with nothing queued the flush changes nothing |
| GameObjects.DecimalString | temdisponivellib/gameobject.py:28 | `str` of a natural number is a non-empty string of decimal digits |
| GameObjects.DecimalStringValue | temdisponivellib/gameobject.py:28 | the digits `str(n)` prints denote `n` |
| GameObjects.DecimalStringInjective | temdisponivellib/gameobject.py:28 | distinct ids give distinct default names |
| GameObjects.NewGameObject | temdisponivellib/gameobject.py:25-36 | the id is the counter plus one, the name is "GameObject " and the id, queues are empty, the `Transform` is stored |
| GameObjects.SpawnIds | temdisponivellib/gameobject.py:27-30 | successive ids exceed the counter and strictly increase |
| GameObjects.SpawnedIdsDistinct | temdisponivellib/gameobject.py:27-30 | successive ids are pairwise distinct |
| GameObjects.Enlist | temdisponivellib/gameobject.py:76-81 | start lists the object under its tag and its name and enters its id; no other list changes |
| GameObjects.DelistAsWritten | temdisponivellib/gameobject.py:95-105 | as written, finish removes only the id entry |
| GameObjects.StaleTagEntryAsWritten | temdisponivellib/gameobject.py:95-105 | after start and finish the object is still listed under its tag |
| GameObjects.Delist | temdisponivellib/gameobject.py:95-105 | corrected: finish drops one occurrence of the object from its tag's list and from its name's list, leaves every other list, and drops the id |
| GameObjects.EnlistThenDelist | temdisponivellib/gameobject.py:76-105 | start then corrected finish of an unregistered object restores every registry |
| GameObjects.Start | temdisponivellib/gameobject.py:76-83 | start registers the object, and marks it started unless the flush raised; its components and exception are the flush's: each queued shared component is listed, each queued unique one stored, each removed one not queued again unlisted, and a raise leaves the queues |
| Scenes.AddGameObject | temdisponivellib/scene.py:111-117 | only the inclusion queue changes |
| Scenes.RemoveGameObject | temdisponivellib/scene.py:119-125 | only the removal queue changes |
| Scenes.Include | temdisponivellib/scene.py:67-79 | the object is stored under its id, entered under its drawable key, and listed once as a drawer |
| Scenes.Exclude | temdisponivellib/scene.py:81-95 | an unknown id is skipped; otherwise the id goes, the drawable key goes iff the object is drawable, the drawer entry goes iff it is a drawer, and everything else is kept |
| Scenes.IncludeAll | temdisponivellib/scene.py:67-79 | every included id is stored with its last inclusion; other ids untouched; an id is a drawer iff it was one or an included object with it has a drawer; a drawable key is entered iff it was or an included object has it |
| Scenes.ExcludeAll | temdisponivellib/scene.py:81-99 | an id survives iff it was stored and no removed object has it; drawers and drawable keys are only removed, and only for removed ids; a stored id all of whose removals have a drawer leaves the drawers; a stored object whose removals agree on its layer and order loses its drawable key |
| Scenes.Flush | temdisponivellib/scene.py:66-102 | an id is stored iff stored or included and not removed; last inclusion wins; an id not removed is a drawer iff it was or an included object with it has a drawer, and likewise for drawable keys; a removed stored or included id leaves the drawers and drawables as `ExcludeAll` says; both queues end empty; invariants kept |
| Scenes.IncludedArePresent | temdisponivellib/scene.py:67-73 | an included object not also removed is stored after the flush |
| Scenes.RemovedAreAbsent | temdisponivellib/scene.py:81-85 | a removed object is absent after the flush, whether its id was stored or not |
| Scenes.UnknownRemovalSkipped | temdisponivellib/scene.py:82-83 | removing an unknown id changes nothing |
| Scenes.FlushIdempotent | temdisponivellib/scene.py:101-102 | a second flush changes nothing |
| Scenes.PersistentOf | temdisponivellib/scene.py:49-51 | exactly the persistent objects are carried over |
| Scenes.Finish | temdisponivellib/scene.py:48-53 | finish appends exactly the persistent stored objects to the carry-over; afterwards an id is stored iff it was queued for inclusion, not stored before and not queued for removal; a stored object not queued for removal leaves the drawers and the drawables |
| Scenes.Start | temdisponivellib/scene.py:27-31 | start empties the carry-over; afterwards an id is stored iff it was stored, queued or carried, and not queued for removal; a carried drawer or drawable not queued for removal is entered |
| Scenes.PersistentSurvivesSceneChange | temdisponivellib/scene.py:27-53 | a persistent object is stored in the next scene after a scene change |
| Scenes.GameObjectAddComponent | temdisponivellib/scene.py:150-155 | a drawable is entered under `(layer, order, id)`; a drawer is listed once |
| Scenes.GameObjectRemoveComponent | temdisponivellib/scene.py:157-163 | the drawable key is deleted if present; the drawer leaves the list |
| Scenes.AddThenRemoveComponent | temdisponivellib/scene.py:150-163 | adding and removing a component restores drawables and drawers |

## Left out

- Drawing: `Physics.draw`, the cameras, the sprite renderers, `Scene.draw` and `Game.draw_something`. They are pygame surface calls.
- The game loop, event handling, time and delta-time (`game.py`, `timeutils.py`, `time.py`). They are pygame plumbing and floating point.
- Loaders. They are asset file I/O.
- Configuration objects. Only `collision_check_rate` and the cell length matter, and they are parameters; the cell length's constant 75 is `Partition.WorldCellLength`.
- `_call_callback` (temdisponivellib/physics.py:80-97). It invokes user methods by reflection, and its names (`collider_enter`) do not match the registered ones (`collision_enter`). The model stops at which callback is produced for which pair.
- The superseded copies `gameobject.py`, `temdisponivellib_pygame/gameobject.py` and `temdisponivellib_pygame/scene.py`. The current copies cover the same logic.
- The earlier revision's `_get_areas_of_collider` and `_remove_from_area`. The former returns nothing in its large-region branch, and the latter calls `insert` where it means `remove`. The earlier `_insert_in_area` takes its cells as a parameter.
- The side effects of `_add_component` and `_remove_component` on the component: `load`, `unload`, `start`, `finish`, setting `game_object`. They call into user code. The scene notification they make is `Scenes.GameObjectAddComponent` / `Scenes.GameObjectRemoveComponent`.
- The component teardown loop of `GameObject.finish` (lines 107-109). It enqueues map values, which may be lists or `None`. Only the registry part of `finish` is modelled.
- `GameObject.update`, `Scene.update` and the per-frame component updates. They call user code.
- The `tag` and `name` setters, and `get_game_object_by_name`, `_by_tag` and `_by_id`. These are getters and setters over the registries. `get_game_object_by_id` reads the by-tag map (line 268).
- `Scene.change_layer_or_order`. It deletes a two-part key from a map keyed by three-part keys.
- `get_colliders`, `get_colliders_my_region` and `get_colliders_in_region`. They are views of the grid; the sweep takes the cells' lists as its input.
- `Registry.IsUnique`: `is_unique` is a property that a subclass may compute at will. The model fixes it per class.
- Shapes.CheckCollision: this is the corrected dispatch, and the physics sweep uses it. As written, a circle facing a box raises `AttributeError`, and two boxes use the corner test (Findings, `Shapes.CheckCollisionAsWritten`).
- Legacy.ValidateCollision, Legacy.InsertInArea and the other `Legacy` members: the earlier revision cannot be defined as written, and the module models what it evidently means.
  - `@property.setter` at temdisponivellib_pygame/builtin_components/collider.py:48, 56, 64, 72 and 175 raises `TypeError` while the class body runs.
  - `class Collider(object, Component)` (line 7), `BoxCollider(object, Collider)` (line 127) and `CircleCollider(object, Collider)` (line 153) have no consistent method resolution order, which is also a `TypeError`.
  - temdisponivellib_pygame/gameobject.py:92, 151 and 374 have the same problem with the order.
- Legacy.ValidateCollision: uses the box's centre in the circle–box test. As written, that branch reads `collider.centerx` (temdisponivellib_pygame/builtin_components/collider.py:186-187) and raises like the current revision's.
- Legacy.InsertInArea: reads the one-argument `list.insert(self)` (temdisponivellib_pygame/builtin_components/collider.py:99) as an append. As written, it raises `TypeError` (Findings, `Legacy.InsertInAreaAsWritten`).
- Shapes.NewCircleColliderAsWritten: describes a circle once `Collider.__init__` has run. As written, the constructor raises before the tag matters (Findings, `Partition.NewCircleAttributesAsWritten`).
- GameObjects.AddAll: for a unique drawable or drawer, promises one value in the interface slot, not that it is this component. A later unique drawable or drawer of any class takes the slot over (`GameObjects.UniqueDrawableAsWritten`).
- Physics.CheckPairs: the model sweeps the corrected neighbour pairs. As written, the sweep raises at the last pair of every non-empty cell (Findings).
- Physics.Run: starts each pass with no callback, which the source never does. As written, a pass that assigns nothing dispatches the previous pass's callback or, before any assignment, raises `UnboundLocalError` (Findings, `Physics.RunCarrying`).
- Partition.AreasOfRegion: takes the region's `x` for the `rect.transform.left` that the small-region branch reads (temdisponivellib/builtin_components/collider.py:159). The collider's own `x` is the evidently meant left edge, and a box's `update` sets it from `transform.left`.
- Partition.Update: models `Collider.update`, which the subclasses' `update` never reaches as written (Findings, `Partition.SubclassUpdateAsWritten`).

## Findings

| source | as written | input that shows it | evidently intended | confidence | as-written member | corrected member |
|---|---|---|---|---|---|---|
| temdisponivellib/builtin_components/collider.py:225-228 | the box–box test compares top-left corners as if they were centres | boxes (0,0,10,10) and (14,0,30,10) share no pixel but are reported colliding (`Shapes.BoxOverlapAsWrittenAcceptsDisjointBoxes`) | the intervals `[x, x + width)` overlap on both axes | medium, not executed | Shapes.BoxOverlapAsWritten | Shapes.BoxOverlap |
| temdisponivellib/builtin_components/collider.py:241-245 | `CircleCollider.__init__` never sets the `CIRCLE` tag | no collider ever hits a circle built as written, not even an identical circle, with the dispatch as written or corrected (`Shapes.UntaggedCircleNeverHit`); with the box's centre corrected, a radius-5 circle at the origin hits box (-5,-5,10,10) but the box does not hit it (`Shapes.UntaggedCircleIsOneSided`) | the tag is set, so the dispatch is symmetric (`Shapes.CheckCollisionSymmetric`) | high, not executed | Shapes.NewCircleColliderAsWritten | Shapes.NewCircleCollider |
| temdisponivellib/builtin_components/collider.py:212-218 | `super(Collider, self).__init__()` skips `Collider.__init__`, so the first setter reads an unset `_x` | `BoxCollider((0, 0), (10, 10))` raises `AttributeError` (`Partition.BoxConstructorRaisesAsWritten`) | `Collider.__init__` runs first and the setters store the bounds | high, not executed | Partition.NewBoxAttributesAsWritten | Partition.NewBoxAttributes |
| temdisponivellib/builtin_components/collider.py:241-245 | `CircleCollider.__init__` also calls `super(Collider, self).__init__()`, so the `x` setter on line 244 reads an unset `_x` | `CircleCollider(5, (0, 0))` raises `AttributeError` (`Partition.CircleConstructorRaisesAsWritten`) | `Collider.__init__` runs first and the setters store the centre | high, not executed | Partition.NewCircleAttributesAsWritten | Partition.NewCircleAttributes |
| temdisponivellib/builtin_components/collider.py:265-267 | `_collide_with_box` reads `collider.centerx` and `collider.centery`, which a `BoxCollider` does not define | a tagged radius-5 circle at the origin against box (0,0,10,10) raises `AttributeError`, whichever of them asks (`Shapes.CircleBoxRaisesAsWritten`) | the box's centre `x + width / 2`, `y + height / 2` | high, not executed | Shapes.CheckCollisionAsWritten | Shapes.CheckCollision |
| temdisponivellib/builtin_components/collider.py:157-169 | a circle's `width` and `height` are bound methods, which Python 2 orders above every number, so a circle always takes both large-region loops | a radius-5 circle at (10, 10) lies in no cell and is never tested (`Partition.CircleNearOriginHasNoCellsAsWritten`) | the radius as width and height, giving the single cell (10, 10) | medium, not executed | Partition.CircleAreasAsWritten | Partition.CircleAreas |
| temdisponivellib/builtin_components/collider.py:118-137 | `area not in Collider._get_areas_of_region` tests membership in a function, which raises `TypeError` | starting any collider smaller than a cell (`Partition.StartRaisesAsWritten`) | no guard on insertion; removal skips unknown cells | high, not executed | Partition.InsertInAreaAsWritten | Partition.InsertInArea |
| temdisponivellib/physics.py:55-59 | pairs `(i, i + 1)` for every `i < length`; the last reads `list_colliders[length]` | any non-empty cell raises `IndexError` (`Physics.AsWrittenReadsPastTheEnd`) | `i < length - 1` | high, not executed | Physics.NeighbourPairsAsWritten | Physics.NeighbourPairs |
| temdisponivellib/physics.py:77-78 | `if callback is None` dispatches only when there is no callback | a fresh overlapping pair classifies as enter and is not dispatched (`Physics.EnterIsSilentAsWritten`) | `if callback is not None`, together with the reset of `callback` on each pass (next row) | high, not executed | Physics.DispatchedAsWritten | Physics.Dispatched |
| temdisponivellib/physics.py:62-78 | `callback` is never reset between passes, so a pass that assigns nothing reuses the previous pass's value, or raises `UnboundLocalError` if none has been assigned | from an empty table, pair (a, b) found overlapping and then pair (b, c) found apart: with only the test inverted, (b, c) gets a second enter (`Physics.StaleCallbackRedispatched`); a first pass finding its pair apart raises (`Physics.UnboundCallbackRaises`) | `callback = None` at the top of each pass, then `if callback is not None` | high, not executed | Physics.RunCarrying | Physics.Run |
| temdisponivellib/builtin_components/collider.py:220-223 | `super(Collider, self).update()` in `BoxCollider.update`, and likewise at lines 247-249 in `CircleCollider.update`, skips `Collider.update`, so a collider's cells are never recomputed after `start` | a 10-by-10 box moved from (0, 0) to (80, 0) stays listed in cell (0, 0) and not in (5, 0) (`Partition.MovedColliderStaysInOldCellAsWritten`) | `super(BoxCollider, self).update()` and `super(CircleCollider, self).update()`, reaching `Collider.update` | high, not executed | Partition.SubclassUpdateAsWritten | Partition.SubclassUpdate |
| temdisponivellib/gameobject.py:96-102 | `self in dict` tests the object against the keys (tags and names), so it never holds | after start and finish the object is still listed under its tag (`GameObjects.StaleTagEntryAsWritten`) | remove the object from the list under its tag and under its name | high, not executed | GameObjects.DelistAsWritten | GameObjects.Delist |
| temdisponivellib_pygame/builtin_components/collider.py:96-99 | `list.insert(self)` passes one argument where `insert` takes an index and a value, which raises `TypeError` | registering any collider that no cell lists yet, as soon as it has a cell (`Legacy.InsertRaisesAsWritten`) | append the collider, as the current revision does | high, not executed | Legacy.InsertInAreaAsWritten | Legacy.InsertInArea |

=== FILE: gameobjects.dfy ===
/**
  A game object's component bookkeeping and the started-object registries
  (temdisponivellib/gameobject.py). Components are requested through two queues and
  applied at `_update_component_list`; the map holds a unique component as one value
  (drawables under `IDrawable`, drawers under `IDrawer`, others under their class)
  and shared components as a list under their class.
*/
module GameObjects {
  import opened Wrappers
  import opened Seqs

  /** A game object's `id`: the value of the class counter when it was created. */
  type ObjId = int

  /** Which of the source's interfaces a component implements, in the order `isinstance` tests them. */
  datatype Capability = Drawable | Drawer | Plain

  /** A component instance: its identity, its class's name, its `is_unique` and its capability. */
  datatype Component = Component(id: int, cls: string, unique: bool, capability: Capability)

  /** A key of `_components`: the two interface keys or a component class. */
  datatype Key = DrawableKey | DrawerKey | ClassKey(cls: string)

  /** A value of `_components`: one component, the `None` a removal leaves, or a list. */
  datatype Slot = One(c: Component) | Vacated | Many(cs: seq<Component>)

  type Components = map<Key, Slot>

  /**
    What can raise: the unique-duplicate exception; a membership test against a value
    that is not a list (a `TypeError`); `[0]` on an empty list (an `IndexError`).
  */
  datatype Error = DuplicateUnique | NotAList | EmptyList

  /** Where `_add_component` stores a unique component. */
  function StorageKey(c: Component): (k: Key)
    ensures c.capability == Drawable <==> k == DrawableKey
    ensures c.capability == Drawer <==> k == DrawerKey
    ensures c.capability == Plain <==> k == ClassKey(c.cls)
  {
    match c.capability
    case Drawable => DrawableKey
    case Drawer => DrawerKey
    case Plain => ClassKey(c.cls)
  }

  /** The shared components listed under a class, empty when the class holds no list. */
  function Listed(m: Components, cls: string): seq<Component> {
    if ClassKey(cls) in m && m[ClassKey(cls)].Many? then m[ClassKey(cls)].cs else []
  }

  /** No class list repeats a component. */
  ghost predicate ListsDistinct(m: Components) {
    forall k :: k in m && m[k].Many? ==> NoDup(m[k].cs)
  }

  // ---------------------------------------------------------------------------
  // Applying one request

  /**
    `_add_component`: a unique component raises when its class key is present, else is
    stored under its storage key; a shared one is appended to its class list unless
    already there, and a class key holding anything but a list raises.
  */
  function AddNow(m: Components, c: Component): (r: Result<Components, Error>)
    ensures c.unique ==> (r.Failure? <==> ClassKey(c.cls) in m)
    ensures c.unique && r.Success? ==> r.value == m[StorageKey(c) := One(c)]
    ensures !c.unique ==> (r.Failure? <==> ClassKey(c.cls) in m && !m[ClassKey(c.cls)].Many?)
    ensures !c.unique && r.Success? ==> c in Listed(r.value, c.cls) && r.value.Keys == m.Keys + {ClassKey(c.cls)}
    ensures !c.unique && r.Success? ==> forall k :: k in m && k != ClassKey(c.cls) ==> r.value[k] == m[k]
    ensures r.Failure? ==> (r.error == DuplicateUnique <==> c.unique)
    ensures r.Success? ==> forall cls, x :: x in Listed(m, cls) ==> x in Listed(r.value, cls)
    ensures r.Success? && ListsDistinct(m) ==> ListsDistinct(r.value)
  {
    if c.unique then
      if ClassKey(c.cls) in m then Failure(DuplicateUnique)
      else Success(m[StorageKey(c) := One(c)])
    else
      var k := ClassKey(c.cls);
      if k in m && !m[k].Many? then Failure(NotAList)
      else
        var cs := Listed(m, c.cls);
        AppendOnceKeepsDistinct(m, c);
        Success(m[k := Many(AppendOnce(cs, c))])
  }

  lemma AppendOnceKeepsDistinct(m: Components, c: Component)
    ensures ListsDistinct(m) ==> ListsDistinct(m[ClassKey(c.cls) := Many(AppendOnce(Listed(m, c.cls), c))])
  {
  }

  /**
    `_remove_component`: nothing happens unless the component's class key is present;
    a list loses its first occurrence of the component; otherwise a drawable's or
    drawer's interface slot is set to `None` and any other component's class key is
    deleted.
  */
  function RemoveNow(m: Components, c: Component): (r: Components)
    ensures ClassKey(c.cls) !in m ==> r == m
    ensures ClassKey(c.cls) in m && m[ClassKey(c.cls)].Many? ==>
              r == m[ClassKey(c.cls) := Many(RemoveFirst(m[ClassKey(c.cls)].cs, c))]
    ensures ClassKey(c.cls) in m && !m[ClassKey(c.cls)].Many? && c.capability != Plain ==>
              r == m[StorageKey(c) := Vacated]
    ensures ClassKey(c.cls) in m && !m[ClassKey(c.cls)].Many? && c.capability == Plain ==>
              r == m - {ClassKey(c.cls)}
    ensures ListsDistinct(m) ==> ListsDistinct(r)
  {
    var k := ClassKey(c.cls);
    if k !in m then m
    else match m[k]
      case Many(cs) =>
        RemoveFirstKeepsDistinct(m, c);
        m[k := Many(RemoveFirst(cs, c))]
      case _ =>
        if c.capability == Plain then m - {k} else m[StorageKey(c) := Vacated]
  }

  lemma RemoveFirstKeepsDistinct(m: Components, c: Component)
    requires ClassKey(c.cls) in m && m[ClassKey(c.cls)].Many?
    ensures ListsDistinct(m) ==> ListsDistinct(m[ClassKey(c.cls) := Many(RemoveFirst(m[ClassKey(c.cls)].cs, c))])
  {
    if ListsDistinct(m) {
      RemoveFirstKeepsNoDup(m[ClassKey(c.cls)].cs, c);
    }
  }

  /** After a successful shared add the component is listed exactly once, and adding it again changes nothing. */
  lemma SharedAddListsOnce(m: Components, c: Component)
    requires !c.unique && AddNow(m, c).Success?
    ensures AddNow(AddNow(m, c).value, c) == AddNow(m, c)
    ensures NoDup(Listed(m, c.cls)) ==> NoDup(Listed(AddNow(m, c).value, c.cls))
  {
    var r := AddNow(m, c).value;
    assert r[ClassKey(c.cls)] == Many(AppendOnce(Listed(m, c.cls), c));
    assert Listed(r, c.cls) == AppendOnce(Listed(m, c.cls), c);
    assert r[ClassKey(c.cls) := Many(AppendOnce(Listed(r, c.cls), c))] == r;
  }

  /** A shared component added and removed again leaves the class list as it was. */
  lemma SharedAddThenRemove(m: Components, c: Component)
    requires !c.unique && ClassKey(c.cls) in m && m[ClassKey(c.cls)].Many? && c !in m[ClassKey(c.cls)].cs
    ensures AddNow(m, c).Success?
    ensures RemoveNow(AddNow(m, c).value, c) == m
  {
    var cs := m[ClassKey(c.cls)].cs;
    RemoveFirstOfAppended(cs, c);
    assert AppendOnce(cs, c) == cs + [c];
    assert m[ClassKey(c.cls) := Many(cs)] == m;
  }

  /** A unique plain component added under an absent class key and removed again leaves the map as it was. */
  lemma UniqueAddThenRemove(m: Components, c: Component)
    requires c.unique && c.capability == Plain && ClassKey(c.cls) !in m
    ensures AddNow(m, c).Success?
    ensures RemoveNow(AddNow(m, c).value, c) == m
  {
    assert m[ClassKey(c.cls) := One(c)] - {ClassKey(c.cls)} == m;
  }

  /** A second unique plain component of the same class raises. */
  lemma UniquePlainTwiceRaises(m: Components, c: Component, d: Component)
    requires c.unique && d.unique && c.capability == Plain && c.cls == d.cls && AddNow(m, c).Success?
    ensures AddNow(AddNow(m, c).value, d) == Failure(DuplicateUnique)
  {
  }

  /**
    As written, a unique drawable is stored under `IDrawable` but looked up under its
    class: a second one of the same class does not raise and replaces the first, and
    removing it is a no-op while its class key is absent.
  */
  lemma UniqueDrawableAsWritten(m: Components, c: Component, d: Component)
    requires c.unique && d.unique && c.capability == Drawable && d.capability == Drawable
    requires c.cls == d.cls && ClassKey(c.cls) !in m
    ensures AddNow(m, c).Success?
    ensures AddNow(AddNow(m, c).value, d) == Success(m[DrawableKey := One(d)])
    ensures RemoveNow(AddNow(m, c).value, c) == AddNow(m, c).value
  {
    assert m[DrawableKey := One(c)][DrawableKey := One(d)] == m[DrawableKey := One(d)];
  }

  // ---------------------------------------------------------------------------
  // Lookups

  /** `get_component`: `None` for an absent key, the first of a list, or the single value. */
  function GetComponent(m: Components, k: Key): (r: Result<Option<Component>, Error>)
    ensures k !in m ==> r == Success(None)
    ensures k in m && m[k].Many? ==> (r.Failure? <==> m[k].cs == [])
    ensures r.Success? && r.value.Some? ==> k in m && (m[k] == One(r.value.value) || (m[k].Many? && r.value.value == m[k].cs[0]))
    ensures k in m && m[k].One? ==> r == Success(Some(m[k].c))
    ensures k in m && m[k].Vacated? ==> r == Success(None)
    ensures k in m && m[k].Many? && |m[k].cs| > 0 ==> r == Success(Some(m[k].cs[0]))
    ensures k in m && m[k].Many? && |m[k].cs| == 0 ==> r == Failure(EmptyList)
  {
    if k !in m then Success(None)
    else match m[k]
      case Many(cs) => if |cs| == 0 then Failure(EmptyList) else Success(Some(cs[0]))
      case One(c) => Success(Some(c))
      case Vacated => Success(None)
  }

  /** `get_components`: `None` for an absent key, the list itself, or a single value wrapped in a list. */
  function GetComponents(m: Components, k: Key): (r: Option<seq<Option<Component>>>)
    ensures k !in m <==> r.None?
    ensures k in m && m[k].Many? ==> r == Some(seq(|m[k].cs|, i requires 0 <= i < |m[k].cs| => Some(m[k].cs[i])))
    ensures k in m && !m[k].Many? ==> r.Some? && |r.value| == 1
    ensures k in m && m[k].One? ==> r == Some([Some(m[k].c)])
    ensures k in m && m[k].Vacated? ==> r == Some([None])
  {
    if k !in m then None
    else match m[k]
      case Many(cs) => Some(seq(|cs|, i requires 0 <= i < |cs| => Some(cs[i])))
      case One(c) => Some([Some(c)])
      case Vacated => Some([None])
  }

  /** `get_component` is the head of `get_components`, raising exactly when that list is empty. */
  lemma GetComponentIsHeadOfGetComponents(m: Components, k: Key)
    ensures GetComponents(m, k).None? ==> GetComponent(m, k) == Success(None)
    ensures GetComponents(m, k).Some? && |GetComponents(m, k).value| > 0 ==>
              GetComponent(m, k) == Success(GetComponents(m, k).value[0])
    ensures GetComponents(m, k).Some? && |GetComponents(m, k).value| == 0 ==>
              GetComponent(m, k) == Failure(EmptyList)
  {
  }

  // ---------------------------------------------------------------------------
  // The game object and its queues

  datatype GameObject = GameObject(
    id: ObjId,
    tag: string,
    name: string,
    components: Components,
    toAdd: seq<Component>,
    toRemove: seq<Component>,
    started: bool,
    persistent: bool)

  /** `add_component`: only enqueues. */
  function AddComponent(g: GameObject, c: Component): (r: GameObject)
    ensures r.components == g.components && r.toRemove == g.toRemove
    ensures r.toAdd == g.toAdd + [c]
    ensures r == g.(toAdd := r.toAdd)
  {
    g.(toAdd := g.toAdd + [c])
  }

  /** `remove_component`: only enqueues. */
  function RemoveComponent(g: GameObject, c: Component): (r: GameObject)
    ensures r.components == g.components && r.toAdd == g.toAdd
    ensures r.toRemove == g.toRemove + [c]
    ensures r == g.(toRemove := r.toRemove)
  {
    g.(toRemove := g.toRemove + [c])
  }

  /**
    Removing never adds: no class key appears, none turns into or out of a list, and
    no list gains an element. The component leaves its own class list, and a plain
    component holding its class key alone deletes it.
  */
  lemma RemoveNowShrinks(m: Components, c: Component)
    ensures forall k :: k in RemoveNow(m, c) && k.ClassKey? ==> k in m && (RemoveNow(m, c)[k].Many? <==> m[k].Many?)
    ensures forall cls, x :: x in Listed(RemoveNow(m, c), cls) ==> x in Listed(m, cls)
    ensures ListsDistinct(m) ==> c !in Listed(RemoveNow(m, c), c.cls)
    ensures c.capability == Plain && ClassKey(c.cls) in m && !m[ClassKey(c.cls)].Many? ==> ClassKey(c.cls) !in RemoveNow(m, c)
  {
    var k := ClassKey(c.cls);
    if k in m && m[k].Many? {
      forall x | x in RemoveFirst(m[k].cs, c)
        ensures x in m[k].cs
      {
        RemoveFirstShrinks(m[k].cs, c, x);
      }
      if ListsDistinct(m) {
        RemoveFirstKeepsNoDup(m[k].cs, c);
      }
    }
  }

  /**
    The removal loop of `_update_component_list`. Every removed component is gone from
    its class list, and a removed plain component whose class key held a single value
    has that key deleted; nothing is added anywhere.
  */
  function RemoveAll(m: Components, cs: seq<Component>): (r: Components)
    ensures ListsDistinct(m) ==> ListsDistinct(r)
    ensures forall k :: k in r && k.ClassKey? ==> k in m && (r[k].Many? <==> m[k].Many?)
    ensures forall cls, x :: x in Listed(r, cls) ==> x in Listed(m, cls)
    ensures ListsDistinct(m) ==> forall c :: c in cs ==> c !in Listed(r, c.cls)
    ensures forall c :: c in cs && c.capability == Plain && ClassKey(c.cls) in m && !m[ClassKey(c.cls)].Many? ==>
              ClassKey(c.cls) !in r
    decreases |cs|
  {
    if |cs| == 0 then m
    else
      var m1 := RemoveNow(m, cs[0]);
      var r := RemoveAll(m1, cs[1..]);
      RemoveNowShrinks(m, cs[0]);
      RemoveAllStep(m, cs, m1, r);
      r
  }

  lemma RemoveAllStep(m: Components, cs: seq<Component>, m1: Components, r: Components)
    requires |cs| > 0 && m1 == RemoveNow(m, cs[0])
    requires forall k :: k in m1 && k.ClassKey? ==> k in m && (m1[k].Many? <==> m[k].Many?)
    requires forall cls, x :: x in Listed(m1, cls) ==> x in Listed(m, cls)
    requires ListsDistinct(m) ==> cs[0] !in Listed(m1, cs[0].cls)
    requires cs[0].capability == Plain && ClassKey(cs[0].cls) in m && !m[ClassKey(cs[0].cls)].Many? ==> ClassKey(cs[0].cls) !in m1
    requires forall k :: k in r && k.ClassKey? ==> k in m1 && (r[k].Many? <==> m1[k].Many?)
    requires forall cls, x :: x in Listed(r, cls) ==> x in Listed(m1, cls)
    requires ListsDistinct(m1) ==> forall c :: c in cs[1..] ==> c !in Listed(r, c.cls)
    requires forall c :: c in cs[1..] && c.capability == Plain && ClassKey(c.cls) in m1 && !m1[ClassKey(c.cls)].Many? ==>
               ClassKey(c.cls) !in r
    ensures ListsDistinct(m) ==> forall c :: c in cs ==> c !in Listed(r, c.cls)
    ensures forall c :: c in cs && c.capability == Plain && ClassKey(c.cls) in m && !m[ClassKey(c.cls)].Many? ==>
              ClassKey(c.cls) !in r
  {
    assert cs == [cs[0]] + cs[1..];
    if ListsDistinct(m) {
      assert ListsDistinct(m1);
    }
  }

  /** The map after a run of additions, and the error that cut it short, if any. */
  datatype Applied = Applied(components: Components, error: Option<Error>)

  /** The classes of a run of components. */
  function Classes(cs: seq<Component>): set<string> {
    set c | c in cs :: c.cls
  }

  /**
    A successful addition keeps every single-value slot single, and keeps a class key's
    single value as it was; a list gains at most the added component; the only class
    key that can appear is the component's own.
  */
  lemma AddNowGrows(m: Components, c: Component)
    requires AddNow(m, c).Success?
    ensures forall k :: k in m && m[k].One? ==>
              k in AddNow(m, c).value && AddNow(m, c).value[k].One? && (k.ClassKey? ==> AddNow(m, c).value[k] == m[k])
    ensures forall cls, x :: x in Listed(AddNow(m, c).value, cls) ==> x in Listed(m, cls) || x == c
    ensures forall k :: k in AddNow(m, c).value && k.ClassKey? && k !in m ==> k == ClassKey(c.cls)
  {
  }

  /**
    The addition loop of `_update_component_list`; an exception leaves the additions
    before it applied. Without an exception every shared component is listed and every
    unique one sits in a single-value slot: its own for a plain component, the
    interface slot (possibly taken over by a later unique one) for a drawable or drawer.
  */
  function AddAll(m: Components, cs: seq<Component>): (r: Applied)
    ensures ListsDistinct(m) ==> ListsDistinct(r.components)
    ensures forall cls, x :: x in Listed(m, cls) ==> x in Listed(r.components, cls)
    ensures forall cls, x :: x in Listed(r.components, cls) ==> x in Listed(m, cls) || x in cs
    ensures forall k :: k in r.components && k.ClassKey? && k !in m ==> k.cls in Classes(cs)
    ensures r.error.None? ==> forall c :: c in cs && !c.unique ==> c in Listed(r.components, c.cls)
    ensures r.error.None? ==> forall k :: k in m && m[k].One? ==>
              k in r.components && r.components[k].One? && (k.ClassKey? ==> r.components[k] == m[k])
    ensures r.error.None? ==> forall c :: c in cs && c.unique ==>
              StorageKey(c) in r.components && r.components[StorageKey(c)].One?
    ensures r.error.None? ==> forall c :: c in cs && c.unique && c.capability == Plain ==>
              ClassKey(c.cls) in r.components && r.components[ClassKey(c.cls)] == One(c)
    decreases |cs|
  {
    if |cs| == 0 then Applied(m, None)
    else match AddNow(m, cs[0])
      case Failure(e) => Applied(m, Some(e))
      case Success(m1) =>
        var r := AddAll(m1, cs[1..]);
        AddNowGrows(m, cs[0]);
        AddAllStep(m, cs, m1, r);
        AddAllBoundsStep(m, cs, m1, r);
        AddAllUniqueStep(m, cs, m1, r);
        r
  }

  lemma AddAllStep(m: Components, cs: seq<Component>, m1: Components, r: Applied)
    requires |cs| > 0 && AddNow(m, cs[0]) == Success(m1)
    requires forall cls, x :: x in Listed(m1, cls) ==> x in Listed(r.components, cls)
    requires r.error.None? ==> forall c :: c in cs[1..] && !c.unique ==> c in Listed(r.components, c.cls)
    ensures r.error.None? ==> forall c :: c in cs && !c.unique ==> c in Listed(r.components, c.cls)
  {
    if r.error.None? {
      forall c | c in cs && !c.unique
        ensures c in Listed(r.components, c.cls)
      {
        if c == cs[0] {
          assert c in Listed(m1, c.cls);
        } else {
          var k :| 0 <= k < |cs| && cs[k] == c;
          assert cs[1..][k - 1] == c;
        }
      }
    }
  }

  lemma AddAllBoundsStep(m: Components, cs: seq<Component>, m1: Components, r: Applied)
    requires |cs| > 0 && AddNow(m, cs[0]) == Success(m1)
    requires forall cls, x :: x in Listed(m1, cls) ==> x in Listed(m, cls) || x == cs[0]
    requires forall k :: k in m1 && k.ClassKey? && k !in m ==> k == ClassKey(cs[0].cls)
    requires forall cls, x :: x in Listed(r.components, cls) ==> x in Listed(m1, cls) || x in cs[1..]
    requires forall k :: k in r.components && k.ClassKey? && k !in m1 ==> k.cls in Classes(cs[1..])
    ensures forall cls, x :: x in Listed(r.components, cls) ==> x in Listed(m, cls) || x in cs
    ensures forall k :: k in r.components && k.ClassKey? && k !in m ==> k.cls in Classes(cs)
  {
    assert cs == [cs[0]] + cs[1..];
    assert cs[0].cls in Classes(cs);
    forall k | k in r.components && k.ClassKey? && k !in m && k !in m1
      ensures k.cls in Classes(cs)
    {
      var c :| c in cs[1..] && c.cls == k.cls;
      assert c in cs;
    }
  }

  lemma AddAllUniqueStep(m: Components, cs: seq<Component>, m1: Components, r: Applied)
    requires |cs| > 0 && AddNow(m, cs[0]) == Success(m1)
    requires forall k :: k in m && m[k].One? ==> k in m1 && m1[k].One? && (k.ClassKey? ==> m1[k] == m[k])
    requires r.error.None? ==> forall k :: k in m1 && m1[k].One? ==>
               k in r.components && r.components[k].One? && (k.ClassKey? ==> r.components[k] == m1[k])
    requires r.error.None? ==> forall c :: c in cs[1..] && c.unique ==>
               StorageKey(c) in r.components && r.components[StorageKey(c)].One?
    requires r.error.None? ==> forall c :: c in cs[1..] && c.unique && c.capability == Plain ==>
               ClassKey(c.cls) in r.components && r.components[ClassKey(c.cls)] == One(c)
    ensures r.error.None? ==> forall k :: k in m && m[k].One? ==>
              k in r.components && r.components[k].One? && (k.ClassKey? ==> r.components[k] == m[k])
    ensures r.error.None? ==> forall c :: c in cs && c.unique ==>
              StorageKey(c) in r.components && r.components[StorageKey(c)].One?
    ensures r.error.None? ==> forall c :: c in cs && c.unique && c.capability == Plain ==>
              ClassKey(c.cls) in r.components && r.components[ClassKey(c.cls)] == One(c)
  {
    assert cs == [cs[0]] + cs[1..];
    if r.error.None? && cs[0].unique {
      assert m1[StorageKey(cs[0])] == One(cs[0]);
    }
  }

  /** A game object after `_update_component_list`, and the exception that escaped it, if any. */
  datatype Outcome = Outcome(obj: GameObject, error: Option<Error>)

  /**
    `_update_component_list`: every queued removal, then every queued addition, then
    both queues cleared; an exception during the additions escapes before the clear, so
    the queues stay as they were.
  */
  function UpdateComponentList(g: GameObject): (r: Outcome)
    ensures r.obj == g.(components := r.obj.components, toAdd := r.obj.toAdd, toRemove := r.obj.toRemove)
    ensures r.error.None? ==> r.obj.toAdd == [] && r.obj.toRemove == []
    ensures r.error.Some? ==> r.obj.toAdd == g.toAdd && r.obj.toRemove == g.toRemove
    ensures r.error.None? ==> forall c :: c in g.toAdd && !c.unique ==> c in Listed(r.obj.components, c.cls)
    ensures r.error.None? ==> forall c :: c in g.toAdd && c.unique ==>
              StorageKey(c) in r.obj.components && r.obj.components[StorageKey(c)].One?
    ensures r.error.None? ==> forall c :: c in g.toAdd && c.unique && c.capability == Plain ==>
              ClassKey(c.cls) in r.obj.components && r.obj.components[ClassKey(c.cls)] == One(c)
    ensures ListsDistinct(g.components) ==> forall c :: c in g.toRemove && c !in g.toAdd ==> c !in Listed(r.obj.components, c.cls)
    ensures forall c :: c in g.toRemove && c.capability == Plain && ClassKey(c.cls) in g.components &&
                        !g.components[ClassKey(c.cls)].Many? && c.cls !in Classes(g.toAdd) ==>
              ClassKey(c.cls) !in r.obj.components
    ensures ListsDistinct(g.components) ==> ListsDistinct(r.obj.components)
  {
    var removed := RemoveAll(g.components, g.toRemove);
    var added := AddAll(removed, g.toAdd);
    if added.error.None? then
      Outcome(g.(components := added.components, toAdd := [], toRemove := []), None)
    else
      Outcome(g.(components := added.components), added.error)
  }

  /**
    Removals are applied before additions: a shared component queued for both removal
    and addition is listed after a flush that raises nothing.
  */
  lemma RemovalsBeforeAdditions(g: GameObject, c: Component)
    requires !c.unique && c in g.toRemove && c in g.toAdd
    requires UpdateComponentList(g).error.None?
    ensures c in Listed(UpdateComponentList(g).obj.components, c.cls)
  {
  }

  /** With nothing queued, a flush changes nothing. */
  lemma EmptyQueuesFlushNothing(g: GameObject)
    requires g.toAdd == [] && g.toRemove == []
    ensures UpdateComponentList(g) == Outcome(g, None)
  {
  }

  // ---------------------------------------------------------------------------
  // Creation and ids

  /** The `Transform` every game object is constructed with: unique, not drawable. */
  function Transform(id: int): Component {
    Component(id, "Transform", true, Plain)
  }

  /** Decimal digits of a natural number, as `str` prints it. */
  function DecimalString(n: nat): (s: string)
    ensures |s| > 0
    ensures forall i :: 0 <= i < |s| ==> '0' <= s[i] <= '9'
  {
    var d := ['0', '1', '2', '3', '4', '5', '6', '7', '8', '9'][n % 10];
    if n < 10 then [d] else DecimalString(n / 10) + [d]
  }

  /** The number a string of decimal digits denotes. */
  function DecimalValue(s: string): nat
    requires forall i :: 0 <= i < |s| ==> '0' <= s[i] <= '9'
    decreases |s|
  {
    if |s| == 0 then 0 else DecimalValue(s[..|s| - 1]) * 10 + (s[|s| - 1] - '0') as nat
  }

  /** `str(n)` denotes `n`, so distinct ids print as distinct names. */
  lemma {:induction false} DecimalStringValue(n: nat)
    ensures DecimalValue(DecimalString(n)) == n
  {
    var s := DecimalString(n);
    var d := ['0', '1', '2', '3', '4', '5', '6', '7', '8', '9'][n % 10];
    assert (d - '0') as nat == n % 10;
    if n >= 10 {
      DecimalStringValue(n / 10);
      assert s[..|s| - 1] == DecimalString(n / 10);
    }
  }

  /** Distinct numbers print differently. */
  lemma DecimalStringInjective(a: nat, b: nat)
    requires a != b
    ensures DecimalString(a) != DecimalString(b)
  {
    DecimalStringValue(a);
    DecimalStringValue(b);
  }

  /**
    `GameObject.__init__`: the id is one more than the class counter, which advances to
    it; the name is "GameObject " followed by the id; the tag is the object's class; the
    queues are empty and the `Transform` is already stored.
  */
  function NewGameObject(counter: nat, cls: string, transformId: int): (r: (nat, GameObject))
    ensures r.0 == counter + 1 && r.1.id == r.0
    ensures r.1.tag == cls && r.1.name == "GameObject " + DecimalString(r.1.id)
    ensures r.1.toAdd == [] && r.1.toRemove == [] && !r.1.started && !r.1.persistent
    ensures GetComponent(r.1.components, ClassKey("Transform")) == Success(Some(Transform(transformId)))
    ensures ListsDistinct(r.1.components)
  {
    var added := AddNow(map[], Transform(transformId));
    assert added.Success?;
    var id := counter + 1;
    (id, GameObject(id, cls, "GameObject " + DecimalString(id), added.value, [], [], false, false))
  }

  /** The ids of `n` game objects created one after another from the given counter. */
  function SpawnIds(counter: nat, n: nat): (ids: seq<ObjId>)
    ensures |ids| == n
    ensures forall i :: 0 <= i < n ==> ids[i] > counter
    ensures forall i, j :: 0 <= i < j < n ==> ids[i] < ids[j]
    decreases n
  {
    if n == 0 then []
    else
      var (next, g) := NewGameObject(counter, "GameObject", 0);
      [g.id] + SpawnIds(next, n - 1)
  }

  /** Ids of successive game objects are pairwise distinct. */
  lemma SpawnedIdsDistinct(counter: nat, n: nat)
    ensures NoDup(SpawnIds(counter, n))
  {
  }

  // ---------------------------------------------------------------------------
  // The started-object registries

  /**
    `_started_game_object_by_tag`, `_by_name` and `_by_id`, objects named by id; the
    by-id map sends each id to its own object, so only its keys are kept.
  */
  datatype Registries = Registries(byTag: map<string, seq<ObjId>>, byName: map<string, seq<ObjId>>, byId: set<ObjId>)

  /** The ids listed under a key, absent keys reading as empty. */
  function IdsUnder(m: map<string, seq<ObjId>>, key: string): seq<ObjId> {
    if key in m then m[key] else []
  }

  /** `setdefault(key, [])` then `append(id)`. */
  function ListUnder(m: map<string, seq<ObjId>>, key: string, id: ObjId): map<string, seq<ObjId>> {
    m[key := IdsUnder(m, key) + [id]]
  }

  /** `remove(id)` from the list under `key`, when there is one. */
  function UnlistFrom(m: map<string, seq<ObjId>>, key: string, id: ObjId): map<string, seq<ObjId>> {
    if key in m then m[key := RemoveFirst(m[key], id)] else m
  }

  /** Listing an id that was not listed and unlisting it again restores every list. */
  lemma ListThenUnlist(m: map<string, seq<ObjId>>, key: string, id: ObjId)
    requires id !in IdsUnder(m, key)
    ensures forall t :: IdsUnder(UnlistFrom(ListUnder(m, key, id), key, id), t) == IdsUnder(m, t)
  {
    RemoveFirstOfAppended(IdsUnder(m, key), id);
  }

  /** The registration in `start`: appended under its tag and its name, and entered by id. */
  function Enlist(reg: Registries, g: GameObject): (r: Registries)
    ensures IdsUnder(r.byTag, g.tag) == IdsUnder(reg.byTag, g.tag) + [g.id]
    ensures IdsUnder(r.byName, g.name) == IdsUnder(reg.byName, g.name) + [g.id]
    ensures r.byId == reg.byId + {g.id}
    ensures forall t :: t != g.tag ==> IdsUnder(r.byTag, t) == IdsUnder(reg.byTag, t)
    ensures forall n :: n != g.name ==> IdsUnder(r.byName, n) == IdsUnder(reg.byName, n)
  {
    Registries(ListUnder(reg.byTag, g.tag, g.id), ListUnder(reg.byName, g.name, g.id), reg.byId + {g.id})
  }

  /**
    The deregistration in `finish` as written: the tag and name lists are cleaned only
    when the object itself is a key of those maps, which never holds since their keys
    are tags and names, so only the id entry goes.
  */
  function DelistAsWritten(reg: Registries, g: GameObject): (r: Registries)
    ensures r.byTag == reg.byTag && r.byName == reg.byName
    ensures r.byId == reg.byId - {g.id}
  {
    Registries(reg.byTag, reg.byName, reg.byId - {g.id})
  }

  /** Counterexample: after a start and a finish, the object is still listed under its tag. */
  lemma StaleTagEntryAsWritten(reg: Registries, g: GameObject)
    ensures g.id in IdsUnder(DelistAsWritten(Enlist(reg, g), g).byTag, g.tag)
    ensures g.id !in DelistAsWritten(Enlist(reg, g), g).byId
  {
  }

  /** The evident intent of `finish`: drop the object from its tag's list and its name's list, and its id. */
  function Delist(reg: Registries, g: GameObject): (r: Registries)
    ensures r.byId == reg.byId - {g.id}
    ensures multiset(IdsUnder(r.byTag, g.tag)) == multiset(IdsUnder(reg.byTag, g.tag)) - multiset{g.id}
    ensures forall t :: t != g.tag ==> IdsUnder(r.byTag, t) == IdsUnder(reg.byTag, t)
    ensures multiset(IdsUnder(r.byName, g.name)) == multiset(IdsUnder(reg.byName, g.name)) - multiset{g.id}
    ensures forall n :: n != g.name ==> IdsUnder(r.byName, n) == IdsUnder(reg.byName, n)
  {
    UnlistFromRemovesOne(reg.byTag, g.tag, g.id);
    UnlistFromRemovesOne(reg.byName, g.name, g.id);
    Registries(UnlistFrom(reg.byTag, g.tag, g.id), UnlistFrom(reg.byName, g.name, g.id), reg.byId - {g.id})
  }

  /** Unlisting drops one occurrence of the id under its key and leaves every other key's list. */
  lemma UnlistFromRemovesOne(m: map<string, seq<ObjId>>, key: string, id: ObjId)
    ensures multiset(IdsUnder(UnlistFrom(m, key, id), key)) == multiset(IdsUnder(m, key)) - multiset{id}
    ensures forall t :: t != key ==> IdsUnder(UnlistFrom(m, key, id), t) == IdsUnder(m, t)
  {
  }

  /**
    Starting then finishing an object that was not registered leaves every list and
    the id set as they were (absent keys read as empty).
  */
  lemma EnlistThenDelist(reg: Registries, g: GameObject)
    requires g.id !in IdsUnder(reg.byTag, g.tag) && g.id !in IdsUnder(reg.byName, g.name) && g.id !in reg.byId
    ensures forall t :: IdsUnder(Delist(Enlist(reg, g), g).byTag, t) == IdsUnder(reg.byTag, t)
    ensures forall n :: IdsUnder(Delist(Enlist(reg, g), g).byName, n) == IdsUnder(reg.byName, n)
    ensures Delist(Enlist(reg, g), g).byId == reg.byId
  {
    ListThenUnlist(reg.byTag, g.tag, g.id);
    ListThenUnlist(reg.byName, g.name, g.id);
  }

  /** `start`: register, flush the queues, and mark started unless the flush raised. */
  function Start(reg: Registries, g: GameObject): (r: (Registries, Outcome))
    ensures r.0 == Enlist(reg, g)
    ensures r.1.error.None? ==> r.1.obj.started && r.1.obj.toAdd == [] && r.1.obj.toRemove == []
    ensures r.1.error.Some? ==> r.1.obj.started == g.started
    ensures r.1.obj.id == g.id && r.1.obj.tag == g.tag && r.1.obj.name == g.name
    ensures r.1.obj.components == UpdateComponentList(g).obj.components && r.1.error == UpdateComponentList(g).error
    ensures r.1.error.Some? ==> r.1.obj.toAdd == g.toAdd && r.1.obj.toRemove == g.toRemove
    ensures r.1.error.None? ==> forall c :: c in g.toAdd && !c.unique ==> c in Listed(r.1.obj.components, c.cls)
    ensures r.1.error.None? ==> forall c :: c in g.toAdd && c.unique ==>
              StorageKey(c) in r.1.obj.components && r.1.obj.components[StorageKey(c)].One?
    ensures ListsDistinct(g.components) ==> forall c :: c in g.toRemove && c !in g.toAdd ==> c !in Listed(r.1.obj.components, c.cls)
  {
    var o := UpdateComponentList(g);
    (Enlist(reg, g), if o.error.None? then Outcome(o.obj.(started := true), None) else o)
  }
}

=== FILE: legacy.dfy ===
/**
  The earlier collider revision (temdisponivellib_pygame/builtin_components/collider.py):
  the same shapes under `validate_collision`, and its `_insert_in_area`.
  Colliders, rectangles and circles are those of the current revision.
*/
module Legacy {
  import opened Wrappers
  import opened Seqs
  import opened Shapes
  import Partition

  /** `BoxCollider.validate_collision` against a box: the doubled-distance strict test on both axes. */
  predicate BoxTest(a: Rect, b: Rect) {
    (Abs(a.x - b.x) * 2 < a.width + b.width) && (Abs(a.y - b.y) * 2 < a.height + b.height)
  }

  /** `CircleCollider._collide_with_box` of this revision, corner distance computed inline. */
  predicate CircleBoxTest(c: Circle, b: Rect) {
    var distancex := Abs(c.x - b.CenterX());
    var distancey := Abs(c.y - b.CenterY());
    if distancex > b.width / 2 + c.radius then false
    else if distancey > b.height / 2 + c.radius then false
    else if distancex <= b.width / 2 then true
    else if distancey <= b.height / 2 then true
    else
      var cornerDistanceSq := (distancex - b.width / 2) * (distancex - b.width / 2) +
                              (distancey - b.height / 2) * (distancey - b.height / 2);
      cornerDistanceSq <= c.radius * c.radius
  }

  /** `CircleCollider._collide_with_circle` of this revision. */
  predicate CircleCircleTest(a: Circle, b: Circle) {
    var distancex := Abs(a.x - b.x);
    var distancey := Abs(a.y - b.y);
    distancex * distancex + distancey * distancey <= (a.radius + b.radius) * (a.radius + b.radius)
  }

  /**
    `validate_collision`: false for the base collider; a box tests a box itself and
    hands a circle the question; a circle tests either shape itself. The circle–box
    branch reads `collider.centerx`, which a box does not define, as this revision's
    successor does; the model uses the box's centre, as `Shapes.CheckCollision` does.
  */
  function ValidateCollision(a: Collider, b: Collider): (r: bool)
    ensures a.BaseCollider? ==> !r
    ensures a.BoxCollider? && Tag(b) == Some(CircleKind) ==> r == ValidateCollision(b, a)
    decreases if a.BoxCollider? then 1 else 0
  {
    match a
    case BaseCollider(_) => false
    case BoxCollider(ra) =>
      if Tag(b) == Some(BoxKind) then BoxTest(ra, b.rect)
      else if Tag(b) == Some(CircleKind) then ValidateCollision(b, a)
      else false
    case CircleCollider(ca, _) =>
      if Tag(b) == Some(CircleKind) then CircleCircleTest(ca, b.circle)
      else if Tag(b) == Some(BoxKind) then CircleBoxTest(ca, b.rect)
      else false
  }

  /** The base collider's `validate_collision` answers false whatever it is asked about. */
  lemma BaseValidateIsFalse(r: Rect, other: Collider)
    ensures !ValidateCollision(BaseCollider(r), other)
  {
  }

  /** The box test of this revision is the current revision's test as written. */
  lemma BoxTestIsCurrentAsWritten(a: Rect, b: Rect)
    ensures BoxTest(a, b) == BoxOverlapAsWritten(a, b)
  {
  }

  /** Circle against circle: squared distance at most the squared radius sum, as in the current revision. */
  lemma CircleCircleTestIsCurrent(a: Circle, b: Circle)
    ensures CircleCircleTest(a, b) == CircleOverlap(a, b)
    ensures CircleCircleTest(a, b) <==>
              (a.x - b.x) * (a.x - b.x) + (a.y - b.y) * (a.y - b.y) <= (a.radius + b.radius) * (a.radius + b.radius)
  {
    AbsSquare(a.x - b.x);
    AbsSquare(a.y - b.y);
  }

  /** Circle against box: the same rejects, accepts and corner test as the current revision. */
  lemma CircleBoxTestIsCurrent(c: Circle, b: Rect)
    ensures CircleBoxTest(c, b) == CircleBoxOverlap(c, b)
  {
  }

  /** The corner case: past the rejects and accepts, a hit iff the corner offset's squared length is at most r². */
  lemma CircleBoxCorner(c: Circle, b: Rect)
    requires Abs(c.x - b.CenterX()) <= b.width / 2 + c.radius
    requires Abs(c.y - b.CenterY()) <= b.height / 2 + c.radius
    requires Abs(c.x - b.CenterX()) > b.width / 2 && Abs(c.y - b.CenterY()) > b.height / 2
    ensures CircleBoxTest(c, b) <==>
              (Abs(c.x - b.CenterX()) - b.width / 2) * (Abs(c.x - b.CenterX()) - b.width / 2) +
              (Abs(c.y - b.CenterY()) - b.height / 2) * (Abs(c.y - b.CenterY()) - b.height / 2)
              <= c.radius * c.radius
  {
  }

  /**
    The two revisions answer alike for every pair of colliders except two boxes, where
    this revision keeps the doubled-distance test that the current model corrects.
  */
  lemma RevisionsAgree(a: Collider, b: Collider)
    ensures !(a.BoxCollider? && b.BoxCollider?) ==> ValidateCollision(a, b) == CheckCollision(a, b)
    ensures a.BoxCollider? && b.BoxCollider? ==> ValidateCollision(a, b) == BoxOverlapAsWritten(a.rect, b.rect)
  {
    if a.CircleCollider? && b.CircleCollider? {
      CircleCircleTestIsCurrent(a.circle, b.circle);
    }
    if a.BoxCollider? && b.CircleCollider? {
      CircleBoxTestIsCurrent(b.circle, a.rect);
    }
  }

  /** The exception `list.insert(self)` raises: `insert` takes an index and a value. */
  datatype Fault = InsertArity

  /**
    `_insert_in_area` of this revision as written: `setdefault` each cell, then, unless
    the cell already lists the collider, the one-argument `list.insert(self)`, which
    raises `TypeError`. Only a collider already listed in every cell gets through, and
    then nothing changes.
  */
  function InsertInAreaAsWritten(g: Partition.Grid, c: Partition.ColliderId, areas: seq<Partition.Cell>): (r: Result<Partition.Grid, Fault>)
    ensures r.Failure? <==> exists cell :: cell in areas && c !in Partition.CollidersIn(g, cell)
    ensures r.Success? ==> r.value == g
    decreases |areas|
  {
    if |areas| == 0 then Success(g)
    else if c !in Partition.CollidersIn(g, areas[0]) then Failure(InsertArity)
    else
      var r := InsertInAreaAsWritten(g, c, areas[1..]);
      assert forall cell :: cell in areas <==> cell == areas[0] || cell in areas[1..];
      r
  }

  /** Counterexample: as written, registering a collider that no cell lists yet raises as soon as there is a cell. */
  lemma InsertRaisesAsWritten(g: Partition.Grid, c: Partition.ColliderId, areas: seq<Partition.Cell>)
    requires |areas| > 0 && Partition.Tracks(g, c, [])
    ensures InsertInAreaAsWritten(g, c, areas) == Failure(InsertArity)
  {
    assert c !in Partition.CollidersIn(g, areas[0]);
  }

  /** Where the insertion as written does not raise, it agrees with the corrected one: nothing is added. */
  lemma {:induction false} InsertAsWrittenAgrees(g: Partition.Grid, c: Partition.ColliderId, areas: seq<Partition.Cell>)
    requires InsertInAreaAsWritten(g, c, areas).Success?
    ensures InsertInArea(g, c, areas) == InsertInAreaAsWritten(g, c, areas).value
  {
    var h := InsertInArea(g, c, areas);
    forall cell | cell in areas
      ensures cell in g && h[cell] == g[cell]
    {
      assert c in Partition.CollidersIn(g, cell);
    }
    assert h.Keys == g.Keys;
  }

  /**
    `_insert_in_area` of this revision as evidently meant: the one-argument `insert`
    read as the append it stands for, so each cell is created if needed and gets the
    collider unless present. It is the current revision's insertion.
  */
  function InsertInArea(g: Partition.Grid, c: Partition.ColliderId, areas: seq<Partition.Cell>): (h: Partition.Grid)
    ensures forall cell :: cell in h <==> cell in g || cell in areas
    ensures forall cell :: cell in areas ==> h[cell] == AppendOnce(Partition.CollidersIn(g, cell), c)
    ensures forall cell :: cell in areas ==> c in h[cell]
    ensures forall cell :: cell in g && cell !in areas ==> cell in h && h[cell] == g[cell]
    ensures Partition.Wf(g) ==> Partition.Wf(h)
  {
    var h := Partition.InsertInArea(g, c, areas);
    InsertListsCollider(g, c, areas, h);
    h
  }

  lemma InsertListsCollider(g: Partition.Grid, c: Partition.ColliderId, areas: seq<Partition.Cell>, h: Partition.Grid)
    requires h == Partition.InsertInArea(g, c, areas)
    ensures forall cell :: cell in areas ==> cell in h && c in h[cell]
  {
    forall cell | cell in areas
      ensures cell in h && c in h[cell]
    {
      assert h[cell] == AppendOnce(Partition.CollidersIn(g, cell), c);
    }
  }

  /** Inserting twice into the same cells adds nothing the first insertion did not. */
  lemma {:induction false} InsertInAreaIdempotent(g: Partition.Grid, c: Partition.ColliderId, areas: seq<Partition.Cell>)
    ensures InsertInArea(InsertInArea(g, c, areas), c, areas) == InsertInArea(g, c, areas)
  {
    var h := InsertInArea(g, c, areas);
    assert forall cell :: cell in areas ==> c in Partition.CollidersIn(h, cell);
    InsertAsWrittenAgrees(h, c, areas);
  }
}

=== FILE: partition.dfy ===
/**
  The grid-cell partition of the current collider revision
  (temdisponivellib/builtin_components/collider.py): a process-wide map from a
  cell `(x, y)` to the colliders registered in it, kept up to date incrementally
  as each collider moves. Colliders are known by their identity; the cell
  length is a parameter (the source fixes it at 75).
*/
module Partition {
  import opened Wrappers
  import opened Seqs
  import opened Shapes

  /** `length_area_world`. */
  const WorldCellLength: int := 75

  /** A collider's identity (Python object identity). */
  type ColliderId = int

  type Cell = (int, int)

  /** `Collider._colliders_by_area`. */
  type Grid = map<Cell, seq<ColliderId>>

  /** No cell lists a collider twice. */
  ghost predicate Wf(g: Grid) {
    forall cell :: cell in g ==> NoDup(g[cell])
  }

  /** `get_colliders_by_area`: the cell's list, or an empty list for a cell never populated. */
  function CollidersIn(g: Grid, cell: Cell): (r: seq<ColliderId>)
    ensures cell !in g ==> r == []
    ensures Wf(g) ==> NoDup(r)
  {
    if cell in g then g[cell] else []
  }

  /** Every collider other than `c` is listed in the same cells of `h` as of `g`. */
  ghost predicate OthersKept(g: Grid, h: Grid, c: ColliderId) {
    forall cell, x :: x != c ==> (x in CollidersIn(h, cell) <==> x in CollidersIn(g, cell))
  }

  /** A collider is listed in exactly the cells it has cached. */
  ghost predicate Tracks(g: Grid, c: ColliderId, areas: seq<Cell>) {
    forall cell :: c in CollidersIn(g, cell) <==> cell in areas
  }

  // ---------------------------------------------------------------------------
  // Cells of a region

  /** A cell of the region's row: from the region's own cell rightwards, one per whole `len` in `left`. */
  predicate InRow(r: Rect, len: int, cell: Cell)
    requires len > 0
  {
    cell.1 == r.y % len && r.x % len <= cell.0 < r.x % len + Max(r.x / len, 0)
  }

  /** A cell of the region's column: from the region's own cell downwards, one per whole `len` in `top`. */
  predicate InColumn(r: Rect, len: int, cell: Cell)
    requires len > 0
  {
    cell.0 == r.x % len && r.y % len <= cell.1 < r.y % len + Max(r.y / len, 0)
  }

  /** The cells along the top row that the large-region branch enumerates, one per whole `len` in `left`. */
  function WideCells(r: Rect, len: int): (cells: seq<Cell>)
    requires len > 0
    ensures r.width > len ==> |cells| == Max(r.x / len, 0)
    ensures r.width <= len ==> cells == []
    ensures forall cell :: cell in cells <==> r.width > len && InRow(r, len, cell)
    ensures NoDup(cells)
  {
    if r.width > len then
      var cells := seq(Max(r.x / len, 0), i => (r.x % len + i, r.y % len));
      assert forall cell :: InRow(r, len, cell) ==> cells[cell.0 - r.x % len] == cell;
      cells
    else []
  }

  /** The cells down the left column that the large-region branch enumerates, one per whole `len` in `top`. */
  function TallCells(r: Rect, len: int): (cells: seq<Cell>)
    requires len > 0
    ensures r.height > len ==> |cells| == Max(r.y / len, 0)
    ensures r.height <= len ==> cells == []
    ensures forall cell :: cell in cells <==> r.height > len && InColumn(r, len, cell)
    ensures NoDup(cells)
  {
    if r.height > len then
      var cells := seq(Max(r.y / len, 0), i => (r.x % len, r.y % len + i));
      assert forall cell :: InColumn(r, len, cell) ==> cells[cell.1 - r.y % len] == cell;
      cells
    else []
  }

  /** `_get_areas_of_region`: one cell for a region smaller than a cell, else the large-region enumeration. */
  function AreasOfRegion(r: Rect, len: int): (cells: seq<Cell>)
    requires len > 0
    ensures r.width < len && r.height < len ==> cells == [(r.x % len, r.y % len)]
    ensures !(r.width < len && r.height < len) ==>
              forall cell :: cell in cells <==> (r.width > len && InRow(r, len, cell)) || (r.height > len && InColumn(r, len, cell))
    ensures forall i, j :: 0 <= i < j < |cells| && cells[i] == cells[j] ==> cells[i] == (r.x % len, r.y % len)
  {
    if r.width < len && r.height < len then [(r.x % len, r.y % len)]
    else WideCells(r, len) + TallCells(r, len)
  }

  /** A region smaller than a cell in both dimensions lies in exactly one cell, with coordinates in `[0, len)`. */
  lemma SmallRegionHasOneCell(r: Rect, len: int)
    requires len > 0 && r.width < len && r.height < len
    ensures AreasOfRegion(r, len) == [(r.x % len, r.y % len)]
    ensures 0 <= r.x % len < len && 0 <= r.y % len < len
  {
  }

  /**
    The large-region branch enumerates by position, not size: a region wider than a
    cell whose left edge is in the first cell column, and which is not taller than a
    cell, occupies no cell at all.
  */
  lemma WideRegionNearOriginHasNoCells(r: Rect, len: int)
    requires len > 0 && r.width > len && r.height <= len && 0 <= r.x < len
    ensures AreasOfRegion(r, len) == []
  {
  }

  /** A region exactly one cell wide and no taller than a cell falls through both branches and occupies no cell. */
  lemma CellSizedRegionHasNoCells(r: Rect, len: int)
    requires len > 0 && r.width == len && r.height <= len
    ensures AreasOfRegion(r, len) == []
  {
  }

  /**
    The cells of a circle as written. A circle's `width` and `height` are methods
    returning the radius, and Python 2 orders every number below a bound method, so
    `width < 75` is false and `width > 75` is true whatever the radius. The region
    therefore always takes both large-region loops; a width and height above `len`
    stand for the method here.
  */
  function CircleAreasAsWritten(x: int, y: int, len: int): (cells: seq<Cell>)
    requires len > 0
    ensures |cells| == Max(x / len, 0) + Max(y / len, 0)
    ensures forall i :: 0 <= i < |cells| ==> cells[i].0 == x % len || cells[i].1 == y % len
  {
    var region := Rect(x, y, len + 1, len + 1);
    WideCells(region, len) + TallCells(region, len)
  }

  /** The cells of a circle with the radius used as its width and height, as `width()` and `height()` evidently mean. */
  function CircleAreas(radius: int, x: int, y: int, len: int): (cells: seq<Cell>)
    requires len > 0
    ensures radius < len ==> cells == [(x % len, y % len)]
    ensures radius > len ==> cells == CircleAreasAsWritten(x, y, len)
  {
    AreasOfRegion(Rect(x, y, radius, radius), len)
  }

  /**
    Counterexample: as written, a circle centred in the first cell lies in no cell
    at all, so no sweep ever tests it; with the radius as its size, a circle smaller
    than a cell lies in exactly that cell.
  */
  lemma CircleNearOriginHasNoCellsAsWritten(radius: int, x: int, y: int, len: int)
    requires len > 0 && 0 <= x < len && 0 <= y < len && radius < len
    ensures CircleAreasAsWritten(x, y, len) == []
    ensures CircleAreas(radius, x, y, len) == [(x, y)]
  {
  }

  // ---------------------------------------------------------------------------
  // Insertion and removal

  /** `_insert_in_area` as written: its guard `area not in Collider._get_areas_of_region` tests membership in a function. */
  datatype Fault = NotIterable

  /** `_insert_in_area` as written: the guard raises on the first cell, so only an empty cell list gets through. */
  function InsertInAreaAsWritten(g: Grid, c: ColliderId, areas: seq<Cell>): (r: Result<Grid, Fault>)
    ensures |areas| > 0 <==> r.Failure?
  {
    if |areas| == 0 then Success(g) else Failure(NotIterable)
  }

  /** Counterexample: as written, starting any collider smaller than a cell raises instead of registering it. */
  lemma StartRaisesAsWritten(g: Grid, c: ColliderId, r: Rect, len: int)
    requires len > 0 && r.width < len && r.height < len
    ensures InsertInAreaAsWritten(g, c, AreasOfRegion(r, len)) == Failure(NotIterable)
  {
  }

  /** `_insert_in_area` without the faulty guard: `setdefault` each cell, then append unless present. */
  function InsertInArea(g: Grid, c: ColliderId, areas: seq<Cell>): (h: Grid)
    ensures forall cell :: cell in h <==> cell in g || cell in areas
    ensures forall cell :: cell in areas ==> h[cell] == AppendOnce(CollidersIn(g, cell), c)
    ensures forall cell :: cell in g && cell !in areas ==> h[cell] == g[cell]
    ensures Wf(g) ==> Wf(h)
    ensures OthersKept(g, h, c)
    decreases |areas|
  {
    if |areas| == 0 then g
    else
      var cell := areas[0];
      var g' := g[cell := AppendOnce(CollidersIn(g, cell), c)];
      AppendToCellKeepsOthers(g, c, cell);
      var h := InsertInArea(g', c, areas[1..]);
      InsertInAreaStep(g, c, areas, g', h);
      h
  }

  /** One step of `InsertInArea`: what holds of the rest of the cells carries over to all of them. */
  lemma InsertInAreaStep(g: Grid, c: ColliderId, areas: seq<Cell>, g': Grid, h: Grid)
    requires |areas| > 0 && g' == g[areas[0] := AppendOnce(CollidersIn(g, areas[0]), c)]
    requires forall cell :: cell in h <==> cell in g' || cell in areas[1..]
    requires forall cell :: cell in areas[1..] ==> h[cell] == AppendOnce(CollidersIn(g', cell), c)
    requires forall cell :: cell in g' && cell !in areas[1..] ==> h[cell] == g'[cell]
    requires Wf(g') ==> Wf(h)
    ensures forall cell :: cell in h <==> cell in g || cell in areas
    ensures forall cell :: cell in areas ==> h[cell] == AppendOnce(CollidersIn(g, cell), c)
    ensures forall cell :: cell in g && cell !in areas ==> h[cell] == g[cell]
    ensures Wf(g) ==> Wf(h)
  {
    InsertInAreaStepKeys(g, areas, g', h);
    InsertInAreaStepCells(g, c, areas, g', h);
    InsertInAreaStepOthers(g, areas, g', h);
    InsertInAreaStepWf(g, c, areas[0], g');
  }

  lemma InsertInAreaStepKeys(g: Grid, areas: seq<Cell>, g': Grid, h: Grid)
    requires |areas| > 0 && g'.Keys == g.Keys + {areas[0]}
    requires forall cell :: cell in h <==> cell in g' || cell in areas[1..]
    ensures forall cell :: cell in h <==> cell in g || cell in areas
  {
    assert areas == [areas[0]] + areas[1..];
  }

  lemma InsertInAreaStepCells(g: Grid, c: ColliderId, areas: seq<Cell>, g': Grid, h: Grid)
    requires |areas| > 0 && g' == g[areas[0] := AppendOnce(CollidersIn(g, areas[0]), c)]
    requires forall cell :: cell in areas[1..] ==> cell in h && h[cell] == AppendOnce(CollidersIn(g', cell), c)
    requires forall cell :: cell in g' && cell !in areas[1..] ==> cell in h && h[cell] == g'[cell]
    ensures forall cell :: cell in areas ==> cell in h && h[cell] == AppendOnce(CollidersIn(g, cell), c)
  {
    forall cell | cell in areas
      ensures cell in h && h[cell] == AppendOnce(CollidersIn(g, cell), c)
    {
      InsertInAreaStepCell(g, c, areas[0], g', cell);
      if cell != areas[0] {
        assert cell in areas[1..] by {
          var k :| 0 <= k < |areas| && areas[k] == cell;
          assert areas[1..][k - 1] == cell;
        }
      }
    }
  }

  lemma InsertInAreaStepOthers(g: Grid, areas: seq<Cell>, g': Grid, h: Grid)
    requires |areas| > 0 && g'.Keys == g.Keys + {areas[0]}
    requires forall cell :: cell != areas[0] && cell in g ==> cell in g' && g'[cell] == g[cell]
    requires forall cell :: cell in g' && cell !in areas[1..] ==> cell in h && h[cell] == g'[cell]
    ensures forall cell :: cell in g && cell !in areas ==> cell in h && h[cell] == g[cell]
  {
    forall cell | cell in g && cell !in areas
      ensures cell in h && h[cell] == g[cell]
    {
      assert cell != areas[0];
      assert cell !in areas[1..];
    }
  }

  /** After the first cell is updated, appending once more is the same as appending to the original list. */
  lemma InsertInAreaStepCell(g: Grid, c: ColliderId, first: Cell, g': Grid, cell: Cell)
    requires g' == g[first := AppendOnce(CollidersIn(g, first), c)]
    ensures AppendOnce(CollidersIn(g', cell), c) == AppendOnce(CollidersIn(g, cell), c)
    ensures cell == first ==> g'[cell] == AppendOnce(CollidersIn(g, cell), c)
  {
    if cell == first {
      assert CollidersIn(g', cell) == AppendOnce(CollidersIn(g, cell), c);
    } else {
      assert CollidersIn(g', cell) == CollidersIn(g, cell);
    }
  }

  /** Adding `c` to one cell lists no other collider anywhere new. */
  lemma AppendToCellKeepsOthers(g: Grid, c: ColliderId, cell: Cell)
    ensures OthersKept(g, g[cell := AppendOnce(CollidersIn(g, cell), c)], c)
  {
  }

  /** Removing `c` from one cell unlists no other collider anywhere. */
  lemma RemoveFromCellKeepsOthers(g: Grid, c: ColliderId, cell: Cell)
    ensures cell in g ==> OthersKept(g, g[cell := RemoveFirst(g[cell], c)], c)
  {
    if cell in g {
      forall x | x != c
        ensures x in RemoveFirst(g[cell], c) <==> x in g[cell]
      {
        RemoveFirstKeepsOthers(g[cell], c, x);
      }
    }
  }

  /** Updating the first cell keeps the lists free of repeats. */
  lemma InsertInAreaStepWf(g: Grid, c: ColliderId, first: Cell, g': Grid)
    requires g' == g[first := AppendOnce(CollidersIn(g, first), c)]
    ensures Wf(g) ==> Wf(g')
  {
    if Wf(g) {
      assert NoDup(CollidersIn(g, first));
    }
  }

  /** `_remove_from_area` with the guard read as "skip a cell the grid does not know": remove the collider if listed. */
  function RemoveFromArea(g: Grid, c: ColliderId, areas: seq<Cell>): (h: Grid)
    ensures h.Keys == g.Keys
    ensures forall cell :: cell in g && cell !in areas ==> h[cell] == g[cell]
    ensures Wf(g) ==> Wf(h)
    ensures Wf(g) ==> forall cell :: cell in g && cell in areas ==> h[cell] == RemoveFirst(g[cell], c)
    ensures OthersKept(g, h, c)
    decreases |areas|
  {
    if |areas| == 0 then g
    else
      var cell := areas[0];
      var g' := if cell in g then g[cell := RemoveFirst(g[cell], c)] else g;
      RemoveFromAreaStep(g, c, cell);
      RemoveFromCellKeepsOthers(g, c, cell);
      RemoveFromArea(g', c, areas[1..])
  }

  lemma RemoveFromAreaStep(g: Grid, c: ColliderId, cell: Cell)
    ensures Wf(g) && cell in g ==> Wf(g[cell := RemoveFirst(g[cell], c)])
    ensures Wf(g) && cell in g ==> RemoveFirst(RemoveFirst(g[cell], c), c) == RemoveFirst(g[cell], c)
  {
    if Wf(g) && cell in g {
      RemoveFirstKeepsNoDup(g[cell], c);
    }
  }

  /**
    Inserting a collider into cells that do not list it, then removing it from the
    same cells (listed in any order), gives every cell its old list back.
  */
  lemma {:induction false} InsertThenRemoveRestoresCells(g: Grid, c: ColliderId, inserted: seq<Cell>, removed: seq<Cell>)
    requires Wf(g) && Tracks(g, c, [])
    requires forall cell :: cell in inserted <==> cell in removed
    ensures forall cell :: CollidersIn(RemoveFromArea(InsertInArea(g, c, inserted), c, removed), cell) == CollidersIn(g, cell)
  {
    var h := InsertInArea(g, c, inserted);
    var k := RemoveFromArea(h, c, removed);
    forall cell
      ensures CollidersIn(k, cell) == CollidersIn(g, cell)
    {
      if cell in inserted {
        assert c !in CollidersIn(g, cell);
        assert h[cell] == CollidersIn(g, cell) + [c];
        RemoveFirstOfAppended(CollidersIn(g, cell), c);
      }
    }
  }

  // ---------------------------------------------------------------------------
  // Moving a collider

  /** A collider's grid after an update, with the cells it now caches. */
  datatype Placement = Placement(grid: Grid, areas: seq<Cell>)

  /**
    `_update_areas`: recompute the region's cells, remove the collider from the cells
    it left, insert it into the cells it entered, and cache the new cells.
  */
  function UpdateAreas(g: Grid, c: ColliderId, last: seq<Cell>, r: Rect, len: int): (p: Placement)
    requires len > 0
    ensures p.areas == AreasOfRegion(r, len)
    ensures forall cell :: cell in p.grid <==> cell in g || (cell in p.areas && cell !in last)
    ensures forall cell :: cell in p.areas && cell !in last ==> p.grid[cell] == AppendOnce(CollidersIn(g, cell), c)
    ensures forall cell :: cell in g && (cell in last <==> cell in p.areas) ==> p.grid[cell] == g[cell]
    ensures Wf(g) ==> Wf(p.grid)
    ensures Wf(g) ==> forall cell :: cell in g && cell in last && cell !in p.areas ==> p.grid[cell] == RemoveFirst(g[cell], c)
    ensures OthersKept(g, p.grid, c)
  {
    var current := AreasOfRegion(r, len);
    var left := RemoveFromArea(g, c, Minus(last, current));
    Placement(InsertInArea(left, c, Minus(current, last)), current)
  }

  /** If the grid lists a collider exactly in its cached cells, it still does after the update, for the new cells. */
  lemma {:induction false} UpdateAreasKeepsTracking(g: Grid, c: ColliderId, last: seq<Cell>, r: Rect, len: int)
    requires len > 0 && Wf(g) && Tracks(g, c, last)
    ensures Tracks(UpdateAreas(g, c, last, r, len).grid, c, UpdateAreas(g, c, last, r, len).areas)
  {
    var p := UpdateAreas(g, c, last, r, len);
    forall cell
      ensures c in CollidersIn(p.grid, cell) <==> cell in p.areas
    {
      if cell in p.areas && cell !in last {
      } else if cell in last && cell !in p.areas {
        assert cell in g;
        RemoveFirstKeepsNoDup(g[cell], c);
      } else if cell in g {
        assert p.grid[cell] == g[cell];
      } else {
        assert cell !in p.grid;
      }
    }
  }

  lemma UpdateAreasKeepsTrackingWhen(g: Grid, c: ColliderId, last: seq<Cell>, r: Rect, len: int)
    requires len > 0
    ensures Wf(g) && Tracks(g, c, last) ==>
              Tracks(UpdateAreas(g, c, last, r, len).grid, c, UpdateAreas(g, c, last, r, len).areas)
  {
    if Wf(g) && Tracks(g, c, last) {
      UpdateAreasKeepsTracking(g, c, last, r, len);
    }
  }

  /** Cells outside the symmetric difference of old and new cells are untouched by an update. */
  lemma UpdateAreasTouchesOnlyTheDifference(g: Grid, c: ColliderId, last: seq<Cell>, r: Rect, len: int, cell: Cell)
    requires len > 0
    requires cell in last <==> cell in AreasOfRegion(r, len)
    ensures CollidersIn(UpdateAreas(g, c, last, r, len).grid, cell) == CollidersIn(g, cell)
  {
  }

  // ---------------------------------------------------------------------------
  // The collider's own state

  /** The four coordinates a setter can change. */
  datatype Field = X | Y | Width | Height

  function Get(r: Rect, f: Field): int {
    match f
    case X => r.x
    case Y => r.y
    case Width => r.width
    case Height => r.height
  }

  function With(r: Rect, f: Field, v: int): Rect {
    match f
    case X => r.(x := v)
    case Y => r.(y := v)
    case Width => r.(width := v)
    case Height => r.(height := v)
  }

  /**
    A registered collider: its identity, its bounds, the `_last_values` the setters
    record, the `_changed` flag, and the cells it caches in `_areas`.
  */
  datatype ColliderState = ColliderState(id: ColliderId, bounds: Rect, lastValues: Rect, changed: bool, areas: seq<Cell>)

  /** `Collider(x, y, width, height)`: nothing recorded, not dirty, in no cell. */
  function NewColliderState(id: ColliderId, bounds: Rect): (s: ColliderState)
    ensures s.id == id && s.bounds == bounds
    ensures s.areas == [] && !s.changed && s.lastValues == Rect(0, 0, 0, 0)
    ensures AttributesOf(s) == ColliderInitAttributes(bounds.x, bounds.y, bounds.width, bounds.height)
  {
    ColliderState(id, bounds, Rect(0, 0, 0, 0), false, [])
  }

  /**
    The numeric attributes of a collider instance by name (`_x`, `_y`, `_width`,
    `_height`); reading one that was never set raises `AttributeError`.
  */
  type Attributes = map<string, int>

  /** What `Collider.__init__` sets. */
  function ColliderInitAttributes(x: int, y: int, width: int, height: int): Attributes {
    map["_x" := x, "_y" := y, "_width" := width, "_height" := height]
  }

  /** A property setter: it reads the current value (to record it) before storing the new one. */
  function SetAttribute(a: Attributes, name: string, v: int): (r: Result<Attributes, string>)
    ensures r.Failure? <==> name !in a
    ensures r.Failure? ==> r.error == name
    ensures r.Success? ==> r.value == a[name := v]
  {
    if name in a then Success(a[name := v]) else Failure(name)
  }

  /** The setters a subclass constructor runs, in order (`x`, `y`, `width`, `height`), stopping at the first that raises. */
  function SetBounds(a: Attributes, x: int, y: int, width: int, height: int): (r: Result<Attributes, string>)
    ensures r.Success? <==> "_x" in a && "_y" in a && "_width" in a && "_height" in a
    ensures "_x" !in a ==> r == Failure("_x")
    ensures r.Success? ==> r.value == a["_x" := x]["_y" := y]["_width" := width]["_height" := height]
  {
    match SetAttribute(a, "_x", x)
    case Failure(e) => Failure(e)
    case Success(a1) =>
      match SetAttribute(a1, "_y", y)
      case Failure(e) => Failure(e)
      case Success(a2) =>
        match SetAttribute(a2, "_width", width)
        case Failure(e) => Failure(e)
        case Success(a3) => SetAttribute(a3, "_height", height)
  }

  /** The `x` then `y` setters, stopping at the first that raises. */
  function SetPosition(a: Attributes, x: int, y: int): (r: Result<Attributes, string>)
    ensures r.Success? <==> "_x" in a && "_y" in a
    ensures "_x" !in a ==> r == Failure("_x")
    ensures r.Success? ==> r.value == a["_x" := x]["_y" := y]
  {
    match SetAttribute(a, "_x", x)
    case Failure(e) => Failure(e)
    case Success(a1) => SetAttribute(a1, "_y", y)
  }

  /**
    `BoxCollider.__init__` as written: `super(Collider, self).__init__()` skips
    `Collider.__init__`, so no coordinate has been set when the `x` setter reads one.
  */
  function NewBoxAttributesAsWritten(x: int, y: int, width: int, height: int): (r: Result<Attributes, string>)
    ensures r.Failure?
  {
    SetBounds(map[], x, y, width, height)
  }

  /** Counterexample: every box construction raises on its first setter, reading `_x`. */
  lemma BoxConstructorRaisesAsWritten(x: int, y: int, width: int, height: int)
    ensures NewBoxAttributesAsWritten(x, y, width, height) == Failure("_x")
  {
  }

  /** The constructor with `Collider.__init__` run first: the setters store exactly the given bounds. */
  function NewBoxAttributes(x: int, y: int, width: int, height: int): (r: Result<Attributes, string>)
    ensures r == Success(ColliderInitAttributes(x, y, width, height))
  {
    var r := SetBounds(ColliderInitAttributes(0, 0, 0, 0), x, y, width, height);
    assert ColliderInitAttributes(0, 0, 0, 0)["_x" := x]["_y" := y]["_width" := width]["_height" := height]
        == ColliderInitAttributes(x, y, width, height);
    r
  }

  /** `CircleCollider.__init__` as written: `_radius` is stored, then the `x` setter reads the `_x` that was never set. */
  function NewCircleAttributesAsWritten(radius: int, x: int, y: int): (r: Result<Attributes, string>)
    ensures r.Failure?
  {
    SetPosition(map["_radius" := radius], x, y)
  }

  /** Counterexample: every circle construction raises on its first setter, reading `_x`. */
  lemma CircleConstructorRaisesAsWritten(radius: int, x: int, y: int)
    ensures NewCircleAttributesAsWritten(radius, x, y) == Failure("_x")
  {
  }

  /** The circle constructor with `Collider.__init__` run first: the centre is stored, the size stays zero. */
  function NewCircleAttributes(radius: int, x: int, y: int): (r: Result<Attributes, string>)
    ensures r == Success(ColliderInitAttributes(x, y, 0, 0)["_radius" := radius])
  {
    var r := SetPosition(ColliderInitAttributes(0, 0, 0, 0)["_radius" := radius], x, y);
    assert ColliderInitAttributes(0, 0, 0, 0)["_radius" := radius]["_x" := x]["_y" := y]
        == ColliderInitAttributes(x, y, 0, 0)["_radius" := radius];
    r
  }

  /** The attribute each `Field` is stored under. */
  function FieldName(f: Field): string {
    match f
    case X => "_x"
    case Y => "_y"
    case Width => "_width"
    case Height => "_height"
  }

  /** The coordinate attributes a collider state stands for. */
  function AttributesOf(s: ColliderState): Attributes {
    ColliderInitAttributes(s.bounds.x, s.bounds.y, s.bounds.width, s.bounds.height)
  }

  /** The `x`, `y`, `width` and `height` setters: record the previous value, mark dirty, store the new value. */
  function Set(s: ColliderState, f: Field, v: int): (t: ColliderState)
    ensures Get(t.bounds, f) == v && Get(t.lastValues, f) == Get(s.bounds, f) && t.changed
    ensures forall g :: g != f ==> Get(t.bounds, g) == Get(s.bounds, g) && Get(t.lastValues, g) == Get(s.lastValues, g)
    ensures t.id == s.id && t.areas == s.areas
  {
    s.(bounds := With(s.bounds, f, v), lastValues := With(s.lastValues, f, Get(s.bounds, f)), changed := true)
  }

  /** A setter on the collider state is the setter on its attributes: the one attribute changes, nothing raises. */
  lemma SetIsSetAttribute(s: ColliderState, f: Field, v: int)
    ensures SetAttribute(AttributesOf(s), FieldName(f), v) == Success(AttributesOf(Set(s, f, v)))
  {
    var b := s.bounds;
    match f
    case X => assert ColliderInitAttributes(b.x, b.y, b.width, b.height)["_x" := v] == ColliderInitAttributes(v, b.y, b.width, b.height);
    case Y => assert ColliderInitAttributes(b.x, b.y, b.width, b.height)["_y" := v] == ColliderInitAttributes(b.x, v, b.width, b.height);
    case Width => assert ColliderInitAttributes(b.x, b.y, b.width, b.height)["_width" := v] == ColliderInitAttributes(b.x, b.y, v, b.height);
    case Height => assert ColliderInitAttributes(b.x, b.y, b.width, b.height)["_height" := v] == ColliderInitAttributes(b.x, b.y, b.width, v);
  }

  /** A collider's grid and own state after a lifecycle step. */
  datatype Moved = Moved(grid: Grid, state: ColliderState)

  /**
    `Collider.update`: its `if not self._changed: pass` does not return, so the cells
    are recomputed whether or not the collider is dirty; the flag is then cleared.
  */
  function Update(g: Grid, s: ColliderState, len: int): (m: Moved)
    requires len > 0
    ensures m.state.areas == AreasOfRegion(s.bounds, len) && !m.state.changed
    ensures m.state.bounds == s.bounds && m.state.id == s.id
    ensures Wf(g) && Tracks(g, s.id, s.areas) ==> Wf(m.grid) && Tracks(m.grid, s.id, m.state.areas)
    ensures OthersKept(g, m.grid, s.id)
    ensures forall cell :: cell in m.grid <==> cell in g || (cell in m.state.areas && cell !in s.areas)
    ensures forall cell :: cell in g && (cell in s.areas <==> cell in m.state.areas) ==> m.grid[cell] == g[cell]
  {
    var p := UpdateAreas(g, s.id, s.areas, s.bounds, len);
    UpdateAreasKeepsTrackingWhen(g, s.id, s.areas, s.bounds, len);
    Moved(p.grid, s.(areas := p.areas, changed := false))
  }

  /** An update of a collider whose cached cells are current leaves the grid unchanged. */
  lemma {:induction false} UpToDateUpdateLeavesGrid(g: Grid, s: ColliderState, len: int)
    requires len > 0 && s.areas == AreasOfRegion(s.bounds, len)
    ensures Update(g, s, len).grid == g
  {
    var h := Update(g, s, len).grid;
    assert Minus(s.areas, s.areas) == [];
    assert h.Keys == g.Keys;
    forall cell | cell in g
      ensures h[cell] == g[cell]
    {
    }
  }

  /**
    The `update` of `BoxCollider` and `CircleCollider` as written: it moves the
    collider through the `x` and `y` setters (to the transform's top-left corner for
    a box, its centre for a circle), then calls `super(Collider, self).update()`,
    whose lookup starts after `Collider` and so skips `Collider.update`. The cells are
    never recomputed: the collider stays listed where it was, and stays dirty.
  */
  function SubclassUpdateAsWritten(g: Grid, s: ColliderState, x: int, y: int): (m: Moved)
    ensures m.grid == g
    ensures m.state.bounds == s.bounds.(x := x, y := y) && m.state.areas == s.areas
    ensures m.state.changed && m.state.id == s.id
  {
    Moved(g, Set(Set(s, X, x), Y, y))
  }

  /** The subclasses' `update` as evidently meant: move, then run `Collider.update`, so the cells follow the collider. */
  function SubclassUpdate(g: Grid, s: ColliderState, x: int, y: int, len: int): (m: Moved)
    requires len > 0
    ensures m.state.bounds == s.bounds.(x := x, y := y) && m.state.id == s.id
    ensures m.state.areas == AreasOfRegion(m.state.bounds, len) && !m.state.changed
    ensures Wf(g) && Tracks(g, s.id, s.areas) ==> Wf(m.grid) && Tracks(m.grid, s.id, m.state.areas)
    ensures OthersKept(g, m.grid, s.id)
  {
    Update(g, Set(Set(s, X, x), Y, y), len)
  }

  /**
    Counterexample: a 10-by-10 box at the origin, listed in cell (0, 0), moved to
    (80, 0). As written it stays listed in (0, 0) and is missing from (5, 0), the cell
    its new position computes to; corrected, it has left the one and entered the other.
  */
  lemma MovedColliderStaysInOldCellAsWritten(g: Grid, s: ColliderState)
    requires s.bounds == Rect(0, 0, 10, 10) && s.areas == [(0, 0)] && Wf(g) && Tracks(g, s.id, s.areas)
    ensures var m := SubclassUpdateAsWritten(g, s, 80, 0);
            && m.state.bounds == Rect(80, 0, 10, 10)
            && s.id in CollidersIn(m.grid, (0, 0)) && s.id !in CollidersIn(m.grid, (5, 0))
    ensures var m := SubclassUpdate(g, s, 80, 0, WorldCellLength);
            && AreasOfRegion(m.state.bounds, WorldCellLength) == [(5, 0)]
            && s.id !in CollidersIn(m.grid, (0, 0)) && s.id in CollidersIn(m.grid, (5, 0))
  {
    var m := SubclassUpdate(g, s, 80, 0, WorldCellLength);
    assert m.state.bounds == Rect(80, 0, 10, 10);
    assert AreasOfRegion(Rect(80, 0, 10, 10), WorldCellLength) == [(5, 0)];
  }

  /** `start`: `_update_areas` alone, from whatever cells are cached; the dirty flag is left as it is. */
  function Start(g: Grid, s: ColliderState, len: int): (m: Moved)
    requires len > 0
    ensures m.state == s.(areas := AreasOfRegion(s.bounds, len))
    ensures Wf(g) && Tracks(g, s.id, s.areas) ==> Wf(m.grid) && Tracks(m.grid, s.id, m.state.areas)
    ensures OthersKept(g, m.grid, s.id)
    ensures forall cell :: cell in m.grid <==> cell in g || (cell in m.state.areas && cell !in s.areas)
    ensures forall cell :: cell in g && (cell in s.areas <==> cell in m.state.areas) ==> m.grid[cell] == g[cell]
  {
    var p := UpdateAreas(g, s.id, s.areas, s.bounds, len);
    UpdateAreasKeepsTrackingWhen(g, s.id, s.areas, s.bounds, len);
    Moved(p.grid, s.(areas := p.areas))
  }

  /** `finish`: remove the collider from every cell it caches. */
  function Finish(g: Grid, s: ColliderState): (h: Grid)
    ensures h.Keys == g.Keys
    ensures Wf(g) ==> Wf(h)
    ensures Wf(g) && Tracks(g, s.id, s.areas) ==> Tracks(h, s.id, [])
    ensures OthersKept(g, h, s.id)
    ensures forall cell :: cell in g && cell !in s.areas ==> h[cell] == g[cell]
  {
    RemoveFromAreaUntracksWhen(g, s.id, s.areas);
    RemoveFromArea(g, s.id, s.areas)
  }

  lemma RemoveFromAreaUntracksWhen(g: Grid, c: ColliderId, areas: seq<Cell>)
    ensures Wf(g) && Tracks(g, c, areas) ==> Tracks(RemoveFromArea(g, c, areas), c, [])
  {
    if Wf(g) && Tracks(g, c, areas) {
      RemoveFromAreaUntracks(g, c, areas);
    }
  }

  /** Removing a collider from all the cells it is listed in leaves it listed nowhere. */
  lemma RemoveFromAreaUntracks(g: Grid, c: ColliderId, areas: seq<Cell>)
    requires Wf(g) && Tracks(g, c, areas)
    ensures Tracks(RemoveFromArea(g, c, areas), c, [])
  {
    var h := RemoveFromArea(g, c, areas);
    forall cell
      ensures c !in CollidersIn(h, cell)
    {
      if cell in g {
        RemoveFirstKeepsNoDup(g[cell], c);
      }
    }
  }

  /** Starting a fresh collider and then finishing it leaves every cell's list as it was. */
  lemma StartThenFinishRestoresCells(g: Grid, s: ColliderState, len: int)
    requires len > 0 && s.areas == [] && Wf(g) && Tracks(g, s.id, [])
    ensures var m := Start(g, s, len);
            forall cell :: CollidersIn(Finish(m.grid, m.state), cell) == CollidersIn(g, cell)
  {
    var m := Start(g, s, len);
    var areas := AreasOfRegion(s.bounds, len);
    assert Minus([], areas) == [];
    assert m.grid == InsertInArea(g, s.id, Minus(areas, []));
    InsertThenRemoveRestoresCells(g, s.id, Minus(areas, []), areas);
  }
}

=== FILE: physics.dfy ===
/**
  The collision driver (temdisponivellib/physics.py): once every
  `collision_check_rate` frames, each cell's colliders are tested pairwise and each
  test is classified as enter, stay or exit against the table of active collisions,
  which is keyed by ordered pairs of game-object ids.
*/
module Physics {
  import opened Wrappers
  import opened Shapes
  import GameObjects

  /** A game object's `id`, as the game objects number them. */
  type ObjId = GameObjects.ObjId

  /** `(collider_a.game_object.id, collider_b.game_object.id)` */
  type PairKey = (ObjId, ObjId)

  /** A collider as it sits in a cell list, with the id of the game object that owns it. */
  datatype Body = Body(owner: ObjId, collider: Collider)

  /** `Physics._active_collisions`: a key to the pair of colliders that entered under it. */
  type Table = map<PairKey, (Body, Body)>

  /** The callbacks of `callback_functions`. */
  datatype Callback = CollisionEnter | CollisionStay | CollisionExit

  function CallbackName(cb: Callback): string {
    match cb
    case CollisionEnter => "collision_enter"
    case CollisionStay => "collision_stay"
    case CollisionExit => "collision_exit"
  }

  // ---------------------------------------------------------------------------
  // The rate gate

  /**
    `update`: a check runs on the frames whose count is a multiple of the rate. Python's
    `%` takes the divisor's sign and Dafny's is never negative, but both are zero
    exactly when the rate divides the frame count.
  */
  predicate ShouldCheck(frame: int, rate: int)
    requires rate != 0
  {
    frame % rate == 0
  }

  /** A positive multiple of a positive rate is at least the rate. */
  lemma MultipleAtLeast(d: int, rate: int)
    requires d >= 1 && rate > 0
    ensures d * rate >= rate
  {
    assert d * rate == (d - 1) * rate + rate;
    assert (d - 1) * rate >= 0;
  }

  /** The remainder is the unique `r` in `[0, rate)` with `a == q * rate + r`. */
  lemma {:induction false} RemainderUnique(a: int, rate: int, q: int, r: int)
    requires rate > 0 && 0 <= r < rate && a == q * rate + r
    ensures a % rate == r
  {
    var q0 := a / rate;
    var r0 := a % rate;
    assert a == q0 * rate + r0;
    assert (q - q0) * rate == r0 - r;
    if q > q0 {
      MultipleAtLeast(q - q0, rate);
    } else if q < q0 {
      MultipleAtLeast(q0 - q, rate);
    }
  }

  /**
    Whatever sign convention the remainder follows, a frame is checked iff it is a
    whole multiple of the rate, negative rates and frames included.
  */
  lemma {:induction false} ShouldCheckIffMultiple(frame: int, rate: int)
    requires rate != 0
    ensures ShouldCheck(frame, rate) <==> exists k :: frame == k * rate
  {
    if ShouldCheck(frame, rate) {
      assert frame == (frame / rate) * rate;
    }
    if exists k :: frame == k * rate {
      var k :| frame == k * rate;
      if rate > 0 {
        RemainderUnique(frame, rate, k, 0);
      } else {
        var q := frame / rate;
        var r := frame % rate;
        assert frame == (-q) * (-rate) + r;
        assert frame == (-k) * (-rate) + 0;
        RemainderUnique(frame, -rate, -q, r);
        RemainderUnique(frame, -rate, -k, 0);
      }
    }
  }

  /** A checked frame is followed by another exactly one rate later. */
  lemma {:induction false} NextCheckOneRateLater(frame: int, rate: int)
    requires rate > 0 && ShouldCheck(frame, rate)
    ensures ShouldCheck(frame + rate, rate)
  {
    var q := frame / rate;
    assert frame == q * rate;
    assert frame + rate == (q + 1) * rate + 0;
    RemainderUnique(frame + rate, rate, q + 1, 0);
  }

  /** No frame strictly between two consecutive checks is checked. */
  lemma {:induction false} NoCheckWithinRate(frame: int, j: int, rate: int)
    requires rate > 0 && ShouldCheck(frame, rate) && 0 < j < rate
    ensures !ShouldCheck(frame + j, rate)
  {
    var q := frame / rate;
    assert frame == q * rate;
    assert frame + j == q * rate + j;
    RemainderUnique(frame + j, rate, q, j);
  }

  // ---------------------------------------------------------------------------
  // Classifying one pair

  function Key(a: Body, b: Body): PairKey {
    (a.owner, b.owner)
  }

  /** The pair is in contact under either ordering of its key. */
  predicate Active(t: Table, a: Body, b: Body) {
    Key(a, b) in t || Key(b, a) in t
  }

  /** The table never holds a key together with its mirror image. */
  ghost predicate NoMirrored(t: Table) {
    forall k :: k in t && k.0 != k.1 ==> (k.1, k.0) !in t
  }

  /** The callback one test produces, if any, and the table after it. */
  datatype Step = Step(callback: Option<Callback>, table: Table)

  /**
    The body of the pair loop in `check_collision`: overlap with either key present is
    a stay; overlap with neither is an enter that records `(a, b)`; no overlap removes
    `(a, b)` if present, else `(b, a)`, as an exit; otherwise nothing happens.
  */
  function Classify(t: Table, a: Body, b: Body, overlap: bool): (s: Step)
    ensures overlap && Active(t, a, b) ==> s == Step(Some(CollisionStay), t)
    ensures overlap && !Active(t, a, b) ==> s == Step(Some(CollisionEnter), t[Key(a, b) := (a, b)])
    ensures !overlap && Key(a, b) in t ==> s == Step(Some(CollisionExit), t - {Key(a, b)})
    ensures !overlap && Key(a, b) !in t && Key(b, a) in t ==> s == Step(Some(CollisionExit), t - {Key(b, a)})
    ensures !overlap && !Active(t, a, b) ==> s == Step(None, t)
  {
    if overlap then
      if Key(a, b) in t then Step(Some(CollisionStay), t)
      else if Key(b, a) in t then Step(Some(CollisionStay), t)
      else Step(Some(CollisionEnter), t[Key(a, b) := (a, b)])
    else
      if Key(a, b) in t then Step(Some(CollisionExit), t - {Key(a, b)})
      else if Key(b, a) in t then Step(Some(CollisionExit), t - {Key(b, a)})
      else Step(None, t)
  }

  /** Classification keeps the table free of mirrored keys: an enter only records a pair with neither key present. */
  lemma ClassifyKeepsNoMirrored(t: Table, a: Body, b: Body, overlap: bool)
    requires NoMirrored(t)
    ensures NoMirrored(Classify(t, a, b, overlap).table)
  {
  }

  /** With no mirrored keys, after a test the pair is active iff the test found an overlap. */
  lemma ClassifyTracksOverlap(t: Table, a: Body, b: Body, overlap: bool)
    requires NoMirrored(t)
    ensures Active(Classify(t, a, b, overlap).table, a, b) <==> overlap
  {
  }

  /** Classification never touches a key that belongs to another pair. */
  lemma ClassifyLeavesOtherPairs(t: Table, a: Body, b: Body, overlap: bool, k: PairKey)
    requires k != Key(a, b) && k != Key(b, a)
    ensures k in Classify(t, a, b, overlap).table <==> k in t
    ensures k in t ==> Classify(t, a, b, overlap).table[k] == t[k]
  {
  }

  /** Three tests of a fresh pair finding overlap, overlap, no overlap give enter, stay, exit, and the pair ends inactive. */
  lemma EnterStayExit(t: Table, a: Body, b: Body)
    requires !Active(t, a, b)
    ensures var s1 := Classify(t, a, b, true);
            var s2 := Classify(s1.table, a, b, true);
            var s3 := Classify(s2.table, a, b, false);
            && s1.callback == Some(CollisionEnter)
            && s2.callback == Some(CollisionStay)
            && s3.callback == Some(CollisionExit)
            && !Active(s3.table, a, b)
            && s3.table == t
  {
    var s1 := Classify(t, a, b, true);
    assert s1.table == t[Key(a, b) := (a, b)];
    var s3 := Classify(s1.table, a, b, false);
    assert s3.table == t[Key(a, b) := (a, b)] - {Key(a, b)};
    assert s3.table == t;
  }

  // ---------------------------------------------------------------------------
  // Dispatch

  /**
    `if callback is None: self._call_callback(callback, ...)`: the test is inverted, so
    a classification is never handed over, and when there is none `_call_callback(None, ...)`
    runs with `get_class_by_callback(None)` finding no class. Whatever the
    classification, no callback reaches a component.
  */
  function DispatchedAsWritten(cb: Option<Callback>): (d: Option<Callback>)
    ensures d == None
  {
    None
  }

  /** The callback handed to `_call_callback` when the test reads `is not None`: exactly the classification. */
  function Dispatched(cb: Option<Callback>, a: Body, b: Body): (events: seq<Event>)
    ensures cb.None? <==> events == []
    ensures cb.Some? ==> events == [Event(cb.value, a, b)]
  {
    if cb.Some? then [Event(cb.value, a, b)] else []
  }

  /** Counterexample: a fresh overlapping pair classifies as enter, which as written is never dispatched. */
  lemma EnterIsSilentAsWritten(t: Table, a: Body, b: Body)
    requires !Active(t, a, b)
    ensures Classify(t, a, b, true).callback == Some(CollisionEnter)
    ensures DispatchedAsWritten(Classify(t, a, b, true).callback) == None
    ensures Dispatched(Classify(t, a, b, true).callback, a, b) == [Event(CollisionEnter, a, b)]
  {
  }

  // ---------------------------------------------------------------------------
  // Sweeping the cells

  /** A dispatched callback with the two colliders it concerns. */
  datatype Event = Event(callback: Callback, a: Body, b: Body)

  /** The callbacks a sweep dispatched, in order, and the table after it. */
  datatype Sweep = Sweep(events: seq<Event>, table: Table)

  /** The index pairs `(i, i + 1)` for `i in range(length)`, as written: the last reads past the end. */
  function NeighbourPairsAsWritten(n: nat): (ps: seq<(int, int)>)
    ensures |ps| == n
  {
    seq(n, i => (i, i + 1))
  }

  /** Counterexample: for any non-empty list, the last pair as written indexes `list_colliders[length]`. */
  lemma AsWrittenReadsPastTheEnd(n: nat)
    requires n > 0
    ensures NeighbourPairsAsWritten(n)[n - 1].1 == n
  {
  }

  /** The neighbour pairs the loop evidently means: every `(i, i + 1)` with both indices in range. */
  function NeighbourPairs(n: nat): (ps: seq<(int, int)>)
    ensures |ps| == if n == 0 then 0 else n - 1
    ensures forall k :: 0 <= k < |ps| ==> ps[k] == (k, k + 1) && 0 <= ps[k].0 < n && 0 <= ps[k].1 < n
  {
    if n == 0 then [] else seq(n - 1, i => (i, i + 1))
  }

  /** The corrected pairs are the as-written ones without the last, out-of-range pair. */
  lemma NeighbourPairsDropTheLast(n: nat)
    requires n > 0
    ensures NeighbourPairs(n) == NeighbourPairsAsWritten(n)[..n - 1]
  {
  }

  /** Every index pair lies within the list. */
  ghost predicate InRange(pairs: seq<(int, int)>, n: int) {
    forall k :: 0 <= k < |pairs| ==> 0 <= pairs[k].0 < n && 0 <= pairs[k].1 < n
  }

  /** One pass of the pair loop: `collider_a`, `collider_b`, and whether `collider_a.check_collision(collider_b)` held. */
  datatype Test = Test(a: Body, b: Body, overlap: bool)

  /** The index pairs of one cell's list, tested in order. */
  function Tested(bodies: seq<Body>, pairs: seq<(int, int)>): (ts: seq<Test>)
    requires InRange(pairs, |bodies|)
    ensures |ts| == |pairs|
    ensures forall k :: 0 <= k < |ts| ==> ts[k].a == bodies[pairs[k].0] && ts[k].b == bodies[pairs[k].1]
    ensures forall k :: 0 <= k < |ts| ==> ts[k].overlap == CheckCollision(ts[k].a.collider, ts[k].b.collider)
    ensures forall x :: x in ts ==> x.a in bodies && x.b in bodies
    decreases |pairs|
  {
    if |pairs| == 0 then []
    else
      var a := bodies[pairs[0].0];
      var b := bodies[pairs[0].1];
      assert InRange(pairs[1..], |bodies|) by {
        forall k | 0 <= k < |pairs[1..]|
          ensures 0 <= pairs[1..][k].0 < |bodies| && 0 <= pairs[1..][k].1 < |bodies|
        {
          assert pairs[1..][k] == pairs[k + 1];
        }
      }
      [Test(a, b, CheckCollision(a.collider, b.collider))] + Tested(bodies, pairs[1..])
  }

  /** The tests of one cell: each collider against the next one. */
  function PairTests(bodies: seq<Body>): (ts: seq<Test>)
    ensures |ts| < |bodies| || (|bodies| == 0 && ts == [])
    ensures forall x :: x in ts ==> x.a in bodies && x.b in bodies
  {
    Tested(bodies, NeighbourPairs(|bodies|))
  }

  // ---------------------------------------------------------------------------
  // What a sweep should report, independently of the table's mechanics

  function Mirror(k: PairKey): PairKey {
    (k.1, k.0)
  }

  /** The test concerns the pair keyed `k`, in either order. */
  predicate Touches(x: Test, k: PairKey) {
    Key(x.a, x.b) == k || Key(x.b, x.a) == k
  }

  /** The pair keyed `k` is active in the table, under either ordering. */
  predicate ActiveKey(t: Table, k: PairKey) {
    k in t || Mirror(k) in t
  }

  /** What the last test of the pair keyed `k` found, if any test concerned it. */
  function LastOverlap(ts: seq<Test>, k: PairKey): Option<bool>
    decreases |ts|
  {
    if |ts| == 0 then None
    else if Touches(ts[|ts| - 1], k) then Some(ts[|ts| - 1].overlap)
    else LastOverlap(ts[..|ts| - 1], k)
  }

  /** Whether the pair keyed `k` is in contact after the tests `ts` from the table `t`: its last test decides, else the table. */
  predicate InContact(t: Table, ts: seq<Test>, k: PairKey) {
    match LastOverlap(ts, k)
    case Some(o) => o
    case None => ActiveKey(t, k)
  }

  /**
    The callbacks the tests `ts` should raise, test by test: a test finding overlap
    raises stay if its pair was already in contact and enter otherwise; a test finding
    none raises exit if its pair was in contact and nothing otherwise.
  */
  function Expected(t: Table, ts: seq<Test>): (events: seq<Event>)
    ensures |events| <= |ts|
    decreases |ts|
  {
    if |ts| == 0 then []
    else
      var before := ts[..|ts| - 1];
      var x := ts[|ts| - 1];
      var was := InContact(t, before, Key(x.a, x.b));
      Expected(t, before) +
        (if x.overlap then [Event(if was then CollisionStay else CollisionEnter, x.a, x.b)]
         else if was then [Event(CollisionExit, x.a, x.b)]
         else [])
  }

  // ---------------------------------------------------------------------------
  // The sweep

  /** The body of the pair loop over a run of tests: classify each against the table so far and dispatch its callback. */
  function Run(t: Table, ts: seq<Test>): (r: Sweep)
    ensures NoMirrored(t) ==> NoMirrored(r.table)
    ensures |r.events| <= |ts|
    ensures forall e :: e in r.events ==> Test(e.a, e.b, true) in ts || Test(e.a, e.b, false) in ts
    decreases |ts|
  {
    if |ts| == 0 then Sweep([], t)
    else
      var before := Run(t, ts[..|ts| - 1]);
      var x := ts[|ts| - 1];
      var s := Classify(before.table, x.a, x.b, x.overlap);
      ClassifyKeepsNoMirroredWhen(before.table, x.a, x.b, x.overlap);
      Sweep(before.events + Dispatched(s.callback, x.a, x.b), s.table)
  }

  lemma ClassifyKeepsNoMirroredWhen(t: Table, a: Body, b: Body, overlap: bool)
    ensures NoMirrored(t) ==> NoMirrored(Classify(t, a, b, overlap).table)
  {
    if NoMirrored(t) {
      ClassifyKeepsNoMirrored(t, a, b, overlap);
    }
  }

  /** After a run of tests, a pair is active in the table iff it is in contact by the reference definition. */
  lemma {:induction false} RunTracksContact(t: Table, ts: seq<Test>)
    requires NoMirrored(t)
    ensures forall k :: ActiveKey(Run(t, ts).table, k) == InContact(t, ts, k)
    decreases |ts|
  {
    if |ts| > 0 {
      RunTracksContact(t, ts[..|ts| - 1]);
      forall k
        ensures ActiveKey(Run(t, ts).table, k) == InContact(t, ts, k)
      {
        RunTracksContactStep(t, ts, k);
      }
    }
  }

  /** One more test: its own pair follows the test's answer, every other pair keeps its state. */
  lemma RunTracksContactStep(t: Table, ts: seq<Test>, k: PairKey)
    requires |ts| > 0 && NoMirrored(Run(t, ts[..|ts| - 1]).table)
    requires ActiveKey(Run(t, ts[..|ts| - 1]).table, k) == InContact(t, ts[..|ts| - 1], k)
    ensures ActiveKey(Run(t, ts).table, k) == InContact(t, ts, k)
  {
    var before := ts[..|ts| - 1];
    var x := ts[|ts| - 1];
    var p := Run(t, before).table;
    var q := Classify(p, x.a, x.b, x.overlap).table;
    assert Run(t, ts).table == q;
    if Touches(x, k) {
      ClassifyTracksOverlap(p, x.a, x.b, x.overlap);
      assert LastOverlap(ts, k) == Some(x.overlap);
      assert ActiveKey(q, k) == Active(q, x.a, x.b);
    } else {
      assert LastOverlap(ts, k) == LastOverlap(before, k);
      ClassifyLeavesOtherPairs(p, x.a, x.b, x.overlap, k);
      ClassifyLeavesOtherPairs(p, x.a, x.b, x.overlap, Mirror(k));
    }
  }

  /** A run of tests dispatches exactly the reference callbacks, in order. */
  lemma {:induction false} RunRaisesExpected(t: Table, ts: seq<Test>)
    requires NoMirrored(t)
    ensures Run(t, ts).events == Expected(t, ts)
    decreases |ts|
  {
    if |ts| > 0 {
      var before := ts[..|ts| - 1];
      var x := ts[|ts| - 1];
      RunRaisesExpected(t, before);
      RunTracksContact(t, before);
      assert Active(Run(t, before).table, x.a, x.b) == InContact(t, before, Key(x.a, x.b));
    }
  }

  /** A pair no test concerns keeps its table entry. */
  lemma {:induction false} RunLeavesUntestedPairs(t: Table, ts: seq<Test>, k: PairKey)
    requires LastOverlap(ts, k).None?
    ensures k in Run(t, ts).table <==> k in t
    ensures k in t ==> Run(t, ts).table[k] == t[k]
    decreases |ts|
  {
    if |ts| > 0 {
      var x := ts[|ts| - 1];
      RunLeavesUntestedPairs(t, ts[..|ts| - 1], k);
      ClassifyLeavesOtherPairs(Run(t, ts[..|ts| - 1]).table, x.a, x.b, x.overlap, k);
    }
  }

  lemma RunMeaningWhen(t: Table, ts: seq<Test>)
    ensures NoMirrored(t) ==> Run(t, ts).events == Expected(t, ts)
    ensures NoMirrored(t) ==> forall k :: ActiveKey(Run(t, ts).table, k) == InContact(t, ts, k)
  {
    if NoMirrored(t) {
      RunRaisesExpected(t, ts);
      RunTracksContact(t, ts);
    }
  }

  /** Running two batches of tests one after the other is running them as one batch. */
  lemma {:induction false} RunAppend(t: Table, xs: seq<Test>, ys: seq<Test>)
    ensures Run(t, xs + ys) == Sweep(Run(t, xs).events + Run(Run(t, xs).table, ys).events, Run(Run(t, xs).table, ys).table)
    decreases |ys|
  {
    var a := Run(t, xs);
    if |ys| == 0 {
      assert xs + ys == xs;
    } else {
      var init := ys[..|ys| - 1];
      var y := ys[|ys| - 1];
      assert (xs + ys)[..|xs + ys| - 1] == xs + init;
      assert (xs + ys)[|xs + ys| - 1] == y;
      RunAppend(t, xs, init);
      var b := Run(a.table, init);
      var s := Classify(b.table, y.a, y.b, y.overlap);
      var d := Dispatched(s.callback, y.a, y.b);
      assert Run(t, xs + init) == Sweep(a.events + b.events, b.table);
      assert Run(t, xs + ys) == Sweep((a.events + b.events) + d, s.table);
      assert Run(a.table, ys) == Sweep(b.events + d, s.table);
      EventsAssociate(a.events, b.events, d);
    }
  }

  lemma EventsAssociate(a: seq<Event>, b: seq<Event>, c: seq<Event>)
    ensures (a + b) + c == a + (b + c)
  {
  }

  // ---------------------------------------------------------------------------
  // The callback variable as written

  /** The test guarding the dispatch: `is None` as written, `is not None` as the inverted test evidently means. */
  datatype Guard = IsNone | IsNotNone

  /** Reading `callback` before any pass of the sweep assigned it: `UnboundLocalError`. */
  datatype LoopFault = UnboundCallback

  /** The loop's state after some passes; `callback` is `None` while the local is still unbound. */
  datatype Pass = Pass(events: seq<Event>, table: Table, callback: Option<Callback>)

  /**
    The pair loop of `check_collision` as written: `callback` is a local of the whole
    sweep and is never reset, so a pass that classifies nothing keeps the previous
    pass's value, and the first such pass before any assignment raises at the dispatch
    test. A bound `callback` is a string, never `None`: as written nothing is
    dispatched, and with the test read as `is not None` every pass dispatches the
    variable, stale or not.
  */
  function RunCarrying(t: Table, ts: seq<Test>, guard: Guard): (r: Result<Pass, LoopFault>)
    ensures CarriedOutcome(t, ts, guard, r)
    decreases |ts|
  {
    if |ts| == 0 then Success(Pass([], t, None))
    else
      var init := ts[..|ts| - 1];
      var before := RunCarrying(t, init, guard);
      var r := CarryPass(before, ts[|ts| - 1], guard);
      CarryPassStep(t, ts, guard, before);
      r
  }

  /**
    What the sweep as written does: it raises iff the first pass classifies nothing;
    otherwise its table is the corrected sweep's, the variable is bound after the
    first pass, nothing is dispatched under `is None`, and under `is not None` one
    callback per pass, about that pass's pair.
  */
  predicate CarriedOutcome(t: Table, ts: seq<Test>, guard: Guard, r: Result<Pass, LoopFault>) {
    && (r.Failure? <==> |ts| > 0 && !Classified(t, ts[0]))
    && (r.Success? ==> r.value.table == Run(t, ts).table)
    && (r.Success? ==> (r.value.callback.Some? <==> |ts| > 0))
    && (r.Success? && guard == IsNone ==> r.value.events == [])
    && (r.Success? && guard == IsNotNone ==> |r.value.events| == |ts|)
    && (r.Success? && guard == IsNotNone ==>
          forall k :: 0 <= k < |ts| ==> r.value.events[k].a == ts[k].a && r.value.events[k].b == ts[k].b)
  }

  /** One pass of the loop as written: classify, keep the old `callback` if nothing was assigned, then test it. */
  function CarryPass(before: Result<Pass, LoopFault>, x: Test, guard: Guard): Result<Pass, LoopFault> {
    if before.Failure? then Failure(before.error)
    else
      var s := Classify(before.value.table, x.a, x.b, x.overlap);
      var cb := if s.callback.Some? then s.callback else before.value.callback;
      if cb.None? then Failure(UnboundCallback)
      else
        var sent := if guard == IsNotNone then [Event(cb.value, x.a, x.b)] else [];
        Success(Pass(before.value.events + sent, s.table, cb))
  }

  lemma CarryPassStep(t: Table, ts: seq<Test>, guard: Guard, before: Result<Pass, LoopFault>)
    requires |ts| > 0 && CarriedOutcome(t, ts[..|ts| - 1], guard, before)
    ensures CarriedOutcome(t, ts, guard, CarryPass(before, ts[|ts| - 1], guard))
  {
    var init := ts[..|ts| - 1];
    var x := ts[|ts| - 1];
    var r := CarryPass(before, x, guard);
    assert |init| > 0 ==> init[0] == ts[0];
    if before.Success? {
      var s := Classify(before.value.table, x.a, x.b, x.overlap);
      assert Run(t, ts).table == s.table;
      if r.Success? && guard == IsNotNone {
        forall k | 0 <= k < |ts|
          ensures r.value.events[k].a == ts[k].a && r.value.events[k].b == ts[k].b
        {
          if k < |init| {
            assert r.value.events[k] == before.value.events[k];
            assert init[k] == ts[k];
          }
        }
      }
    }
  }

  /** The pass of `x` against the table `t` assigns `callback`. */
  predicate Classified(t: Table, x: Test) {
    Classify(t, x.a, x.b, x.overlap).callback.Some?
  }

  /**
    Counterexample: from an empty table, a pair found overlapping and then a pair found
    apart. With only the test corrected to `is not None`, the second pass re-dispatches
    the first pass's enter for a pair that never touched; the corrected sweep, which
    starts each pass with no callback, dispatches the enter alone. As written, nothing
    is dispatched at all.
  */
  lemma StaleCallbackRedispatched(a: Body, b: Body, c: Body)
    requires a.owner != c.owner
    ensures var ts := [Test(a, b, true), Test(b, c, false)];
            var t: Table := map[Key(a, b) := (a, b)];
            && RunCarrying(map[], ts, IsNotNone)
               == Success(Pass([Event(CollisionEnter, a, b), Event(CollisionEnter, b, c)], t, Some(CollisionEnter)))
            && RunCarrying(map[], ts, IsNone) == Success(Pass([], t, Some(CollisionEnter)))
            && Run(map[], ts).events == [Event(CollisionEnter, a, b)]
  {
    var ts := [Test(a, b, true), Test(b, c, false)];
    var t: Table := map[Key(a, b) := (a, b)];
    assert ts[..1] == [Test(a, b, true)];
    assert [Test(a, b, true)][..0] == [];
    assert !Active(t, b, c);
    forall guard: Guard
      ensures RunCarrying(map[], ts, guard)
              == Success(Pass(if guard == IsNotNone then [Event(CollisionEnter, a, b), Event(CollisionEnter, b, c)] else [], t, Some(CollisionEnter)))
    {
      var first := RunCarrying(map[], [Test(a, b, true)], guard);
      var empty: Table := map[];
      assert RunCarrying(map[], [], guard) == Success(Pass([], empty, None));
      assert Classify(empty, a, b, true) == Step(Some(CollisionEnter), t);
      assert first == CarryPass(Success(Pass([], empty, None)), Test(a, b, true), guard);
      var e1: seq<Event> := if guard == IsNotNone then [Event(CollisionEnter, a, b)] else [];
      assert [] + e1 == e1;
      assert first == Success(Pass(e1, t, Some(CollisionEnter)));
      assert Classify(t, b, c, false) == Step(None, t);
      assert RunCarrying(map[], ts, guard) == CarryPass(first, Test(b, c, false), guard);
      var e2: seq<Event> := if guard == IsNotNone then [Event(CollisionEnter, b, c)] else [];
      assert e1 + e2 == if guard == IsNotNone then [Event(CollisionEnter, a, b), Event(CollisionEnter, b, c)] else [];
    }
  }

  /** Counterexample: a sweep whose first pass finds its pair apart and inactive stops with `UnboundLocalError`, whatever follows. */
  lemma UnboundCallbackRaises(t: Table, a: Body, b: Body, rest: seq<Test>, guard: Guard)
    requires !Active(t, a, b)
    ensures RunCarrying(t, [Test(a, b, false)] + rest, guard) == Failure(UnboundCallback)
    ensures Run(t, [Test(a, b, false)]).events == []
  {
    var ts := [Test(a, b, false)] + rest;
    assert ts[0] == Test(a, b, false);
    var r := RunCarrying(t, ts, guard);
    assert r.Failure?;
    match r.error
    case UnboundCallback =>
  }

  /**
    Resetting `callback` at the top of each pass is the missing half of the fix: a
    sweep whose every pass classifies something dispatches, with only the test
    corrected, exactly what the corrected sweep dispatches.
  */
  lemma {:induction false} CarryingAgreesWhenEveryPassClassifies(t: Table, ts: seq<Test>)
    requires forall k :: 0 <= k < |ts| ==> Classified(Run(t, ts[..k]).table, ts[k])
    ensures RunCarrying(t, ts, IsNotNone).Success? || |ts| == 0
    ensures RunCarrying(t, ts, IsNotNone).Success? ==> RunCarrying(t, ts, IsNotNone).value.events == Run(t, ts).events
    decreases |ts|
  {
    if |ts| > 0 {
      var init := ts[..|ts| - 1];
      forall k | 0 <= k < |init|
        ensures Classified(Run(t, init[..k]).table, init[k])
      {
        assert init[..k] == ts[..k] && init[k] == ts[k];
      }
      CarryingAgreesWhenEveryPassClassifies(t, init);
      assert ts[..|ts| - 1] == init;
      assert ts[..0] == [];
    }
  }

  /** Test and classify each index pair of one cell's list in turn, collecting the callbacks. */
  function CheckPairs(t: Table, bodies: seq<Body>, pairs: seq<(int, int)>): (r: Sweep)
    requires InRange(pairs, |bodies|)
    ensures NoMirrored(t) ==> NoMirrored(r.table)
    ensures NoMirrored(t) ==> r.events == Expected(t, Tested(bodies, pairs))
    ensures NoMirrored(t) ==> forall k :: ActiveKey(r.table, k) == InContact(t, Tested(bodies, pairs), k)
    ensures forall k :: LastOverlap(Tested(bodies, pairs), k).None? ==> (k in r.table <==> k in t)
    ensures |r.events| <= |pairs|
    ensures forall e :: e in r.events ==> e.a in bodies && e.b in bodies
  {
    var ts := Tested(bodies, pairs);
    RunMeaningWhen(t, ts);
    UntestedPairsKept(t, ts);
    Run(t, ts)
  }

  lemma UntestedPairsKept(t: Table, ts: seq<Test>)
    ensures forall k :: LastOverlap(ts, k).None? ==> (k in Run(t, ts).table <==> k in t)
  {
    forall k | LastOverlap(ts, k).None?
      ensures k in Run(t, ts).table <==> k in t
    {
      RunLeavesUntestedPairs(t, ts, k);
    }
  }

  /** One cell's list: each collider against the next one. */
  function CheckCell(t: Table, bodies: seq<Body>): (r: Sweep)
    ensures NoMirrored(t) ==> NoMirrored(r.table)
    ensures NoMirrored(t) ==> r.events == Expected(t, PairTests(bodies))
    ensures NoMirrored(t) ==> forall k :: ActiveKey(r.table, k) == InContact(t, PairTests(bodies), k)
    ensures |r.events| < |bodies| || (|bodies| == 0 && r.events == [])
    ensures forall e :: e in r.events ==> e.a in bodies && e.b in bodies
  {
    CheckPairs(t, bodies, NeighbourPairs(|bodies|))
  }

  /** The tests of every cell, cell after cell. */
  function CellTests(cells: seq<seq<Body>>): seq<Test>
    decreases |cells|
  {
    if |cells| == 0 then [] else PairTests(cells[0]) + CellTests(cells[1..])
  }

  /** `check_collision`: every cell's list in turn, threading the table through. */
  function CheckCells(t: Table, cells: seq<seq<Body>>): (r: Sweep)
    ensures r == Run(t, CellTests(cells))
    ensures NoMirrored(t) ==> NoMirrored(r.table)
    ensures NoMirrored(t) ==> r.events == Expected(t, CellTests(cells))
    ensures NoMirrored(t) ==> forall k :: ActiveKey(r.table, k) == InContact(t, CellTests(cells), k)
    ensures forall e :: e in r.events ==> exists cell :: cell in cells && e.a in cell && e.b in cell
    decreases |cells|
  {
    if |cells| == 0 then Sweep([], t)
    else
      var first := CheckCell(t, cells[0]);
      var rest := CheckCells(first.table, cells[1..]);
      RunAppend(t, PairTests(cells[0]), CellTests(cells[1..]));
      RunMeaningWhen(t, CellTests(cells));
      Sweep(first.events + rest.events, rest.table)
  }

  /** The error `update` raises: `frame_count % 0`. */
  datatype Fault = ZeroDivision

  /**
    `Physics.update`: sweep on checked frames; on any other frame nothing happens. The
    configuration accepts any rate, and a zero rate raises on every frame.
  */
  function Update(t: Table, frame: int, rate: int, cells: seq<seq<Body>>): (r: Result<Sweep, Fault>)
    ensures r.Failure? <==> rate == 0
    ensures rate != 0 && !ShouldCheck(frame, rate) ==> r == Success(Sweep([], t))
    ensures rate != 0 && ShouldCheck(frame, rate) ==> r == Success(CheckCells(t, cells))
    ensures r.Success? && NoMirrored(t) ==> NoMirrored(r.value.table)
    ensures r.Success? && NoMirrored(t) ==> r.value.events == if ShouldCheck(frame, rate) then Expected(t, CellTests(cells)) else []
  {
    if rate == 0 then Failure(ZeroDivision)
    else if ShouldCheck(frame, rate) then Success(CheckCells(t, cells))
    else Success(Sweep([], t))
  }
}

=== FILE: registry.dfy ===
/**
  The callback-class registry of `Component` (temdisponivellib/component.py): the
  first construction of each component class validates it and files it under every
  collision callback it defines; `get_class_by_callback` reads the lists back.
*/
module Registry {
  import opened Wrappers
  import opened Seqs

  /** `callback_functions`, in the package's declared order. */
  const CallbackNames: seq<string> := ["collision_enter", "collision_stay", "collision_exit"]

  /**
    A component class: its name, the attribute names `hasattr` finds on its instances,
    and the value its `is_unique` override returns, if it overrides it.
  */
  datatype ComponentClass = ComponentClass(name: string, attributes: set<string>, uniqueOverride: Option<bool>)

  /** `_validated_classes` and `_class_by_callback_function`. */
  datatype Registry = Registry(validated: seq<ComponentClass>, byCallback: map<string, seq<ComponentClass>>)

  /** The registry before any component is constructed. */
  const Empty := Registry([], map[])

  /** The classes of `classes` that define `name`, in their order. */
  function ClassesWith(classes: seq<ComponentClass>, name: string): (r: seq<ComponentClass>)
    ensures forall c :: c in r <==> c in classes && name in c.attributes
    ensures |r| <= |classes|
  {
    if |classes| == 0 then []
    else if name in classes[0].attributes then [classes[0]] + ClassesWith(classes[1..], name)
    else ClassesWith(classes[1..], name)
  }

  /** Filtering a list extended by one class extends the filtered list by that class when it defines the name. */
  lemma {:induction false} ClassesWithAppend(classes: seq<ComponentClass>, c: ComponentClass, name: string)
    ensures ClassesWith(classes + [c], name) == ClassesWith(classes, name) + (if name in c.attributes then [c] else [])
  {
    if |classes| == 0 {
      assert classes + [c] == [c];
    } else {
      assert (classes + [c])[1..] == classes[1..] + [c];
      ClassesWithAppend(classes[1..], c, name);
    }
  }

  /** Filtering a list without duplicates gives a list without duplicates. */
  lemma {:induction false} ClassesWithNoDup(classes: seq<ComponentClass>, name: string)
    requires NoDup(classes)
    ensures NoDup(ClassesWith(classes, name))
  {
    if |classes| > 0 {
      assert NoDup(classes[1..]) by {
        forall i, j | 0 <= i < j < |classes[1..]|
          ensures classes[1..][i] != classes[1..][j]
        {
          assert classes[1..][i] == classes[i + 1] && classes[1..][j] == classes[j + 1];
        }
      }
      ClassesWithNoDup(classes[1..], name);
      assert classes[0] !in classes[1..] by {
        forall k | 0 <= k < |classes[1..]|
          ensures classes[1..][k] != classes[0]
        {
          assert classes[1..][k] == classes[k + 1];
        }
      }
      if name in classes[0].attributes {
        NoDupCons(classes[0], ClassesWith(classes[1..], name));
      }
    }
  }

  /** `get_class_by_callback`: the list filed under the name, or the empty list when none is. */
  function ClassesFor(reg: Registry, name: string): (r: seq<ComponentClass>)
    ensures name !in reg.byCallback ==> r == []
    ensures name in reg.byCallback ==> r == reg.byCallback[name]
  {
    if name !in reg.byCallback then [] else reg.byCallback[name]
  }

  /** The list filed under a name, absent names reading as empty (`setdefault(callback, [])`). */
  function Filed(m: map<string, seq<ComponentClass>>, name: string): seq<ComponentClass> {
    if name in m then m[name] else []
  }

  /** The loop over `names`: file the class under each name it defines, skipping the others. */
  function FileUnder(m: map<string, seq<ComponentClass>>, c: ComponentClass, names: seq<string>): (r: map<string, seq<ComponentClass>>)
    ensures forall n :: n !in names ==> (n in r <==> n in m) && (n in m ==> r[n] == m[n])
    ensures forall n :: n in names ==> (n in r <==> n in m || n in c.attributes)
    ensures NoDup(names) ==> forall n :: n in names ==> Filed(r, n) == Filed(m, n) + (if n in c.attributes then [c] else [])
    decreases |names|
  {
    if |names| == 0 then m
    else
      var n := names[0];
      var m1 := if n in c.attributes then m[n := Filed(m, n) + [c]] else m;
      var r := FileUnder(m1, c, names[1..]);
      FileUnderStep(m, c, names, m1, r);
      r
  }

  lemma FileUnderStep(m: map<string, seq<ComponentClass>>, c: ComponentClass, names: seq<string>,
                      m1: map<string, seq<ComponentClass>>, r: map<string, seq<ComponentClass>>)
    requires |names| > 0
    requires m1 == if names[0] in c.attributes then m[names[0] := Filed(m, names[0]) + [c]] else m
    requires forall n :: n !in names[1..] ==> (n in r <==> n in m1) && (n in m1 ==> r[n] == m1[n])
    requires forall n :: n in names[1..] ==> (n in r <==> n in m1 || n in c.attributes)
    requires NoDup(names[1..]) ==> forall n :: n in names[1..] ==> Filed(r, n) == Filed(m1, n) + (if n in c.attributes then [c] else [])
    ensures NoDup(names) ==> forall n :: n in names ==> Filed(r, n) == Filed(m, n) + (if n in c.attributes then [c] else [])
  {
    if NoDup(names) {
      assert NoDup(names[1..]) by {
        forall i, j | 0 <= i < j < |names[1..]|
          ensures names[1..][i] != names[1..][j]
        {
          assert names[1..][i] == names[i + 1] && names[1..][j] == names[j + 1];
        }
      }
      assert names[0] !in names[1..] by {
        forall k | 0 <= k < |names[1..]|
          ensures names[1..][k] != names[0]
        {
          assert names[1..][k] == names[k + 1];
        }
      }
      forall n | n in names
        ensures Filed(r, n) == Filed(m, n) + (if n in c.attributes then [c] else [])
      {
        if n != names[0] {
          assert n in names[1..] by {
            var k :| 0 <= k < |names| && names[k] == n;
            assert k > 0;
            assert names[1..][k - 1] == n;
          }
        }
      }
    }
  }

  /**
    `Component.__init__`: a class not yet validated is appended to the validated list
    and filed under each callback name it defines; a class seen before changes nothing.
  */
  function Register(reg: Registry, c: ComponentClass): (r: Registry)
    ensures c in reg.validated ==> r == reg
    ensures c !in reg.validated ==> r.validated == reg.validated + [c]
    ensures c !in reg.validated ==>
              forall n :: n in CallbackNames ==> ClassesFor(r, n) == ClassesFor(reg, n) + (if n in c.attributes then [c] else [])
    ensures forall n :: n !in CallbackNames ==> (n in r.byCallback <==> n in reg.byCallback)
  {
    if c in reg.validated then reg
    else
      var m := FileUnder(reg.byCallback, c, CallbackNames);
      assert NoDup(CallbackNames);
      Registry(reg.validated + [c], m)
  }

  /**
    The registry's invariant: validated classes are distinct, every name is a callback
    name, and each callback's list is exactly the validated classes that define it, in
    the order they were first constructed.
  */
  ghost predicate Consistent(reg: Registry) {
    && NoDup(reg.validated)
    && (forall n :: n in reg.byCallback ==> n in CallbackNames)
    && (forall n :: n in CallbackNames ==> ClassesFor(reg, n) == ClassesWith(reg.validated, n))
  }

  lemma EmptyIsConsistent()
    ensures Consistent(Empty)
  {
  }

  /** Every construction keeps the registry consistent. */
  lemma RegisterKeepsConsistent(reg: Registry, c: ComponentClass)
    requires Consistent(reg)
    ensures Consistent(Register(reg, c))
  {
    if c !in reg.validated {
      var r := Register(reg, c);
      assert NoDup(r.validated) by {
        AppendOnceOfAbsent(reg.validated, c);
      }
      forall n | n in CallbackNames
        ensures ClassesFor(r, n) == ClassesWith(r.validated, n)
      {
        ClassesWithAppend(reg.validated, c, n);
      }
      forall n | n in r.byCallback
        ensures n in CallbackNames
      {
      }
    }
  }

  /** Appending an absent element is `AppendOnce`, so distinctness is kept. */
  lemma AppendOnceOfAbsent(s: seq<ComponentClass>, c: ComponentClass)
    requires NoDup(s) && c !in s
    ensures NoDup(s + [c])
  {
    assert AppendOnce(s, c) == s + [c];
  }

  /** A second construction of the same class changes nothing. */
  lemma RegisterIdempotent(reg: Registry, c: ComponentClass)
    ensures Register(Register(reg, c), c) == Register(reg, c)
  {
  }

  /**
    In a consistent registry, a class is listed under a callback name iff it has been
    constructed and defines that name, and no list repeats a class.
  */
  lemma ListedIffDefines(reg: Registry, n: string, c: ComponentClass)
    requires Consistent(reg) && n in CallbackNames
    ensures c in ClassesFor(reg, n) <==> c in reg.validated && n in c.attributes
    ensures NoDup(ClassesFor(reg, n))
  {
    ClassesWithNoDup(reg.validated, n);
  }

  /** Constructing components of the given classes in turn. */
  function RegisterAll(reg: Registry, classes: seq<ComponentClass>): (r: Registry)
    ensures forall c :: c in r.validated <==> c in reg.validated || c in classes
    ensures Consistent(reg) ==> Consistent(r)
    ensures |reg.validated| <= |r.validated|
    ensures r.validated[..|reg.validated|] == reg.validated
    decreases |classes|
  {
    if |classes| == 0 then reg
    else
      var r1 := Register(reg, classes[0]);
      RegisterKeepsConsistentWhen(reg, classes[0]);
      var r := RegisterAll(r1, classes[1..]);
      assert r.validated[..|reg.validated|] == r.validated[..|r1.validated|][..|reg.validated|];
      r
  }

  lemma RegisterKeepsConsistentWhen(reg: Registry, c: ComponentClass)
    ensures Consistent(reg) ==> Consistent(Register(reg, c))
  {
    if Consistent(reg) {
      RegisterKeepsConsistent(reg, c);
    }
  }

  /** `is_unique`: true for every class that does not override it. */
  function IsUnique(c: ComponentClass): (u: bool)
    ensures c.uniqueOverride.None? ==> u
    ensures c.uniqueOverride.Some? ==> u == c.uniqueOverride.value
  {
    match c.uniqueOverride
    case None => true
    case Some(b) => b
  }
}

=== FILE: scenes.dfy ===
/**
  The scene's game-object bookkeeping (temdisponivellib/scene.py): additions and
  removals are queued and applied at `_update_list_game_object`, which keeps the
  objects by id, the drawables by `(layer, order_in_layer, id)` and a list of
  drawers without repeats; persistent objects are carried from one scene to the next.
*/
module Scenes {
  import opened Wrappers
  import opened Seqs
  import GameObjects

  /** A game object's `id`, as the game objects number them. */
  type ObjId = GameObjects.ObjId

  /** `(layer, order_in_layer, id)` */
  type DrawKey = (int, int, ObjId)

  /**
    What the scene reads of a game object: its id, the layer and order of its
    `IDrawable` component if it has one, whether it has an `IDrawer` component, and
    whether it is persistent.
  */
  datatype SceneObject = SceneObject(id: ObjId, drawOrder: Option<(int, int)>, hasDrawer: bool, persistent: bool)

  /** `_game_objects`, `_game_objects_drawable`, `_game_objects_drawer`, `_included`, `_removed`. */
  datatype Scene = Scene(
    objects: map<ObjId, SceneObject>,
    drawables: map<DrawKey, ObjId>,
    drawers: seq<ObjId>,
    included: seq<SceneObject>,
    removed: seq<SceneObject>)

  /** A scene as constructed: everything empty. */
  const NewScene := Scene(map[], map[], [], [], [])

  /** The drawable key of an object with a drawable component. */
  function DrawKeyOf(g: SceneObject): DrawKey
    requires g.drawOrder.Some?
  {
    (g.drawOrder.value.0, g.drawOrder.value.1, g.id)
  }

  /**
    The scene's invariant: each object is stored under its own id, each drawable key
    maps to the id it ends with, and no drawer is listed twice.
  */
  ghost predicate Wf(s: Scene) {
    && (forall id :: id in s.objects ==> s.objects[id].id == id)
    && (forall k :: k in s.drawables ==> s.drawables[k] == k.2)
    && NoDup(s.drawers)
  }

  lemma NewSceneIsWf()
    ensures Wf(NewScene)
  {
  }

  // ---------------------------------------------------------------------------
  // Requests

  /** `add_game_object`: only enqueues. */
  function AddGameObject(s: Scene, g: SceneObject): (r: Scene)
    ensures r.included == s.included + [g]
    ensures r == s.(included := r.included)
  {
    s.(included := s.included + [g])
  }

  /** `remove_game_object`: only enqueues. */
  function RemoveGameObject(s: Scene, g: SceneObject): (r: Scene)
    ensures r.removed == s.removed + [g]
    ensures r == s.(removed := r.removed)
  {
    s.(removed := s.removed + [g])
  }

  // ---------------------------------------------------------------------------
  // Applying one object

  /**
    The inclusion loop body: stored under its id, entered under its drawable key when it
    has a drawable, and appended to the drawers when it has a drawer and is not listed.
  */
  function Include(s: Scene, g: SceneObject): (r: Scene)
    ensures r.objects == s.objects[g.id := g]
    ensures g.drawOrder.Some? ==> r.drawables == s.drawables[DrawKeyOf(g) := g.id]
    ensures g.drawOrder.None? ==> r.drawables == s.drawables
    ensures forall id :: id in r.drawers <==> id in s.drawers || (g.hasDrawer && id == g.id)
    ensures r.included == s.included && r.removed == s.removed
    ensures Wf(s) ==> Wf(r)
  {
    var drawables := if g.drawOrder.Some? then s.drawables[DrawKeyOf(g) := g.id] else s.drawables;
    var drawers := if g.hasDrawer then AppendOnce(s.drawers, g.id) else s.drawers;
    Scene(s.objects[g.id := g], drawables, drawers, s.included, s.removed)
  }

  /**
    The removal loop body: an object whose id is not stored is skipped; otherwise its id
    is deleted, its drawable key deleted if present, and it leaves the drawers.
  */
  function Exclude(s: Scene, g: SceneObject): (r: Scene)
    ensures g.id !in s.objects ==> r == s
    ensures g.id in s.objects ==> r.objects == s.objects - {g.id}
    ensures g.id in s.objects && g.drawOrder.Some? ==> r.drawables == s.drawables - {DrawKeyOf(g)}
    ensures g.id in s.objects && g.hasDrawer ==> multiset(r.drawers) == multiset(s.drawers) - multiset{g.id}
    ensures g.id in s.objects && g.drawOrder.None? ==> r.drawables == s.drawables
    ensures g.id in s.objects && !g.hasDrawer ==> r.drawers == s.drawers
    ensures NoDup(s.drawers) && g.id in s.objects && g.hasDrawer ==> g.id !in r.drawers
    ensures forall x :: x in r.drawers ==> x in s.drawers
    ensures forall x :: x != g.id ==> (x in r.drawers <==> x in s.drawers)
    ensures forall k :: k in r.drawables ==> k in s.drawables
    ensures forall k: DrawKey :: k.2 != g.id ==> (k in r.drawables <==> k in s.drawables)
    ensures r.included == s.included && r.removed == s.removed
    ensures Wf(s) ==> Wf(r)
  {
    if g.id !in s.objects then s
    else
      var drawables := if g.drawOrder.Some? && DrawKeyOf(g) in s.drawables then s.drawables - {DrawKeyOf(g)} else s.drawables;
      var drawers := if g.hasDrawer then RemoveFirst(s.drawers, g.id) else s.drawers;
      ExcludeKeepsDrawersDistinct(s.drawers, g);
      ExcludeKeepsOtherDrawers(s.drawers, g.id);
      Scene(s.objects - {g.id}, drawables, drawers, s.included, s.removed)
  }

  /** Removing an id from the drawers removes nothing else and adds nothing. */
  lemma ExcludeKeepsOtherDrawers(drawers: seq<ObjId>, id: ObjId)
    ensures forall x :: x in RemoveFirst(drawers, id) ==> x in drawers
    ensures forall x :: x != id ==> (x in RemoveFirst(drawers, id) <==> x in drawers)
  {
    forall x
      ensures x in RemoveFirst(drawers, id) ==> x in drawers
      ensures x != id ==> (x in RemoveFirst(drawers, id) <==> x in drawers)
    {
      RemoveFirstShrinks(drawers, id, x);
      if x != id {
        RemoveFirstKeepsOthers(drawers, id, x);
      }
    }
  }

  lemma ExcludeKeepsDrawersDistinct(drawers: seq<ObjId>, g: SceneObject)
    ensures NoDup(drawers) && g.hasDrawer ==> NoDup(RemoveFirst(drawers, g.id)) && g.id !in RemoveFirst(drawers, g.id)
  {
    if NoDup(drawers) && g.hasDrawer {
      RemoveFirstKeepsNoDup(drawers, g.id);
    }
  }

  // ---------------------------------------------------------------------------
  // The flush

  /** The last object in `gs` with the given id, if any. */
  function LastWithId(gs: seq<SceneObject>, id: ObjId): (r: Option<SceneObject>)
    ensures r.None? <==> forall g :: g in gs ==> g.id != id
    ensures r.Some? ==> r.value in gs && r.value.id == id
    decreases |gs|
  {
    if |gs| == 0 then None
    else if gs[|gs| - 1].id == id then Some(gs[|gs| - 1])
    else
      var r := LastWithId(gs[..|gs| - 1], id);
      assert gs == gs[..|gs| - 1] + [gs[|gs| - 1]];
      r
  }

  /** Some object in `gs` has the given id. */
  predicate Mentions(gs: seq<SceneObject>, id: ObjId) {
    exists g :: g in gs && g.id == id
  }

  /** Some object in `gs` with the given id has a drawer. */
  predicate DrawerIn(gs: seq<SceneObject>, id: ObjId) {
    exists g :: g in gs && g.hasDrawer && g.id == id
  }

  /** Some drawable object in `gs` has the given drawable key. */
  predicate Drawn(gs: seq<SceneObject>, k: DrawKey) {
    exists g :: g in gs && g.drawOrder.Some? && DrawKeyOf(g) == k
  }

  /** Every object in `gs` with the given id has a drawer. */
  predicate AllDrawers(gs: seq<SceneObject>, id: ObjId) {
    forall g :: g in gs && g.id == id ==> g.hasDrawer
  }

  /** Every object in `gs` with `g`'s id has `g`'s layer and order. */
  predicate SameDrawOrder(gs: seq<SceneObject>, g: SceneObject) {
    forall h :: h in gs && h.id == g.id ==> h.drawOrder == g.drawOrder
  }

  /** The inclusion loop: each queued object in turn. */
  function IncludeAll(s: Scene, gs: seq<SceneObject>): (r: Scene)
    ensures forall id :: LastWithId(gs, id).Some? ==> id in r.objects && r.objects[id] == LastWithId(gs, id).value
    ensures forall id :: LastWithId(gs, id).None? ==>
              (id in r.objects <==> id in s.objects) && (id in s.objects ==> r.objects[id] == s.objects[id])
    ensures forall id :: id in r.drawers <==> id in s.drawers || DrawerIn(gs, id)
    ensures forall k :: k in r.drawables <==> k in s.drawables || Drawn(gs, k)
    ensures r.included == s.included && r.removed == s.removed
    ensures Wf(s) ==> Wf(r)
    decreases |gs|
  {
    if |gs| == 0 then s
    else
      var front := gs[..|gs| - 1];
      var last := gs[|gs| - 1];
      assert gs == front + [last];
      assert forall id :: DrawerIn(gs, id) <==> DrawerIn(front, id) || (last.hasDrawer && last.id == id);
      assert forall k :: Drawn(gs, k) <==> Drawn(front, k) || (last.drawOrder.Some? && DrawKeyOf(last) == k);
      Include(IncludeAll(s, front), last)
  }

  /** The removal loop: each queued object in turn. */
  function ExcludeAll(s: Scene, gs: seq<SceneObject>): (r: Scene)
    ensures forall id :: id in r.objects <==> id in s.objects && !Mentions(gs, id)
    ensures forall id :: id in r.objects ==> r.objects[id] == s.objects[id]
    ensures forall id :: id in r.drawers ==> id in s.drawers
    ensures forall id :: !Mentions(gs, id) ==> (id in r.drawers <==> id in s.drawers)
    ensures forall k :: k in r.drawables ==> k in s.drawables
    ensures forall k: DrawKey :: !Mentions(gs, k.2) ==> (k in r.drawables <==> k in s.drawables)
    ensures Wf(s) ==> forall id :: id in s.objects && Mentions(gs, id) && AllDrawers(gs, id) ==> id !in r.drawers
    ensures forall g :: g in gs && g.id in s.objects && g.drawOrder.Some? && SameDrawOrder(gs, g) ==> DrawKeyOf(g) !in r.drawables
    ensures r.included == s.included && r.removed == s.removed
    ensures Wf(s) ==> Wf(r)
    decreases |gs|
  {
    if |gs| == 0 then s
    else
      var front := gs[..|gs| - 1];
      var last := gs[|gs| - 1];
      var t := ExcludeAll(s, front);
      var r := Exclude(t, last);
      assert gs == front + [last];
      assert forall id :: Mentions(gs, id) <==> Mentions(front, id) || last.id == id;
      ExcludeAllRemovesStep(s, front, last, t, r);
      r
  }

  /** One step of `ExcludeAll`: a removal makes the drawer and drawable entries of the removed objects go. */
  lemma ExcludeAllRemovesStep(s: Scene, front: seq<SceneObject>, last: SceneObject, t: Scene, r: Scene)
    requires forall id :: id in t.objects <==> id in s.objects && !Mentions(front, id)
    requires Wf(s) ==> Wf(t)
    requires Wf(s) ==> forall id :: id in s.objects && Mentions(front, id) && AllDrawers(front, id) ==> id !in t.drawers
    requires forall g :: g in front && g.id in s.objects && g.drawOrder.Some? && SameDrawOrder(front, g) ==> DrawKeyOf(g) !in t.drawables
    requires r == Exclude(t, last)
    ensures Wf(s) ==> forall id :: id in s.objects && Mentions(front + [last], id) && AllDrawers(front + [last], id) ==> id !in r.drawers
    ensures forall g :: g in front + [last] && g.id in s.objects && g.drawOrder.Some? && SameDrawOrder(front + [last], g) ==>
              DrawKeyOf(g) !in r.drawables
  {
    var gs := front + [last];
    if Wf(s) {
      forall id | id in s.objects && Mentions(gs, id) && AllDrawers(gs, id)
        ensures id !in r.drawers
      {
        if Mentions(front, id) {
          assert AllDrawers(front, id);
        } else {
          assert last.id == id && last.hasDrawer;
          assert id in t.objects;
        }
      }
    }
    forall g | g in gs && g.id in s.objects && g.drawOrder.Some? && SameDrawOrder(gs, g)
      ensures DrawKeyOf(g) !in r.drawables
    {
      if Mentions(front, g.id) {
        var h :| h in front && h.id == g.id;
        assert h.drawOrder == g.drawOrder && SameDrawOrder(front, h);
        assert DrawKeyOf(h) == DrawKeyOf(g);
      } else {
        assert g !in front;
        assert g == last;
        assert g.id in t.objects;
      }
    }
  }

  /**
    `_update_list_game_object`: every queued inclusion, then every queued removal, then
    both queues emptied. An object is stored afterwards iff it was stored or included
    and no removed object has its id; the last inclusion of an id wins.
  */
  function Flush(s: Scene): (r: Scene)
    ensures r.included == [] && r.removed == []
    ensures forall id :: id in r.objects <==> (id in s.objects || Mentions(s.included, id)) && !Mentions(s.removed, id)
    ensures forall id :: id in r.objects && Mentions(s.included, id) ==> r.objects[id] == LastWithId(s.included, id).value
    ensures forall id :: id in r.objects && !Mentions(s.included, id) ==> r.objects[id] == s.objects[id]
    ensures forall id :: id in r.drawers ==> id in s.drawers || DrawerIn(s.included, id)
    ensures forall id :: !Mentions(s.removed, id) ==> (id in r.drawers <==> id in s.drawers || DrawerIn(s.included, id))
    ensures forall g :: g in s.included && g.hasDrawer && !Mentions(s.removed, g.id) ==> g.id in r.drawers
    ensures forall k :: k in r.drawables ==> k in s.drawables || Drawn(s.included, k)
    ensures forall k: DrawKey :: !Mentions(s.removed, k.2) ==> (k in r.drawables <==> k in s.drawables || Drawn(s.included, k))
    ensures forall g :: g in s.included && g.drawOrder.Some? && !Mentions(s.removed, g.id) ==> DrawKeyOf(g) in r.drawables
    ensures Wf(s) ==> forall id :: (id in s.objects || Mentions(s.included, id)) && Mentions(s.removed, id) && AllDrawers(s.removed, id) ==>
              id !in r.drawers
    ensures forall g :: g in s.removed && (g.id in s.objects || Mentions(s.included, g.id)) && g.drawOrder.Some? && SameDrawOrder(s.removed, g) ==>
              DrawKeyOf(g) !in r.drawables
    ensures Wf(s) ==> Wf(r)
  {
    var t := IncludeAll(s, s.included);
    assert forall g :: g in s.included && g.hasDrawer ==> DrawerIn(s.included, g.id);
    assert forall g :: g in s.included && g.drawOrder.Some? ==> Drawn(s.included, DrawKeyOf(g));
    assert forall id :: Mentions(s.included, id) ==> LastWithId(s.included, id).Some?;
    var r := ExcludeAll(t, s.removed);
    r.(included := [], removed := [])
  }

  /** Every included object not also queued for removal is stored under its id after the flush. */
  lemma IncludedArePresent(s: Scene, g: SceneObject)
    requires g in s.included && !Mentions(s.removed, g.id)
    ensures g.id in Flush(s).objects
  {
  }

  /** Every removed object is absent after the flush, whether its id was stored or not. */
  lemma RemovedAreAbsent(s: Scene, g: SceneObject)
    requires g in s.removed
    ensures g.id !in Flush(s).objects
  {
  }

  /** Removing an object whose id is not stored changes nothing. */
  lemma UnknownRemovalSkipped(s: Scene, g: SceneObject)
    requires g.id !in s.objects
    ensures Exclude(s, g) == s
  {
  }

  /** A second flush with nothing queued changes nothing. */
  lemma FlushIdempotent(s: Scene)
    ensures Flush(Flush(s)) == Flush(s)
  {
  }

  // ---------------------------------------------------------------------------
  // Scene changes

  /** The objects stored under the ids of `order`, in that order. */
  function ObjectsIn(objects: map<ObjId, SceneObject>, order: seq<ObjId>): (gs: seq<SceneObject>)
    requires forall i :: 0 <= i < |order| ==> order[i] in objects
    ensures |gs| == |order|
    ensures forall i :: 0 <= i < |order| ==> gs[i] == objects[order[i]]
  {
    seq(|order|, i requires 0 <= i < |order| => objects[order[i]])
  }

  /** The persistent objects of `gs`, in order. */
  function PersistentOf(gs: seq<SceneObject>): (ps: seq<SceneObject>)
    ensures forall g :: g in ps <==> g in gs && g.persistent
    decreases |gs|
  {
    if |gs| == 0 then []
    else (if gs[0].persistent then [gs[0]] else []) + PersistentOf(gs[1..])
  }

  /** The scene and `_persistent_game_objects` after a scene operation. */
  datatype Changed = Changed(scene: Scene, carry: seq<SceneObject>)

  /**
    `finish`: every stored object, visited in the dictionary's order `order`, is queued
    for removal and, if persistent, appended to the carry-over list; then the flush.
  */
  function Finish(s: Scene, carry: seq<SceneObject>, order: seq<ObjId>): (r: Changed)
    requires forall i :: 0 <= i < |order| ==> order[i] in s.objects
    requires forall id :: id in s.objects ==> id in order
    ensures |carry| <= |r.carry| && r.carry[..|carry|] == carry
    ensures forall g :: g in r.carry[|carry|..] ==> g.persistent && g in s.objects.Values
    ensures forall id :: id in s.objects && s.objects[id].persistent ==> s.objects[id] in r.carry[|carry|..]
    ensures Wf(s) ==> forall id :: id in s.objects ==> id !in r.scene.objects
    ensures Wf(s) ==> forall id :: id in r.scene.objects <==> id !in s.objects && Mentions(s.included, id) && !Mentions(s.removed, id)
    ensures Wf(s) ==> forall id :: id in s.objects && s.objects[id].hasDrawer && !Mentions(s.removed, id) ==> id !in r.scene.drawers
    ensures Wf(s) ==> forall id :: id in s.objects && s.objects[id].drawOrder.Some? && !Mentions(s.removed, id) ==>
              DrawKeyOf(s.objects[id]) !in r.scene.drawables
    ensures r.scene.included == [] && r.scene.removed == []
    ensures Wf(s) ==> Wf(r.scene)
  {
    var gs := ObjectsIn(s.objects, order);
    var r := Changed(Flush(s.(removed := s.removed + gs)), carry + PersistentOf(gs));
    FinishOutcome(s, carry, order, gs, r);
    r
  }

  /** What `finish` leaves: the carry-over it extends and the scene its flush produces. */
  lemma FinishOutcome(s: Scene, carry: seq<SceneObject>, order: seq<ObjId>, gs: seq<SceneObject>, r: Changed)
    requires forall i :: 0 <= i < |order| ==> order[i] in s.objects
    requires forall id :: id in s.objects ==> id in order
    requires gs == ObjectsIn(s.objects, order)
    requires r == Changed(Flush(s.(removed := s.removed + gs)), carry + PersistentOf(gs))
    ensures |carry| <= |r.carry| && r.carry[..|carry|] == carry
    ensures forall g :: g in r.carry[|carry|..] ==> g.persistent && g in s.objects.Values
    ensures forall id :: id in s.objects && s.objects[id].persistent ==> s.objects[id] in r.carry[|carry|..]
    ensures Wf(s) ==> forall id :: id in s.objects ==> id !in r.scene.objects
    ensures Wf(s) ==> forall id :: id in r.scene.objects <==> id !in s.objects && Mentions(s.included, id) && !Mentions(s.removed, id)
    ensures Wf(s) ==> forall id :: id in s.objects && s.objects[id].hasDrawer && !Mentions(s.removed, id) ==> id !in r.scene.drawers
    ensures Wf(s) ==> forall id :: id in s.objects && s.objects[id].drawOrder.Some? && !Mentions(s.removed, id) ==>
              DrawKeyOf(s.objects[id]) !in r.scene.drawables
    ensures r.scene.included == [] && r.scene.removed == []
    ensures Wf(s) ==> Wf(r.scene)
  {
    FinishCarries(s, carry, order, gs, PersistentOf(gs));
    FinishRemovesAll(s, order, gs);
    FinishFlushes(s, gs);
  }

  /** The carry-over of `finish`: the old list, then exactly the persistent stored objects. */
  lemma FinishCarries(s: Scene, carry: seq<SceneObject>, order: seq<ObjId>, gs: seq<SceneObject>, ps: seq<SceneObject>)
    requires forall i :: 0 <= i < |order| ==> order[i] in s.objects
    requires forall id :: id in s.objects ==> id in order
    requires gs == ObjectsIn(s.objects, order) && ps == PersistentOf(gs)
    ensures |carry| <= |carry + ps| && (carry + ps)[..|carry|] == carry
    ensures forall g :: g in (carry + ps)[|carry|..] ==> g.persistent && g in s.objects.Values
    ensures forall id :: id in s.objects && s.objects[id].persistent ==> s.objects[id] in (carry + ps)[|carry|..]
  {
    FinishRemovesAll(s, order, gs);
    assert (carry + ps)[|carry|..] == ps;
  }

  lemma FinishRemovesAll(s: Scene, order: seq<ObjId>, gs: seq<SceneObject>)
    requires forall i :: 0 <= i < |order| ==> order[i] in s.objects
    requires forall id :: id in s.objects ==> id in order
    requires gs == ObjectsIn(s.objects, order)
    ensures Wf(s) ==> forall id :: id in s.objects ==> Mentions(s.removed + gs, id)
    ensures forall g :: g in gs ==> g in s.objects.Values
    ensures forall id :: id in s.objects ==> s.objects[id] in gs
    ensures Wf(s) ==> forall g :: g in gs ==> g.id in s.objects && s.objects[g.id] == g
  {
    if Wf(s) {
      forall id | id in s.objects
        ensures Mentions(s.removed + gs, id)
      {
        var i :| 0 <= i < |order| && order[i] == id;
        assert gs[i] in s.removed + gs && gs[i].id == id;
      }
      forall g | g in gs
        ensures g.id in s.objects && s.objects[g.id] == g
      {
        var i :| 0 <= i < |gs| && gs[i] == g;
        assert order[i] in s.objects && s.objects[order[i]] == g;
        assert s.objects[order[i]].id == order[i];
      }
    }
    forall g | g in gs
      ensures g in s.objects.Values
    {
      var i :| 0 <= i < |gs| && gs[i] == g;
      assert s.objects[order[i]] == g;
    }
    forall id | id in s.objects
      ensures s.objects[id] in gs
    {
      var i :| 0 <= i < |order| && order[i] == id;
      assert gs[i] == s.objects[id];
    }
  }

  /**
    Under the invariant, the removal queue of `finish` names exactly the stored ids
    besides the queued removals, and each stored object is the only removal of its id
    unless a queued removal shares it.
  */
  lemma FinishRemovesStored(s: Scene, gs: seq<SceneObject>)
    requires Wf(s) ==> forall g :: g in gs ==> g.id in s.objects && s.objects[g.id] == g
    requires forall id :: id in s.objects ==> s.objects[id] in gs
    ensures Wf(s) ==> forall id :: Mentions(s.removed + gs, id) <==> Mentions(s.removed, id) || id in s.objects
    ensures Wf(s) ==> forall id :: id in s.objects && !Mentions(s.removed, id) ==>
              Mentions(s.removed + gs, id) && forall g :: g in s.removed + gs && g.id == id ==> g == s.objects[id]
  {
    if Wf(s) {
      forall id
        ensures Mentions(s.removed + gs, id) <==> Mentions(s.removed, id) || id in s.objects
      {
        if id in s.objects {
          assert s.objects[id] in s.removed + gs;
        }
        if Mentions(s.removed + gs, id) && !Mentions(s.removed, id) {
          var g :| g in s.removed + gs && g.id == id;
          assert g in gs;
        }
      }
      forall id, g | id in s.objects && !Mentions(s.removed, id) && g in s.removed + gs && g.id == id
        ensures g == s.objects[id]
      {
        assert g !in s.removed;
        assert g in gs;
      }
    }
  }

  /** The flush that ends `finish`: what stays stored, and which drawer and drawable entries go. */
  lemma FinishFlushes(s: Scene, gs: seq<SceneObject>)
    requires Wf(s) ==> forall g :: g in gs ==> g.id in s.objects && s.objects[g.id] == g
    requires forall id :: id in s.objects ==> s.objects[id] in gs
    ensures var r := Flush(s.(removed := s.removed + gs));
            Wf(s) ==> forall id :: id in r.objects <==> id !in s.objects && Mentions(s.included, id) && !Mentions(s.removed, id)
    ensures var r := Flush(s.(removed := s.removed + gs));
            Wf(s) ==> forall id :: id in s.objects && s.objects[id].hasDrawer && !Mentions(s.removed, id) ==> id !in r.drawers
    ensures var r := Flush(s.(removed := s.removed + gs));
            Wf(s) ==> forall id :: id in s.objects && s.objects[id].drawOrder.Some? && !Mentions(s.removed, id) ==>
              DrawKeyOf(s.objects[id]) !in r.drawables
  {
    var q := s.(removed := s.removed + gs);
    var r := Flush(q);
    FinishRemovesStored(s, gs);
    if Wf(s) {
      assert Wf(q);
      forall id | id in s.objects && s.objects[id].hasDrawer && !Mentions(s.removed, id)
        ensures id !in r.drawers
      {
        assert AllDrawers(q.removed, id);
      }
      forall id | id in s.objects && s.objects[id].drawOrder.Some? && !Mentions(s.removed, id)
        ensures DrawKeyOf(s.objects[id]) !in r.drawables
      {
        var g := s.objects[id];
        assert g in q.removed;
        assert SameDrawOrder(q.removed, g);
      }
    }
  }

  /** `start`: the carried objects are queued for inclusion, the carry-over list is emptied, and the flush runs. */
  function Start(s: Scene, carry: seq<SceneObject>): (r: Changed)
    ensures r.carry == []
    ensures forall g :: g in carry && !Mentions(s.removed, g.id) ==> g.id in r.scene.objects
    ensures forall id :: id in r.scene.objects <==> (id in s.objects || Mentions(s.included + carry, id)) && !Mentions(s.removed, id)
    ensures forall g :: g in carry && g.hasDrawer && !Mentions(s.removed, g.id) ==> g.id in r.scene.drawers
    ensures forall g :: g in carry && g.drawOrder.Some? && !Mentions(s.removed, g.id) ==> DrawKeyOf(g) in r.scene.drawables
    ensures r.scene.included == [] && r.scene.removed == []
    ensures Wf(s) ==> Wf(r.scene)
  {
    Changed(Flush(s.(included := s.included + carry)), [])
  }

  /**
    A persistent object survives a change of scene: after the previous scene finishes and a
    new scene starts with the carry-over, it is stored in the new scene under its id.
  */
  lemma PersistentSurvivesSceneChange(prev: Scene, carry: seq<SceneObject>, order: seq<ObjId>, next: Scene, id: ObjId)
    requires forall i :: 0 <= i < |order| ==> order[i] in prev.objects
    requires forall i :: i in prev.objects ==> i in order
    requires Wf(prev) && id in prev.objects && prev.objects[id].persistent
    requires !Mentions(next.removed, id)
    ensures id in Start(next, Finish(prev, carry, order).carry).scene.objects
  {
    var g := prev.objects[id];
    var f := Finish(prev, carry, order);
    assert g in f.carry[|carry|..];
    assert g in f.carry;
  }

  // ---------------------------------------------------------------------------
  // Component hooks

  /** What the scene reads of a component: its drawable layer and order, and whether it is a drawer. */
  datatype ComponentView = ComponentView(drawOrder: Option<(int, int)>, isDrawer: bool)

  /** `game_object_add_component`: a drawable is entered under its key; a drawer is listed once. */
  function GameObjectAddComponent(s: Scene, id: ObjId, c: ComponentView): (r: Scene)
    ensures c.drawOrder.Some? ==> r.drawables == s.drawables[(c.drawOrder.value.0, c.drawOrder.value.1, id) := id]
    ensures c.drawOrder.None? ==> r.drawables == s.drawables
    ensures c.isDrawer ==> id in r.drawers
    ensures forall x :: x in r.drawers <==> x in s.drawers || (c.isDrawer && x == id)
    ensures r.objects == s.objects && r.included == s.included && r.removed == s.removed
    ensures Wf(s) ==> Wf(r)
  {
    var drawables := if c.drawOrder.Some? then s.drawables[(c.drawOrder.value.0, c.drawOrder.value.1, id) := id] else s.drawables;
    var drawers := if c.isDrawer then AppendOnce(s.drawers, id) else s.drawers;
    s.(drawables := drawables, drawers := drawers)
  }

  /** `game_object_remove_component`: the drawable key is deleted if present; the drawer leaves the list. */
  function GameObjectRemoveComponent(s: Scene, id: ObjId, c: ComponentView): (r: Scene)
    ensures c.drawOrder.Some? ==> r.drawables == s.drawables - {(c.drawOrder.value.0, c.drawOrder.value.1, id)}
    ensures c.drawOrder.None? ==> r.drawables == s.drawables
    ensures c.isDrawer ==> multiset(r.drawers) == multiset(s.drawers) - multiset{id}
    ensures !c.isDrawer ==> r.drawers == s.drawers
    ensures r.objects == s.objects && r.included == s.included && r.removed == s.removed
    ensures Wf(s) ==> Wf(r)
  {
    var key := if c.drawOrder.Some? then (c.drawOrder.value.0, c.drawOrder.value.1, id) else (0, 0, id);
    var drawables := if c.drawOrder.Some? && key in s.drawables then s.drawables - {key} else s.drawables;
    var drawers := if c.isDrawer then RemoveFirst(s.drawers, id) else s.drawers;
    ExcludeKeepsDrawersDistinct(s.drawers, SceneObject(id, None, c.isDrawer, false));
    s.(drawables := drawables, drawers := drawers)
  }

  /** Adding a component and removing it again restores the drawables and the drawers, when neither held it before. */
  lemma AddThenRemoveComponent(s: Scene, id: ObjId, c: ComponentView)
    requires c.drawOrder.Some? ==> (c.drawOrder.value.0, c.drawOrder.value.1, id) !in s.drawables
    requires id !in s.drawers
    ensures GameObjectRemoveComponent(GameObjectAddComponent(s, id, c), id, c) == s
  {
    if c.isDrawer {
      assert AppendOnce(s.drawers, id) == s.drawers + [id];
      RemoveFirstOfAppended(s.drawers, id);
    }
    if c.drawOrder.Some? {
      var key := (c.drawOrder.value.0, c.drawOrder.value.1, id);
      assert s.drawables[key := id] - {key} == s.drawables;
    }
  }
}

=== FILE: seqs.dfy ===
/** List operations the engine performs on its Python lists, with their properties. */
module Seqs {

  /** No element occurs twice: the "no duplicates" invariant of the engine's lists. */
  predicate NoDup<T(==)>(s: seq<T>) {
    forall i, j :: 0 <= i < j < |s| ==> s[i] != s[j]
  }

  /** `if x not in xs: xs.append(x)` */
  function AppendOnce<T(==,!new)>(s: seq<T>, x: T): (r: seq<T>)
    ensures x in r
    ensures forall y :: y in r <==> y in s || y == x
    ensures |r| >= |s| && r[..|s|] == s
    ensures NoDup(s) ==> NoDup(r)
  {
    if x in s then s else s + [x]
  }

  /** `if x in xs: xs.remove(x)`: the first occurrence goes, the rest keep their order. */
  function RemoveFirst<T(==)>(s: seq<T>, x: T): (r: seq<T>)
    ensures multiset(r) == multiset(s) - multiset{x}
    ensures x !in s ==> r == s
  {
    if |s| == 0 then s
    else
      assert s == [s[0]] + s[1..];
      if s[0] == x then s[1..]
      else [s[0]] + RemoveFirst(s[1..], x)
  }

  /** Removing only removes: whatever is left was there before. */
  lemma RemoveFirstShrinks<T>(s: seq<T>, x: T, y: T)
    ensures y in RemoveFirst(s, x) ==> y in s
  {
    if y in RemoveFirst(s, x) {
      assert y in multiset(RemoveFirst(s, x));
    }
  }

  /** Removing one element leaves every other element where membership is concerned. */
  lemma RemoveFirstKeepsOthers<T>(s: seq<T>, x: T, y: T)
    requires y != x
    ensures y in RemoveFirst(s, x) <==> y in s
  {
    assert y in multiset(RemoveFirst(s, x)) <==> y in multiset(s);
  }

  /** Removing from a list without duplicates keeps it so, and removes the element entirely. */
  lemma {:induction false} RemoveFirstKeepsNoDup<T>(s: seq<T>, x: T)
    requires NoDup(s)
    ensures NoDup(RemoveFirst(s, x)) && x !in RemoveFirst(s, x)
  {
    if |s| == 0 {
    } else if s[0] == x {
      assert RemoveFirst(s, x) == s[1..];
      assert s[0] !in s[1..] by {
        forall k | 0 <= k < |s[1..]| ensures s[1..][k] != s[0] {
          assert s[1..][k] == s[k + 1];
        }
      }
    } else {
      var tail := s[1..];
      assert NoDup(tail) by {
        forall i, j | 0 <= i < j < |tail| ensures tail[i] != tail[j] {
          assert tail[i] == s[i + 1] && tail[j] == s[j + 1];
        }
      }
      RemoveFirstKeepsNoDup(tail, x);
      var t := RemoveFirst(tail, x);
      assert s[0] !in tail by {
        forall k | 0 <= k < |tail| ensures tail[k] != s[0] {
          assert tail[k] == s[k + 1];
        }
      }
      assert s[0] !in t by {
        assert multiset(tail)[s[0]] == 0;
        assert multiset(t)[s[0]] == 0;
      }
      NoDupCons(s[0], t);
    }
  }

  lemma NoDupCons<T>(a: T, t: seq<T>)
    requires a !in t && NoDup(t)
    ensures NoDup([a] + t)
  {
    var u := [a] + t;
    forall i, j | 0 <= i < j < |u| ensures u[i] != u[j] {
      assert u[j] == t[j - 1];
      if i > 0 {
        assert u[i] == t[i - 1];
      }
    }
  }

  /** Removing an element just appended to a list that lacked it gives the list back. */
  lemma {:induction false} RemoveFirstOfAppended<T>(s: seq<T>, x: T)
    requires x !in s
    ensures RemoveFirst(s + [x], x) == s
  {
    if |s| > 0 {
      assert (s + [x])[1..] == s[1..] + [x];
      RemoveFirstOfAppended(s[1..], x);
    }
  }

  /** The elements of `xs` that are not in `ys`, in order (`set(xs) - set(ys)` as a list). */
  function Minus<T(==,!new)>(xs: seq<T>, ys: seq<T>): (r: seq<T>)
    ensures forall z :: z in r <==> z in xs && z !in ys
  {
    if |xs| == 0 then []
    else (if xs[0] in ys then [] else [xs[0]]) + Minus(xs[1..], ys)
  }
}

=== FILE: shapes.dfy ===
/**
  The overlap predicates of the current collider revision
  (temdisponivellib/builtin_components/collider.py). Coordinates are pixels;
  `width / 2` is integer division rounding down, as Python 2 does on ints.
*/
module Shapes {
  import opened Wrappers

  /** A pixel rectangle whose `x, y` is the top-left corner: pygame's `Rect`. */
  datatype Rect = Rect(x: int, y: int, width: int, height: int) {
    function Left(): int { x }
    function Top(): int { y }
    function Right(): int { x + width }
    function Bottom(): int { y + height }
    /**
      The centre, rounded down. The circle–box test reads `centerx` and `centery`
      from the box collider, which defines neither (see `CheckCollisionAsWritten`);
      this is the centre that test evidently means.
    */
    function CenterX(): int { x + width / 2 }
    function CenterY(): int { y + height / 2 }
    /** The pixels a rectangle covers: `[x, x + width) × [y, y + height)`. */
    predicate Contains(px: int, py: int) {
      x <= px < x + width && y <= py < y + height
    }
  }

  /** A circle given by its centre and radius. */
  datatype Circle = Circle(x: int, y: int, radius: int)

  /** The collider type tags `Collider.BOX` and `Collider.CIRCLE`. */
  datatype Kind = BoxKind | CircleKind

  /** The numeric value of each tag. */
  function KindCode(k: Kind): int {
    match k
    case BoxKind => 1
    case CircleKind => 2
  }

  /**
    A collider: the bare base class, a box, or a circle. A circle records whether
    its constructor set its type tag.
  */
  datatype Collider =
    | BaseCollider(bounds: Rect)
    | BoxCollider(rect: Rect)
    | CircleCollider(circle: Circle, tagged: bool)

  /** The `collider_type` a collider reports. */
  function Tag(c: Collider): Option<Kind> {
    match c
    case BaseCollider(_) => None
    case BoxCollider(_) => Some(BoxKind)
    case CircleCollider(_, tagged) => if tagged then Some(CircleKind) else None
  }

  /**
    `BoxCollider(position, size)`: the box once `Collider.__init__` has run. As written
    the constructor skips that initialiser and raises on its first setter
    (`Partition.NewBoxAttributesAsWritten`); this is the box it evidently builds.
  */
  function NewBoxCollider(x: int, y: int, width: int, height: int): (c: Collider)
    ensures Tag(c) == Some(BoxKind) && c.rect == Rect(x, y, width, height)
  {
    BoxCollider(Rect(x, y, width, height))
  }

  /** `CircleCollider(radius, center)` as written: the constructor never sets the tag. */
  function NewCircleColliderAsWritten(radius: int, x: int, y: int): (c: Collider)
    ensures c.CircleCollider? && Tag(c) == None && c.circle == Circle(x, y, radius)
  {
    CircleCollider(Circle(x, y, radius), false)
  }

  /** `CircleCollider(radius, center)` tagged `CIRCLE`, as the dispatch expects. */
  function NewCircleCollider(radius: int, x: int, y: int): (c: Collider)
    ensures Tag(c) == Some(CircleKind) && c.circle == Circle(x, y, radius)
  {
    CircleCollider(Circle(x, y, radius), true)
  }

  /** Every circle carries its tag. */
  predicate Tagged(c: Collider) {
    c.CircleCollider? ==> c.tagged
  }

  function Abs(n: int): int {
    if n < 0 then -n else n
  }

  function Max(a: int, b: int): int {
    if a < b then b else a
  }

  /** The box–box test as the source writes it: doubled corner distance against summed sizes. */
  predicate BoxOverlapAsWritten(a: Rect, b: Rect) {
    && Abs(a.x - b.x) * 2 < a.width + b.width
    && Abs(a.y - b.y) * 2 < a.height + b.height
  }

  /** The box–box test the source evidently intends: the two rectangles' spans cross on both axes. */
  predicate BoxOverlap(a: Rect, b: Rect) {
    && a.Left() < b.Right() && b.Left() < a.Right()
    && a.Top() < b.Bottom() && b.Top() < a.Bottom()
  }

  /** `CircleCollider._collide_with_circle`. */
  predicate CircleOverlap(a: Circle, b: Circle) {
    var dx := Abs(a.x - b.x);
    var dy := Abs(a.y - b.y);
    dx * dx + dy * dy <= (a.radius + b.radius) * (a.radius + b.radius)
  }

  /** `CircleCollider._collide_with_box`: two early rejects, two early accepts, then the corner. */
  predicate CircleBoxOverlap(c: Circle, b: Rect) {
    var dx := Abs(c.x - b.CenterX());
    var dy := Abs(c.y - b.CenterY());
    var hw := b.width / 2;
    var hh := b.height / 2;
    if dx > hw + c.radius then false
    else if dy > hh + c.radius then false
    else if dx <= hw then true
    else if dy <= hh then true
    else (dx - hw) * (dx - hw) + (dy - hh) * (dy - hh) <= c.radius * c.radius
  }

  /**
    `check_collision(self, other)`: the receiver's class chooses the method and the
    other collider's tag chooses the branch; a tag no branch names yields false.
    A box facing a circle asks the circle.
  */
  function CheckCollision(a: Collider, b: Collider): (r: bool)
    ensures a.BaseCollider? ==> !r
    ensures Tag(b) == None ==> !r
    ensures a.BoxCollider? && b.BoxCollider? ==> r == BoxOverlap(a.rect, b.rect)
    ensures a.BoxCollider? && Tag(b) == Some(CircleKind) ==> r == CircleBoxOverlap(b.circle, a.rect)
    ensures a.CircleCollider? && b.BoxCollider? ==> r == CircleBoxOverlap(a.circle, b.rect)
    ensures a.CircleCollider? && Tag(b) == Some(CircleKind) ==> r == CircleOverlap(a.circle, b.circle)
    decreases if a.BoxCollider? then 1 else 0
  {
    match a
    case BaseCollider(_) => false
    case BoxCollider(ra) =>
      if Tag(b) == Some(BoxKind) then BoxOverlap(ra, b.rect)
      else if Tag(b) == Some(CircleKind) then CheckCollision(b, a)
      else false
    case CircleCollider(ca, _) =>
      if Tag(b) == Some(CircleKind) then CircleOverlap(ca, b.circle)
      else if Tag(b) == Some(BoxKind) then CircleBoxOverlap(ca, b.rect)
      else false
  }

  // ---------------------------------------------------------------------------
  // Box–box

  /** The test as written holds iff the doubled distance is strictly below the summed size on both axes. */
  lemma BoxOverlapAsWrittenMeaning(a: Rect, b: Rect)
    ensures BoxOverlapAsWritten(a, b) <==>
              (a.x - b.x) * 2 < a.width + b.width && (b.x - a.x) * 2 < a.width + b.width &&
              (a.y - b.y) * 2 < a.height + b.height && (b.y - a.y) * 2 < a.height + b.height
  {
  }

  /** The test as written is symmetric. */
  lemma BoxOverlapAsWrittenSymmetric(a: Rect, b: Rect)
    ensures BoxOverlapAsWritten(a, b) == BoxOverlapAsWritten(b, a)
  {
  }

  /** On boxes of equal size, the test as written is the intended one. */
  lemma BoxOverlapAsWrittenAgreesOnEqualSizes(a: Rect, b: Rect)
    requires a.width == b.width && a.height == b.height
    ensures BoxOverlapAsWritten(a, b) == BoxOverlap(a, b)
  {
  }

  /** Counterexample: the test as written reports disjoint boxes of unequal width as colliding. */
  lemma BoxOverlapAsWrittenAcceptsDisjointBoxes()
    ensures var a := Rect(0, 0, 10, 10);
            var b := Rect(14, 0, 30, 10);
            && BoxOverlapAsWritten(a, b)
            && !BoxOverlap(a, b)
            && forall px, py :: !(a.Contains(px, py) && b.Contains(px, py))
  {
  }

  /** Two non-empty boxes overlap iff some pixel lies in both. */
  lemma BoxOverlapIffSharedPixel(a: Rect, b: Rect)
    requires a.width > 0 && a.height > 0 && b.width > 0 && b.height > 0
    ensures BoxOverlap(a, b) <==> exists px, py :: a.Contains(px, py) && b.Contains(px, py)
  {
    if BoxOverlap(a, b) {
      var px := Max(a.x, b.x);
      var py := Max(a.y, b.y);
      assert a.Contains(px, py) && b.Contains(px, py);
    }
  }

  // ---------------------------------------------------------------------------
  // Circle–circle

  /** Circle overlap does not depend on the order of the circles. */
  lemma CircleOverlapSymmetric(a: Circle, b: Circle)
    ensures CircleOverlap(a, b) == CircleOverlap(b, a)
  {
    assert Abs(a.x - b.x) == Abs(b.x - a.x);
    assert Abs(a.y - b.y) == Abs(b.y - a.y);
    assert a.radius + b.radius == b.radius + a.radius;
  }

  /** Every circle overlaps itself. */
  lemma CircleOverlapsItself(c: Circle)
    ensures CircleOverlap(c, c)
  {
  }

  /** Two concrete circle pairs on either side of the boundary: radius 5 at the origin meets radius 5 at (7, 7), not at (8, 8). */
  lemma CircleOverlapExamples()
    ensures CircleOverlap(Circle(0, 0, 5), Circle(7, 7, 5))
    ensures !CircleOverlap(Circle(0, 0, 5), Circle(8, 8, 5))
  {
  }

  // ---------------------------------------------------------------------------
  // Circle–box

  /** The classic clamped-closest-point test: the circle reaches the nearest point of the box. */
  predicate ClosestPointWithin(c: Circle, b: Rect) {
    var ex := Max(Abs(c.x - b.CenterX()) - b.width / 2, 0);
    var ey := Max(Abs(c.y - b.CenterY()) - b.height / 2, 0);
    ex * ex + ey * ey <= c.radius * c.radius
  }

  lemma SquareMonotone(a: int, b: int)
    requires 0 <= a <= b
    ensures a * a <= b * b
  {
    assert a * a <= a * b;
    assert a * b <= b * b;
  }

  lemma SquareStrictlyMonotone(a: int, b: int)
    requires 0 <= a < b
    ensures a * a < b * b
  {
    assert a * a <= a * b;
    assert a * b < b * b;
  }

  /** The early rejects: beyond half-extent plus radius on either axis, the answer is false. */
  lemma CircleBoxEarlyReject(c: Circle, b: Rect)
    requires Abs(c.x - b.CenterX()) > b.width / 2 + c.radius ||
             Abs(c.y - b.CenterY()) > b.height / 2 + c.radius
    ensures !CircleBoxOverlap(c, b)
  {
  }

  /** The early accepts: past the rejects, a centre within the half-extent on either axis is a hit. */
  lemma CircleBoxEarlyAccept(c: Circle, b: Rect)
    requires Abs(c.x - b.CenterX()) <= b.width / 2 + c.radius
    requires Abs(c.y - b.CenterY()) <= b.height / 2 + c.radius
    requires Abs(c.x - b.CenterX()) <= b.width / 2 || Abs(c.y - b.CenterY()) <= b.height / 2
    ensures CircleBoxOverlap(c, b)
  {
  }

  /** With a non-negative radius, the source's case analysis is exactly the clamped-closest-point test. */
  lemma {:induction false} CircleBoxIsClosestPoint(c: Circle, b: Rect)
    requires c.radius >= 0
    ensures CircleBoxOverlap(c, b) == ClosestPointWithin(c, b)
  {
    var dx := Abs(c.x - b.CenterX());
    var dy := Abs(c.y - b.CenterY());
    var hw := b.width / 2;
    var hh := b.height / 2;
    var ex := Max(dx - hw, 0);
    var ey := Max(dy - hh, 0);
    if dx > hw + c.radius {
      SquareStrictlyMonotone(c.radius, ex);
      assert ey * ey >= 0;
    } else if dy > hh + c.radius {
      SquareStrictlyMonotone(c.radius, ey);
      assert ex * ex >= 0;
    } else if dx <= hw {
      SquareMonotone(ey, c.radius);
    } else if dy <= hh {
      SquareMonotone(ex, c.radius);
    }
  }

  /** The box as the circle test places it: the points within half-extent of its centre. */
  predicate InBoxAroundCenter(b: Rect, px: int, py: int) {
    Abs(px - b.CenterX()) <= b.width / 2 && Abs(py - b.CenterY()) <= b.height / 2
  }

  /** The circle reaches the closest point iff it reaches some integer point of the box. */
  lemma {:induction false} ClosestPointIffSharedPoint(c: Circle, b: Rect)
    requires b.width >= 0 && b.height >= 0
    ensures ClosestPointWithin(c, b) <==>
              exists px, py :: InBoxAroundCenter(b, px, py) &&
                               (px - c.x) * (px - c.x) + (py - c.y) * (py - c.y) <= c.radius * c.radius
  {
    var hw := b.width / 2;
    var hh := b.height / 2;
    var ex := Max(Abs(c.x - b.CenterX()) - hw, 0);
    var ey := Max(Abs(c.y - b.CenterY()) - hh, 0);
    if ClosestPointWithin(c, b) {
      var px := Clamp(c.x, b.CenterX() - hw, b.CenterX() + hw);
      var py := Clamp(c.y, b.CenterY() - hh, b.CenterY() + hh);
      assert Abs(px - c.x) == ex;
      assert Abs(py - c.y) == ey;
      assert (px - c.x) * (px - c.x) == ex * ex by { AbsSquare(px - c.x); }
      assert (py - c.y) * (py - c.y) == ey * ey by { AbsSquare(py - c.y); }
      assert InBoxAroundCenter(b, px, py);
    }
    if exists px, py :: InBoxAroundCenter(b, px, py) &&
                        (px - c.x) * (px - c.x) + (py - c.y) * (py - c.y) <= c.radius * c.radius {
      var px, py :| InBoxAroundCenter(b, px, py) &&
                    (px - c.x) * (px - c.x) + (py - c.y) * (py - c.y) <= c.radius * c.radius;
      assert ex <= Abs(px - c.x);
      assert ey <= Abs(py - c.y);
      SquareMonotone(ex, Abs(px - c.x));
      SquareMonotone(ey, Abs(py - c.y));
      AbsSquare(px - c.x);
      AbsSquare(py - c.y);
    }
  }

  function Clamp(v: int, lo: int, hi: int): int {
    if v < lo then lo else if v > hi then hi else v
  }

  lemma AbsSquare(n: int)
    ensures Abs(n) * Abs(n) == n * n
  {
  }

  /** Circle–box overlap means the circle and the box share a point. */
  lemma CircleBoxIffSharedPoint(c: Circle, b: Rect)
    requires c.radius >= 0 && b.width >= 0 && b.height >= 0
    ensures CircleBoxOverlap(c, b) <==>
              exists px, py :: InBoxAroundCenter(b, px, py) &&
                               (px - c.x) * (px - c.x) + (py - c.y) * (py - c.y) <= c.radius * c.radius
  {
    CircleBoxIsClosestPoint(c, b);
    ClosestPointIffSharedPoint(c, b);
  }

  // ---------------------------------------------------------------------------
  // Dispatch

  /** A box facing a tagged circle returns exactly the circle's answer about that box. */
  lemma BoxDefersToCircle(a: Collider, b: Collider)
    requires a.BoxCollider? && b.CircleCollider? && b.tagged
    ensures CheckCollision(a, b) == CheckCollision(b, a) == CircleBoxOverlap(b.circle, a.rect)
  {
  }

  /** Between tagged colliders, whether two colliders collide does not depend on who asks. */
  lemma CheckCollisionSymmetric(a: Collider, b: Collider)
    requires Tagged(a) && Tagged(b)
    ensures CheckCollision(a, b) == CheckCollision(b, a)
  {
    if a.CircleCollider? && b.CircleCollider? {
      CircleOverlapSymmetric(a.circle, b.circle);
    }
  }

  /** The base collider collides with nothing, and nothing collides with it. */
  lemma BaseColliderNeverCollides(a: Collider, b: Collider)
    requires a.BaseCollider?
    ensures !CheckCollision(a, b) && !CheckCollision(b, a)
  {
  }

  /**
    Counterexample for the untagged circle: with the box's centre as the corrected dispatch
    reads it, a circle asking about a box that contains its centre collides, and the box
    asking about the same pair does not. As written the circle's question raises instead,
    while the box still answers no.
  */
  lemma UntaggedCircleIsOneSided()
    ensures var circle := NewCircleColliderAsWritten(5, 0, 0);
            var box := NewBoxCollider(-5, -5, 10, 10);
            CheckCollision(circle, box) && !CheckCollision(box, circle)
    ensures var circle := NewCircleColliderAsWritten(5, 0, 0);
            var box := NewBoxCollider(-5, -5, 10, 10);
            CheckCollisionAsWritten(circle, box) == Failure("centerx") && CheckCollisionAsWritten(box, circle) == Success(false)
  {
  }

  /** An untagged circle is never hit, not even by an identical circle, with the dispatch corrected or as written. */
  lemma UntaggedCircleNeverHit(other: Collider, radius: int, x: int, y: int)
    ensures !CheckCollision(other, NewCircleColliderAsWritten(radius, x, y))
    ensures CheckCollisionAsWritten(other, NewCircleColliderAsWritten(radius, x, y)) == Success(false)
  {
  }

  /** With its tag set, a circle collides with an identical circle. */
  lemma TaggedCircleHitsItsTwin(radius: int, x: int, y: int)
    ensures CheckCollision(NewCircleCollider(radius, x, y), NewCircleCollider(radius, x, y))
  {
    CircleOverlapsItself(Circle(x, y, radius));
  }

  /** Two concrete box pairs: (0,0,10,10) meets (5,5,10,10) but not (20,20,10,10). */
  lemma BoxExamples()
    ensures CheckCollision(NewBoxCollider(0, 0, 10, 10), NewBoxCollider(5, 5, 10, 10))
    ensures !CheckCollision(NewBoxCollider(0, 0, 10, 10), NewBoxCollider(20, 20, 10, 10))
  {
  }

  // ---------------------------------------------------------------------------
  // The dispatch as written

  /**
    `check_collision` as the source writes it. The box–box branch uses the test as
    written, and a circle facing a box raises `AttributeError`: `_collide_with_box`
    reads `collider.centerx`, which a `BoxCollider` does not define. The error is the
    name of the missing attribute.
  */
  function CheckCollisionAsWritten(a: Collider, b: Collider): (r: Result<bool, string>)
    ensures a.BaseCollider? ==> r == Success(false)
    ensures Tag(b) == None ==> r == Success(false)
    ensures r.Failure? <==> (a.CircleCollider? && b.BoxCollider?) || (a.BoxCollider? && Tag(b) == Some(CircleKind))
    ensures r.Failure? ==> r.error == "centerx"
    ensures a.BoxCollider? && b.BoxCollider? ==> r == Success(BoxOverlapAsWritten(a.rect, b.rect))
    ensures r.Success? && !(a.BoxCollider? && b.BoxCollider?) ==> r.value == CheckCollision(a, b)
    decreases if a.BoxCollider? then 1 else 0
  {
    match a
    case BaseCollider(_) => Success(false)
    case BoxCollider(ra) =>
      if Tag(b) == Some(BoxKind) then Success(BoxOverlapAsWritten(ra, b.rect))
      else if Tag(b) == Some(CircleKind) then CheckCollisionAsWritten(b, a)
      else Success(false)
    case CircleCollider(ca, _) =>
      if Tag(b) == Some(CircleKind) then Success(CircleOverlap(ca, b.circle))
      else if Tag(b) == Some(BoxKind) then Failure("centerx")
      else Success(false)
  }

  /**
    Counterexample: a tagged radius-5 circle at the origin and the box (0,0,10,10)
    overlap, yet asking either of them raises as written.
  */
  lemma CircleBoxRaisesAsWritten()
    ensures CheckCollision(NewCircleCollider(5, 0, 0), NewBoxCollider(0, 0, 10, 10))
    ensures CheckCollisionAsWritten(NewCircleCollider(5, 0, 0), NewBoxCollider(0, 0, 10, 10)) == Failure("centerx")
    ensures CheckCollisionAsWritten(NewBoxCollider(0, 0, 10, 10), NewCircleCollider(5, 0, 0)) == Failure("centerx")
  {
  }

  /**
    Counterexample: the boxes (0,0,10,10) and (14,0,30,10) share no pixel; the
    dispatch as written reports them colliding, the corrected one does not.
  */
  lemma BoxDispatchDisagreesAsWritten()
    ensures CheckCollisionAsWritten(NewBoxCollider(0, 0, 10, 10), NewBoxCollider(14, 0, 30, 10)) == Success(true)
    ensures !CheckCollision(NewBoxCollider(0, 0, 10, 10), NewBoxCollider(14, 0, 30, 10))
  {
  }
}

=== FILE: wrappers.dfy ===
/** Optional values and results with an error, shared by every module of the model. */
module Wrappers {

  /** A value that may be absent: Python's `None` versus a present value. */
  datatype Option<+T> = None | Some(value: T)

  /** The outcome of an operation that may raise: a value, or the error it raised. */
  datatype Result<+T, +E> = Success(value: T) | Failure(error: E)
}
